=== FILE: README.md ===
# apertools raster I/O and GPS/InSAR tables, modelled in Dafny

This project models the two core modules of `apertools`. It then proves
properties of the model.

- `apertools/sario.py` reads and writes SAR rasters. The parts modelled are:
  - the `.rsc`/annotation metadata rules and the width check;
  - the real, complex and dual-band ("stacked") decoders, with round trips:
    the real and dual-band ones through `save`, the complex one through the
    interleaved real/imaginary sample stream that `save` writes as raw cells;
  - the extension tables and `is_complex`;
  - the compound `.grd` extension and the single-sidecar rule;
  - the argument checks and branch order of `load_file`;
  - `load_stack`'s fill loop;
  - date parsing (`strptime("%Y%m%d")`, including the regular-expression
    backtracking of `%m`/`%d`);
  - interferogram and geocoded name handling, and `get_full_path`.
- `apertools/gps.py` puts GPS and InSAR time series on one daily axis. The
  parts modelled are:
  - the left merge on `dts` and `combine_insar_gps_dfs`;
  - `create_gps_los_df` (two loops);
  - `subtract_reference` (a loop on a copy);
  - `_remove_bad_cols` (in-place column drops on a `DataFrame` class);
  - the HDF5 cache of `get_stack_timeseries` (an `H5File` class);
  - `_clean_gps_df`, `station_lonlat` and `_load_station_list`.

A sample is an opaque value `T`. A raster is a row-major `seq<seq<T>>` and a
file's content is the sample stream `np.fromfile` returns. Dates in tables
are day numbers. A null (NaN) cell is `None`. Every Python exception the
code raises is one constructor of `Base.Error`, returned in a `Result`.

Modules, one per file:

| module | file | models |
|---|---|---|
| `Base` | `base.dfy` | `Option`, `Result`, the error kinds |
| `PyStr` | `pystr.dfy` | Python's `in`, `replace`, `strip`, `split` and `join` |
| `Calendar` | `calendar.dfy` | the `datetime` calendar |
| `SarioCodec` | `sario_codec.dfy` | reshape, de-interleave, the three decoders, `[::d]` slicing |
| `SarioFormats` | `sario_formats.dfy` | extension tables, `is_complex`, `_get_full_grd_ext`, `find_rsc_file` |
| `SarioLoad` | `sario_load.dfy` | `load_file`, `save`, `save_hgt`, `load_stack` |
| `SarioNames` | `sario_names.dfy` | `_parse`, `_strip_geoname`, the list parsers, `find_igrams` names, `get_full_path` |
| `GpsFrames` | `gps_frames.dfy` | tables, `pd.merge(how="left")`, `combine_insar_gps_dfs`, `create_gps_los_df` |
| `GpsReference` | `gps_reference.dfy` | `subtract_reference` |
| `GpsPrune` | `gps_prune.dfy` | `_remove_bad_cols` |
| `GpsCache` | `gps_cache.dfy` | `get_stack_timeseries` |
| `GpsStations` | `gps_stations.dfy` | `_clean_gps_df`, `station_lonlat`, `_load_station_list` |

Behaviours of the code that the model keeps, and proves, even where they
look unintended:

- `downsample=0` is falsy, so it passes validation. A stacked file then
  fails at the `[::0]` slice, after loading.
- A Sentinel file with a sidecar is decoded as complex, `.amp` included,
  unless its extension is a dual-band one (`.cc`, `.unw`, `.unwflat`),
  which takes the dual-band branch first.
- The `.grd` rule matches the bare token `cc` anywhere in the name, so
  `acc.grd` gets the extension `.acc.grd`, which no table lists.
- `strip('.int')` removes characters, not a suffix.
- `%m` prefers `11`, so `201811` parses as 1 January 2018 after
  backtracking.
- A day repeated in the right table duplicates rows in a left merge.
- `_load_station_list` groups duplicate names rather than removing them.
- An end year keeps only 1 January of that year.
- A station whose series fails to load, or whose values and dates differ
  in length, makes the whole of `create_gps_los_df` fail with that error:
  no station is skipped.

## Model

| member | source | states |
|---|---|---|
| PyStr.ReplaceAll | apertools/sario.py:601 | `s.replace(pat, rep)` leaves a string without `pat` unchanged |
| PyStr.ReplaceAtEnd | apertools/sario.py:601 | a trailing `pat` (`.geo` here, `(m)` in the column mapper) is removed from a string that holds none of `pat`'s first character |
| PyStr.ReplaceKeepsChars | apertools/sario.py:601 | `replace` brings in no character that is in neither the string nor the replacement |
| PyStr.ReplaceSkips | apertools/sario.py:601 | a prefix that cannot start `pat` passes through `replace` untouched |
| PyStr.ReplaceAtFront | apertools/sario.py:601 | an occurrence of `pat` at the front is replaced and the scan goes on after it |
| PyStr.LStrip | apertools/sario.py:625 | `lstrip(chars)` removes a prefix made only of `chars`, and what is left does not start with one |
| PyStr.RStrip | apertools/sario.py:625 | `rstrip(chars)` removes a suffix made only of `chars`, and what is left does not end with one |
| PyStr.Strip | apertools/sario.py:625 | `strip(chars)` never lengthens the string |
| PyStr.StripEnds | apertools/sario.py:625 | what `strip(chars)` leaves neither starts nor ends with one of `chars` |
| PyStr.StripAll | apertools/sario.py:625 | a string made only of `chars` strips to the empty string |
| PyStr.StripNone | apertools/sario.py:625 | a string that starts and ends outside `chars` is left as it is |
| PyStr.LStripPrefix | apertools/sario.py:625 | a prefix of `chars` in front of a word that does not start with one is exactly what `lstrip` removes |
| PyStr.RStripSuffix | apertools/sario.py:625 | a suffix of `chars` after a word that does not end with one is exactly what `rstrip` removes |
| PyStr.StripAround | apertools/sario.py:625 | `strip(chars)` of `u + x + t` is `x` when `u` and `t` consist of `chars` and `x` starts and ends outside them |
| PyStr.Split | apertools/sario.py:625 | `split(sep)` gives at least one part, and no part holds `sep` |
| PyStr.SplitNoSep | apertools/sario.py:625 | a string without the separator splits into itself alone |
| PyStr.SplitConcat | apertools/sario.py:625 | splitting `x + sep + y` is splitting `x` followed by splitting `y` |
| PyStr.JoinSplit | apertools/sario.py:179 | `sep.join(s.split(sep))` is `s` |
| PyStr.SplitJoin | apertools/sario.py:179 | splitting the join of separator-free parts gives the parts back |
| PyStr.Join | apertools/sario.py:179 | `sep.join(parts)` of two or more parts has the separator right after the first part |
| PyStr.JoinEnds | apertools/sario.py:179 | `sep.join(parts)` starts with the first part and ends with the last |
| PyStr.ContainsAt | apertools/gps.py:458-460 | `sub in s` holds when `sub` occurs at some position of `s` |
| PyStr.ContainsIndex | apertools/gps.py:458-460 | when `sub in s` holds, `sub` occurs at some position of `s` |
| PyStr.StartsEndsWithMeaning | apertools/sario.py:465-469 | `startswith(p)` holds iff the string is `p` followed by its rest, `endswith(p)` iff it is its front followed by `p`, and either way `p in s` |
| PyStr.StartsEndsConcat | apertools/sario.py:465-469 | `a + b` starts with `a` and ends with `b` |
| GpsFrames.Find | apertools/gps.py:498 | the row holding a day, or none exactly when the day is absent |
| SarioCodec.FlattenLength | apertools/sario.py:415 | `tofile` of a `rows x cols` raster writes `rows*cols` samples |
| SarioCodec.Reshape | apertools/sario.py:259 | `reshape([-1, cols])` of a stream whose length is a multiple of `cols` is a `cols`-wide raster with `len/cols` rows whose row-major stream is the input |
| SarioCodec.ReshapeFlatten | apertools/sario.py:259 | reshaping the stream of a `cols`-wide raster to `cols` gives the raster back |
| SarioCodec.FlattenInjective | apertools/sario.py:259 | two rasters of the same positive width with the same stream are equal |
| SarioCodec.FlattenCell | apertools/sario.py:415 | pixel `(r, c)` of a `cols`-wide raster is sample `r*cols + c` of what `tofile` writes |
| SarioCodec.Evens | apertools/sario.py:352 | `s[::2]` has `ceil(n/2)` elements, element `i` being sample `2i` |
| SarioCodec.Odds | apertools/sario.py:353 | `s[1::2]` has `floor(n/2)` elements, element `i` being sample `2i+1` |
| SarioCodec.ComplexStream | apertools/sario.py:26 | the float stream of complex64 pixels: pixel `i`'s real part at `2i`, its imaginary part at `2i+1` |
| SarioCodec.EvensOddsOfStream | apertools/sario.py:352-353 | de-interleaving a complex stream returns exactly the real parts and the imaginary parts |
| SarioCodec.StreamOfHalves | apertools/sario.py:352-353 | pairing the even and odd samples of an even-length stream and writing the pairs out gives the stream |
| SarioCodec.ComplexStreamInjective | apertools/sario.py:359 | complex pixel sequences with the same float stream are equal |
| SarioCodec.GetFileRowsCols | apertools/sario.py:222-229 | both sources is a conflict error and neither is a missing error, each iff; otherwise the shape is `(file_length, width)` from the `.rsc` or `(rows, cols)` from the annotation |
| SarioCodec.AssertValidSize | apertools/sario.py:232-239 | passes iff `cols > 0` and `cols` divides the sample count; a zero width is its own error (ZeroDivisionError) |
| SarioCodec.LoadReal | apertools/sario.py:242-259 | metadata errors propagate; succeeds iff the width is positive and divides the stream; the raster is `cols` wide, has `len/cols` rows and streams back to the file; the metadata row count is ignored |
| SarioCodec.LoadRealAt | apertools/sario.py:256-259 | pixel `(r, c)` of the decoded real raster is sample `r*cols + c` |
| SarioCodec.RealRoundTrip | apertools/sario.py:256-259 | decoding the stream of a raster of the metadata width returns the raster |
| SarioCodec.ParseComplexData | apertools/sario.py:349-354 | succeeds iff both halves are multiples of `cols`; the real half streams to the even samples and the imaginary half to the odd ones, each `cols` wide |
| SarioCodec.ParseComplexAt | apertools/sario.py:349-354 | real pixel `(r, c)` is sample `2(r*cols+c)` and imaginary pixel `(r, c)` is sample `2(r*cols+c)+1` |
| SarioCodec.HalvesDivisible | apertools/sario.py:352-353 | with `cols >= 2`, both halves being multiples of `cols` forces the stream to be a multiple of `2*cols` |
| SarioCodec.CombineRealImag | apertools/sario.py:357-359 | `real + 1j*imag` succeeds iff the row counts are equal or one is 1 (broadcasting); row `i` zips the (possibly repeated) rows; the result has the broadcast row count |
| SarioCodec.FlattenCombined | apertools/sario.py:357-359 | combining two halves of one shape succeeds, and its stream zips the halves' streams |
| SarioCodec.LoadComplex | apertools/sario.py:262-280 | metadata errors propagate; a zero width and a stream not divisible by the width are refused before de-interleaving |
| SarioCodec.LoadComplexLayout | apertools/sario.py:262-280 | a stream of `2*rows*cols` samples decodes to a `rows x cols` complex raster whose complex64 stream is the file |
| SarioCodec.LoadComplexRejectsPartialRows | apertools/sario.py:275-280 | with at least two columns, a stream that is not a whole number of interleaved rows is refused |
| SarioCodec.ComplexRoundTrip | apertools/sario.py:262-280 | decoding the complex64 stream of a raster of the metadata width returns the raster |
| SarioCodec.Hstack | apertools/sario.py:421 | `np.hstack` of two equal-height rasters: row `i` is `a[i] + b[i]` |
| SarioCodec.HstackInjective | apertools/sario.py:421 | side-by-side bands of a known left width can be separated again |
| SarioCodec.Columns | apertools/sario.py:321-322 | `m[:, lo:hi]` keeps the row count and cuts each row to `[lo, hi)` |
| SarioCodec.StackedWidth | apertools/sario.py:319 | a stream of `rows * 2cols` samples passes the width check |
| SarioCodec.LoadStackedImg | apertools/sario.py:283-326 | metadata errors propagate; succeeds iff the width is positive and the stream holds exactly `rows * 2cols` samples; with `return_amp` two `rows x cols` bands whose side-by-side stream is the file, otherwise one `rows x cols` raster |
| SarioCodec.LoadStackedAt | apertools/sario.py:317-322 | band 0 pixel `(r, c)` is sample `r*2cols + c` and band 1 pixel `(r, c)` is sample `r*2cols + cols + c` |
| SarioCodec.StackedPhaseOnly | apertools/sario.py:323-326 | without `return_amp` the load succeeds exactly when the full load does, and returns its band 1 |
| SarioCodec.EncodeStacked | apertools/sario.py:416-421 | writing a 3-D array succeeds iff it has at least two bands, and writes bands 0 and 1 side by side, row-major |
| SarioCodec.StackedRoundTrip | apertools/sario.py:317-324 | two bands of the metadata shape, encoded and loaded with `return_amp`, come back unchanged |
| SarioCodec.StackedExample | apertools/sario.py:301-315 | a concrete 2 x 3 dual-band file splits into its amplitude rows and its phase rows |
| SarioCodec.Every | apertools/sario.py:164 | `s[::d]` has `ceil(n/d)` elements, element `i` being `s[i*d]` |
| SarioCodec.EveryKeeps | apertools/sario.py:164 | every index that is a multiple of `d` is kept, at position `k/d` |
| SarioCodec.Subsample | apertools/sario.py:164 | `m[::d, ::d]` strides the rows and then each kept row |
| SarioCodec.StridedSlice | apertools/sario.py:164 | `a[..., ::d, ::d]` keeps the rank, strides the last two axes and keeps the band count |
| SarioFormats.IsComplex | apertools/sario.py:329-346 | refused iff the extension is in neither table; `.grd`/`.mlc` are complex iff the name holds a complex polarisation; any other extension is complex iff it is in the complex table |
| SarioFormats.TablesOverlapOnlyInMlc | apertools/sario.py:47-63 | `.mlc` is the only extension in both the complex and the real table |
| SarioFormats.RadarExtsClassified | apertools/sario.py:28-63 | every Sentinel or UAVSAR extension that is not dual-band is classified without error |
| SarioFormats.GrdFollowsPolarisation | apertools/sario.py:342-344 | a `.grd` file is complex exactly when its name holds a complex polarisation |
| SarioFormats.LastTwo | apertools/sario.py:179 | `parts[-2:]` is the last two parts, or all of them when there are fewer |
| SarioFormats.FullGrdExt | apertools/sario.py:177-183 | a name without any of the four tokens keeps `.grd`; the result always starts with a dot |
| SarioFormats.SplitLastTwo | apertools/sario.py:179 | the last two dot-separated pieces of `base.a.b` are `a` and `b`, whatever dots `base` holds |
| SarioFormats.FullGrdExtCompound | apertools/sario.py:177-181 | a triggering name `base.a.b` gets the extension `.a.b` |
| SarioFormats.FullGrdExtIntGrd | apertools/sario.py:177-181 | `<base>.int.grd` gets `.int.grd` |
| SarioFormats.SplitPair | apertools/sario.py:179 | `a.b` splits on dots into `a` and `b` |
| SarioFormats.CcTriggers | apertools/sario.py:178 | a name holding `cc` anywhere triggers the compound-extension rule |
| SarioFormats.FullGrdExtPair | apertools/sario.py:177-181 | a triggering name `a.b` gets the extension `.a.b` |
| SarioFormats.FullGrdExtBareCc | apertools/sario.py:178 | every dot-free word holding `cc` (such as `acc`) gets `.<word>.grd` |
| SarioFormats.AccGrdUnlisted | apertools/sario.py:47-71 | `.acc.grd` is in none of the complex, real and stacked tables |
| SarioFormats.FindRscFile | apertools/sario.py:212-219 | no candidate is no sidecar, exactly one is that sidecar, more than one is an error, each iff |
| SarioLoad.ResolveLooks | apertools/sario.py:105-113 | a truthy `downsample` must be a positive int and becomes `(d, d)`; otherwise non-empty `looks` must be all positive ints and are kept; otherwise `(1, 1)`; every resolved look is at least 1 |
| SarioLoad.SliceStep | apertools/sario.py:164 | no `downsample` is step 1, a positive int is itself, int zero is the zero-step error, a float is the non-integer error |
| SarioLoad.ResolveRsc | apertools/sario.py:131-141 | fails iff a Sentinel file has no explicit `rsc_file` and several candidates; an explicit path is read; otherwise a single candidate is read, and anything else gives no metadata |
| SarioLoad.LoadFile | apertools/sario.py:79-170 | validation errors come first; `.npy`, elevation and image files short-cut with the resolved looks; a stacked result has rank 3 iff `return_amp` |
| SarioLoad.LoadFileRadar | apertools/sario.py:131-160 | for a radar extension, a failed sidecar search propagates, and neither an annotation nor an `.rsc` path is the "Need .rsc file or .ann file" error |
| SarioLoad.LoadFileComplex | apertools/sario.py:165-168 | with metadata, sidecar data or a complex extension make the result `load_complex` of the file with the annotation and `.rsc` in force, carrying the resolved looks; its error propagates |
| SarioLoad.LoadFileReal | apertools/sario.py:165-170 | with metadata and no sidecar data, a real extension makes the result `load_real` of the file, carrying the resolved looks, and an extension in neither table raises `is_complex`'s error |
| SarioLoad.StackedExt | apertools/sario.py:117-135 | a dual-band extension passes none of the earlier branches |
| SarioLoad.StackedIgnoresLooks | apertools/sario.py:162-164 | for a dual-band file the result does not depend on `looks` |
| SarioLoad.StackedIsStrided | apertools/sario.py:162-164 | a successful dual-band load is the full `load_stacked_img` result sliced by `downsample` (step 1 when absent) |
| SarioLoad.ZeroDownsampleOnStacked | apertools/sario.py:105-164 | `downsample=0` resolves to looks `(1, 1)`, and a dual-band file then fails with the zero-step error |
| SarioLoad.RscPathCheckedNotData | apertools/sario.py:159-160 | a given `rsc_file` whose reader yields nothing passes line 159 and fails as missing metadata |
| SarioLoad.NoMetadataRefused | apertools/sario.py:159-160 | a Sentinel file with no sidecar and no annotation is refused with "Need .rsc file or .ann file" |
| SarioLoad.SentinelSidecarMeansComplex | apertools/sario.py:165-168 | an `.amp` file with a readable sidecar loads as complex although `is_complex` calls `.amp` real |
| SarioLoad.Save | apertools/sario.py:362-424 | a dual-band extension needs a 3-D array with at least two bands; an extension in no table is refused; a successful non-png save writes a raw buffer |
| SarioLoad.SaveHgt | apertools/sario.py:427-428 | `np.stack` refuses amplitude and height of different shapes, and only those; with equal shapes, to a dual-band file name, `save_hgt` writes the amplitude and height rows side by side, row-major |
| SarioLoad.SaveHgtLoads | apertools/sario.py:427-428 | the file `save_hgt` writes loads back with `return_amp` as its two bands |
| SarioLoad.SaveLoadReal | apertools/sario.py:409-415 | saving a real raster to a flat format and decoding the buffer with its width returns the raster |
| SarioLoad.SaveLoadStacked | apertools/sario.py:416-421 | saving two bands to a dual-band format and loading with `return_amp` returns both bands |
| SarioLoad.Shape | apertools/sario.py:452-455 | `img.shape` of a rectangular raster is its row count and its width |
| SarioLoad.BroadcastRow | apertools/sario.py:460 | a row of length `cols` or 1 is widened to `cols`, a single value repeated |
| SarioLoad.BroadcastTo | apertools/sario.py:460 | `out[idx] = img` succeeds iff each dimension matches or is 1; the slot is `rows x cols`, and an exactly-shaped image is stored unchanged |
| SarioLoad.AssignSlot | apertools/sario.py:460 | `out[idx] = img` for an image of any rank: a 1-D image fits iff its length is the width or 1 and fills every row; a 2-D image broadcasts as `BroadcastTo` says; a 3-D image fits only with a single band |
| SarioLoad.FillStack | apertools/sario.py:458-460 | a successful fill has one slot per file, each the broadcast of that file's loaded raster |
| SarioLoad.FillStackSucceeds | apertools/sario.py:458-460 | when every file loads and fits, the fill succeeds |
| SarioLoad.FillStackStops | apertools/sario.py:458-460 | a failure among the first `n` files is the failure of the whole fill |
| SarioLoad.StackFiles | apertools/sario.py:445-449 | an error iff neither a list nor an extension is given; a given list is used as is |
| SarioLoad.LoadStackSpec | apertools/sario.py:431-462 | an empty file list is an IndexError; a failing first load is its error, and a first image that is not 2-D fails the `nrows, ncols = test.shape` unpack; on success the first image is 2-D and there is one slot per file, each of its shape |
| SarioLoad.LoadStackExact | apertools/sario.py:452-462 | when every file loads to the same shape, the stack holds exactly the loaded rasters in list order |
| SarioLoad.LoadStackRowImage | apertools/sario.py:452-460 | a later 1-D image fits its slot only when it is as wide as the first image, or has length 1, and is then repeated down every row |
| SarioLoad.LoadStack | apertools/sario.py:431-462 | the method returns what `LoadStackSpec` describes |
| SarioLoad.FillSlots | apertools/sario.py:455-460 | the preallocate-and-fill loop returns what `FillStack` describes |
| SarioNames.MonthAt | apertools/sario.py:560 | each matching `%m` alternative ends one or two characters on and has a value in 1..12 |
| SarioNames.DayAt | apertools/sario.py:560 | each matching `%d` alternative ends one or two characters on and has a value in 1..31 |
| SarioNames.FirstMatch | apertools/sario.py:560 | the chosen month alternative is one after which a day matches, paired with the first such day; none when no month allows a day |
| SarioNames.Parse | apertools/sario.py:559-560 | every failure is the date error; a success is a valid date from a 6- to 8-character string whose first four characters are digits giving the year |
| SarioNames.FormatDate | apertools/sario.py:560 | formatting a date gives eight digits, the inverse that `ParseFormat` pairs with `Parse` |
| SarioNames.ParseFormat | apertools/sario.py:559-560 | parsing a formatted date returns the date |
| SarioNames.ParseSevenDigits | apertools/sario.py:559-560 | `2018111` parses as 1 November 2018 |
| SarioNames.BacktrackToMonthOne | apertools/sario.py:559-560 | a six-character `YYYY11` backtracks to month 1, day 1 |
| SarioNames.ParseBacktracks | apertools/sario.py:559-560 | `201811` parses as 1 January 2018 |
| SarioNames.ParseMonthThirteen | apertools/sario.py:559-560 | `20181301` is refused |
| SarioNames.MapAll | apertools/sario.py:552 | a list comprehension over a raising function succeeds iff every element does, keeping order; otherwise the first failure is raised |
| SarioNames.ParseGeolistStrings | apertools/sario.py:551-552 | succeeds iff every string parses, giving each one's date in order; any failure is the date error |
| SarioNames.ParsePair | apertools/sario.py:556 | anything but two items is an unpacking error; succeeds iff both parse |
| SarioNames.ParseIntlistStrings | apertools/sario.py:555-556 | succeeds iff every pair unpacks and parses, giving each pair's dates in order; a bad first entry is an unpacking error |
| SarioNames.StripGeonameDate | apertools/sario.py:599-601 | `S1A_YYYYmmdd.geo` and `S1B_YYYYmmdd.geo` strip to the date string and parse to the date |
| SarioNames.StripGeoname | apertools/sario.py:599-601 | removing the three tokens never lengthens a name, and a name holding none of them comes back unchanged |
| SarioNames.NoSatellite | apertools/sario.py:601 | a name without `S` is unchanged by both satellite replacements |
| SarioNames.StripFirst | apertools/sario.py:601 | removing `p`, then `q`, from `p + t` leaves `t` when neither starts with a character of `t` |
| SarioNames.StripSatA | apertools/sario.py:601 | `S1A_` in front is removed by the two satellite replacements |
| SarioNames.StripSatB | apertools/sario.py:601 | `S1B_` in front survives the `S1A_` replacement and is removed by the next one |
| SarioNames.StripIntTail | apertools/sario.py:625 | `(x + t).strip('.int')` is `x` when `t` holds only `.`, `i`, `n`, `t` and `x` starts and ends with other characters |
| SarioNames.SplitUnderscore | apertools/sario.py:625 | `e_l` splits on `_` into `e` and `l` |
| SarioNames.IgramNameParts | apertools/sario.py:624-625 | the parts hold no `_` and, joined with `_`, give back the stripped base name |
| SarioNames.IgramDatePairs | apertools/sario.py:623-626 | succeeds iff every file name splits into a parseable pair, and then gives one date pair per file |
| SarioNames.IgramNamePartsOf | apertools/sario.py:624-625 | the base name `e_l<t>` of a path splits into `e` and `l` for digit strings and a tail of stripped characters |
| SarioNames.IgramNameDates | apertools/sario.py:624-626 | `dir/YYYYmmdd_YYYYmmdd<t>` yields its two dates for any tail of `.`, `i`, `n`, `t` |
| SarioNames.OneIgram | apertools/sario.py:624-626 | a name splitting into two parseable parts yields their date pair |
| SarioNames.TailStart | apertools/sario.py:467 | the last component starts just after the last `/` and holds none |
| SarioNames.PathSplit | apertools/sario.py:467 | the tail is slash-free and ends the path; the head starts it |
| SarioNames.PathJoin | apertools/sario.py:469 | the joined path ends with the file name |
| SarioNames.PathSplitLast | apertools/sario.py:467 | splitting `d/f` gives `f`, and `d` when `d` has no trailing slash |
| SarioNames.GetFullPath | apertools/sario.py:465-470 | a truthy `full_path` is split; otherwise it succeeds iff both parts are given and joins them, else a type error |
| SarioNames.GetFullPathRoundTrip | apertools/sario.py:465-470 | joining a directory and a file name and passing the result back as `full_path` recovers both |
| GpsFrames.DateRange | apertools/gps.py:496 | `date_range(lo, hi)` has `hi - lo + 1` days (none when `lo > hi`), day `i` being `lo + i` |
| GpsFrames.DateRangeDays | apertools/gps.py:496 | the axis is gap-free and repeat-free and holds exactly the days of the window |
| GpsFrames.MinOf | apertools/gps.py:492 | `np.min` is an element no larger than any other |
| GpsFrames.MaxOf | apertools/gps.py:493 | `np.max` is an element no smaller than any other |
| GpsFrames.Matches | apertools/gps.py:498 | the right rows holding a day, increasing; none only when the day is absent |
| GpsFrames.MatchesDistinct | apertools/gps.py:498 | with distinct dates a day matches at most once |
| GpsFrames.FindIsMatch | apertools/gps.py:498 | with distinct dates the single match is the first row holding the day |
| GpsFrames.RowPairs | apertools/gps.py:498 | a left row without a match is kept once with no partner; otherwise it gives one row per match, in order |
| GpsFrames.JoinRows | apertools/gps.py:498 | every output pair names a left row and, if any, a right row of the same day; there are at least as many pairs as left rows |
| GpsFrames.JoinRowsLength | apertools/gps.py:498 | with distinct right dates there is one pair per left row |
| GpsFrames.JoinRowsAt | apertools/gps.py:498 | with distinct right dates pair `i` is left row `i` with its day's right row |
| GpsFrames.JoinRowsUnique | apertools/gps.py:498 | the same for every `i` at once |
| GpsFrames.Lookup | apertools/gps.py:498 | a day the table lacks gives null; with distinct dates, the value on the row holding the day |
| GpsFrames.MergedCol | apertools/gps.py:498 | a left column follows each pair's left row; a right column takes the pair's right row or null |
| GpsFrames.LeftMerge | apertools/gps.py:498 | refused iff a value column is shared; the result is well formed with the left names followed by the right names |
| GpsFrames.LeftMergeUnique | apertools/gps.py:498 | with distinct right dates the left rows and columns are kept and each right cell is the right table's value for that day, or null |
| GpsFrames.MergeFillsRight | apertools/gps.py:498 | one right cell of such a merge |
| GpsFrames.MergeKeepsLeft | apertools/gps.py:498 | one left column of such a merge |
| GpsFrames.JoinRowsTwice | apertools/gps.py:498 | one left row against a day present twice on the right gives two pairs |
| GpsFrames.LeftMergeRepeats | apertools/gps.py:498 | such a merge returns two rows carrying both right values |
| GpsFrames.Axis | apertools/gps.py:496 | the date-only table on the days `lo..hi` is well formed |
| GpsFrames.CombineInsarGpsDfs | apertools/gps.py:503-510 | an empty InSAR table is refused (min of nothing); a result is well formed with the InSAR names followed by the GPS names |
| GpsFrames.CombineOnInsarWindow | apertools/gps.py:503-510 | with distinct dates and no shared column, the rows are every day from the first to the last InSAR date, and each cell is its table's value for that day or null |
| GpsFrames.StationFrame | apertools/gps.py:487-488 | the per-station table has the station's dates and one column `<station>_gps` holding its values; a length mismatch is refused iff |
| GpsFrames.StationFrames | apertools/gps.py:484-490 | a successful first loop loaded every station and gives one table per station, each that station's table |
| GpsFrames.StationFramesLoadFails | apertools/gps.py:484-485 | the first station whose series fails to load ends the loop with the loader's error |
| GpsFrames.StationFramesStop | apertools/gps.py:484-490 | a failure among the first `n` stations is the loop's failure |
| GpsFrames.StationFramesOk | apertools/gps.py:484-490 | when every station loads with as many values as dates, the first loop succeeds |
| GpsFrames.AllDates | apertools/gps.py:492-493 | `pd.concat` of the date columns holds every table's dates and nothing else |
| GpsFrames.AllNames | apertools/gps.py:497-498 | every column name of every table is among the names collected |
| GpsFrames.AllNamesFrom | apertools/gps.py:497-498 | a merged column name comes from one of the tables |
| GpsFrames.MergeAll | apertools/gps.py:497-498 | a successful merge loop is well formed with the axis names followed by every table's names in order |
| GpsFrames.MergeAllStop | apertools/gps.py:497-498 | a failed merge among the first `n` tables is the loop's failure |
| GpsFrames.CreateGpsLosSpec | apertools/gps.py:482-500 | no stations is an empty-concat error; a result is well formed |
| GpsFrames.CreateGpsLosLoadFails | apertools/gps.py:482-485 | a station whose series fails to load, after stations that all succeeded, makes `create_gps_los_df` fail with the loader's error |
| GpsFrames.CreateGpsLosLengthFails | apertools/gps.py:482-488 | a station whose values and dates differ in length, after stations that all succeeded, makes `create_gps_los_df` fail with a length mismatch |
| GpsFrames.CreateGpsLosDf | apertools/gps.py:482-500 | the method returns what `CreateGpsLosSpec` describes |
| GpsFrames.BuildStationFrames | apertools/gps.py:483-490 | the first loop returns what `StationFrames` describes |
| GpsFrames.MergeFrames | apertools/gps.py:496-499 | the second loop returns what `MergeAll` describes |
| GpsFrames.MergeAllKeepsDates | apertools/gps.py:497-498 | merging separate tables with distinct dates succeeds and keeps the axis rows |
| GpsFrames.MergeAllKeepsCol | apertools/gps.py:497-498 | an axis column comes through all merges unchanged |
| GpsFrames.MergeAllFillsLast | apertools/gps.py:497-498 | the last table's columns hold its values for each axis day |
| GpsFrames.MergeAllFillsCol | apertools/gps.py:497-498 | every table's columns hold its values for each axis day, or null |
| GpsFrames.NoClashWithPrefix | apertools/gps.py:497-498 | the next table shares no column with the tables merged so far |
| GpsFrames.SuffixInjective | apertools/gps.py:488 | distinct station names give distinct `_gps` column names |
| GpsFrames.StationTable | apertools/gps.py:487-488 | table `k` has station `k`'s dates and the single column `<station>_gps` |
| GpsFrames.StationsSeparate | apertools/gps.py:488 | distinct stations with distinct dates give tables that share no column |
| GpsFrames.StationPairSeparate | apertools/gps.py:488 | two different stations' tables share no column |
| GpsFrames.CreateGpsLosMerge | apertools/gps.py:492-499 | for good stations the result is the merge loop over the station tables onto the axis from the earliest to the latest station date |
| GpsFrames.AllDatesOfStations | apertools/gps.py:492-493 | the concatenated dates are exactly the stations' dates |
| GpsFrames.WindowBounds | apertools/gps.py:492-496 | the axis ends are a station's earliest and a station's latest date, bounding every station date |
| GpsFrames.CreateGpsLosWindow | apertools/gps.py:492-500 | for good stations the result succeeds, one row per day, from the earliest to the latest date of any station |
| GpsFrames.CreateGpsLosCell | apertools/gps.py:482-500 | each station's column holds its value for each day of the result, or null |
| GpsReference.RefFor | apertools/gps.py:458-461 | a column holding `gps` uses `<station>_gps`, else one holding `insar` uses `<station>_insar`, else none |
| GpsReference.Minus | apertools/gps.py:459 | series subtraction cell by cell, null on either side giving null |
| GpsReference.SubtractReference | apertools/gps.py:452-462 | the loop on the copy returns what `SubtractSpec` describes |
| GpsReference.CentredCol | apertools/gps.py:459-461 | the new column has one cell per date, and centring never fills a null |
| GpsReference.Centred | apertools/gps.py:457-461 | a successful loop keeps the set of columns and each column's length |
| GpsReference.SubtractSpec | apertools/gps.py:452-462 | a result is well formed, with the dates and the column order of the input |
| GpsReference.CentredStops | apertools/gps.py:457-461 | a failure among the first `n` columns is the loop's failure |
| GpsReference.CentredFails | apertools/gps.py:457-461 | the loop over the first `k` columns fails iff one lacks its reference, with a `KeyError` for one of the two reference columns |
| GpsReference.CentredCols | apertools/gps.py:457-461 | after `k` columns, those are centred and the others unchanged; the column set is kept |
| GpsReference.SubtractReferenceCols | apertools/gps.py:452-462 | succeeds iff every GPS/InSAR column has its reference; then keeps dates and column order and centres every column as `CentredCol` says |
| GpsReference.ReferenceZeroed | apertools/gps.py:454-459 | the reference station's GPS column becomes 0 wherever it is not null |
| GpsReference.ReferenceInsarZeroed | apertools/gps.py:455-461 | the reference station's InSAR column becomes 0 wherever it is not null, when its name holds no `gps` |
| GpsPrune.Head | apertools/gps.py:429 | `head(10)` is a prefix of at most ten cells: ten when there are that many, all of them otherwise |
| GpsPrune.Tail | apertools/gps.py:430 | `tail(10)` is a suffix of at most ten cells: ten when there are that many, all of them otherwise |
| GpsPrune.MostlyNull | apertools/gps.py:431-432 | a column with no rows is never mostly null; with a non-negative threshold a mostly-null column has a null; an all-null column is mostly null under any threshold below 1 |
| GpsPrune.NullCount | apertools/gps.py:431 | `isna().sum()` is at most the column length |
| GpsPrune.Failing | apertools/gps.py:429-433 | the columns selected by one test are exactly the listed columns failing it |
| GpsPrune.BadCols | apertools/gps.py:429-439 | a column is bad iff it is null over the first ten rows, or over the last ten, or is a GPS column null more often than the threshold |
| GpsPrune.Without | apertools/gps.py:447-448 | removing a name keeps every other name and keeps them distinct |
| GpsPrune.Kept | apertools/gps.py:443-448 | the names of stations not gone, kept distinct |
| GpsPrune.KeptAllGone | apertools/gps.py:443-448 | when every station is gone no name is kept |
| GpsPrune.KeptNone | apertools/gps.py:443-448 | with no station gone every name is kept in order |
| GpsPrune.KeptWithout | apertools/gps.py:447-448 | dropping a station's two names from the kept names is keeping without that station |
| GpsPrune.DropCol | apertools/gps.py:447 | dropping a present column keeps the rows and every other column |
| GpsPrune.PruneStep | apertools/gps.py:444-448 | an absent bad column changes nothing; a missing `<station>_gps` raises `KeyError` on the unchanged table |
| GpsPrune.PruneFold | apertools/gps.py:443-448 | the loop over the bad columns keeps the table well formed |
| GpsPrune.PruneFoldStops | apertools/gps.py:443-448 | an exception among the first `n` bad columns is the loop's outcome |
| GpsPrune.DataFrame.constructor | apertools/gps.py:427 | the object holds the given table |
| GpsPrune.DataFrame.Drop | apertools/gps.py:447-448 | `drop(c, inplace=True)` removes a present column and raises `KeyError` for an absent one, leaving the table |
| GpsPrune.DataFrame.DropStationOf | apertools/gps.py:444-448 | one loop pass changes the table as `PruneStep` says |
| GpsPrune.DataFrame.DropStations | apertools/gps.py:443-448 | the loop changes the table as `PruneFold` says |
| GpsPrune.DataFrame.RemoveBadCols | apertools/gps.py:427-449 | the table ends as `PruneFold` over the bad columns of the incoming table says |
| GpsPrune.Station | apertools/gps.py:446 | removing `_gps` and `_insar` never lengthens a name, and a name without them is its own station |
| GpsPrune.BareGps | apertools/gps.py:446 | `<s>_gps` names station `s` for an underscore-free `s` |
| GpsPrune.InsarKeepsUnderGps | apertools/gps.py:446 | replacing `_gps` leaves `_insar` alone |
| GpsPrune.InsarNotGps | apertools/gps.py:446 | `<s>_insar` does not end in `_gps` |
| GpsPrune.BareInsar | apertools/gps.py:446 | `<s>_insar` names station `s` for an underscore-free `s` |
| GpsPrune.StationOfColumn | apertools/gps.py:446 | a column of a paired table names its station both ways |
| GpsPrune.Keep | apertools/gps.py:443-448 | the table without the columns of the stations gone is well formed |
| GpsPrune.KeepNothing | apertools/gps.py:443-448 | keeping with no station gone is the table |
| GpsPrune.DropStation | apertools/gps.py:446-448 | dropping both columns of a present station is removing that station |
| GpsPrune.KeepCols | apertools/gps.py:447-448 | the column maps agree after dropping a station's two columns |
| GpsPrune.MarkedStep | apertools/gps.py:443-446 | one more bad column marks at most one more station |
| GpsPrune.PruneStepPaired | apertools/gps.py:443-448 | one pass on a paired table drops the column's station, without error |
| GpsPrune.PrunePaired | apertools/gps.py:443-448 | the loop on a paired table raises nothing and keeps exactly the unmarked stations |
| GpsPrune.RemoveBadColsPaired | apertools/gps.py:427-449 | on a paired table nothing is raised, dates are kept, exactly the stations with a bad GPS or InSAR column lose both columns, and other columns stay in order and unchanged |
| GpsPrune.NoRowsAllBad | apertools/gps.py:429-430 | with no rows every column is bad |
| GpsPrune.NoRowsDropsAll | apertools/gps.py:429-430 | with no rows every column is dropped |
| GpsPrune.ThresholdIsStrict | apertools/gps.py:431-432 | at threshold 0.4, two nulls in five rows keep a GPS column and three drop it |
| GpsPrune.MissingPartnerRaises | apertools/gps.py:447-448 | a bad GPS column without an InSAR partner is dropped, then `KeyError` is raised |
| GpsCache.CacheSpec | apertools/gps.py:372-391 | a cached station returns its series and leaves the file; otherwise a missing stack is a `KeyError`, and the window of the stack is returned and stored under the station if one is given; nothing else is added or changed |
| GpsCache.H5File.constructor | apertools/gps.py:378 | the file holds the given datasets |
| GpsCache.H5File.GetStackTimeseries | apertools/gps.py:378-391 | the call returns and leaves the file as `CacheSpec` says |
| GpsCache.SecondCallCached | apertools/gps.py:379-390 | a second call for the same station returns the first call's result and file |
| GpsCache.CacheIgnoresWindow | apertools/gps.py:379-382 | a cached station's series does not depend on the stack or window asked for |
| GpsCache.StationNamedAsStack | apertools/gps.py:380-386 | a station named like the stack dataset gets the whole stack |
| GpsStations.RowsInRange | apertools/gps.py:106-108 | the kept rows are in range, increasing, and include every row in range |
| GpsStations.Pick | apertools/gps.py:106-109 | selecting rows gives the values at those rows, in order |
| GpsStations.MissingColumn | apertools/gps.py:109 | none iff all three position columns exist; otherwise names an absent one |
| GpsStations.Cleaned | apertools/gps.py:109-111 | the selected table is well formed with the given names |
| GpsStations.CleanGpsDf | apertools/gps.py:103-112 | a bad start year, or a bad non-zero end year, raises; succeeds iff the years are valid and all three columns exist; any other error is a `KeyError` for an absent position column; a result has columns `east`, `north`, `up` |
| GpsStations.Rename | apertools/gps.py:110 | the mapped name holds no `_` and is no longer than the original |
| GpsStations.RenamedEnu | apertools/gps.py:110 | the renamed position columns are `east`, `north`, `up`, distinct |
| GpsStations.DropUnderscores | apertools/gps.py:110 | removing `_` from leading underscores before an underscore-free name leaves the name |
| GpsStations.RenameOf | apertools/gps.py:110 | the mapper turns `__…x(m)` into `x` |
| GpsStations.RenameEast | apertools/gps.py:110 | `__east(m)` becomes `east` |
| GpsStations.RenameNorth | apertools/gps.py:110 | `_north(m)` becomes `north` |
| GpsStations.RenameUp | apertools/gps.py:110 | `____up(m)` becomes `up` |
| GpsStations.RenamedColumns | apertools/gps.py:110 | the three renames together |
| GpsStations.CleanKeepsRange | apertools/gps.py:106-111 | a valid call keeps exactly the rows from 1 January of the start year to 1 January of the end year, in order, with each position column's values under its new name |
| GpsStations.EndYearIsNewYearsDay | apertools/gps.py:107-108 | the day after 1 January of the end year is dropped |
| GpsStations.ZeroEndYearIgnored | apertools/gps.py:107 | an end year of 0 is no end year |
| GpsStations.Named | apertools/gps.py:223 | every selected catalog line has the name |
| GpsStations.StationLonLat | apertools/gps.py:220-224 | an `IndexError` iff no catalog line has the name; otherwise the `(lon, lat)` of a line with that name |
| GpsStations.StationLonLatFirst | apertools/gps.py:220-224 | no line with the name is an `IndexError`; otherwise the answer is `(lon, lat)` of the first such line |
| GpsStations.ChosenNames | apertools/gps.py:680-686 | with no wanted list every station's name in image order; otherwise a name is kept iff it is in the image and wanted |
| GpsStations.LoadStationList | apertools/gps.py:675-687 | the result is a permutation of the chosen names, ordered by first position |
| GpsStations.IndexOf | apertools/gps.py:687 | `list.index`: the first position of a present name |
| GpsStations.Insert | apertools/gps.py:687 | inserting adds one element |
| GpsStations.InsertCount | apertools/gps.py:687 | insertion adds `x` and keeps every other element (multiset) |
| GpsStations.AppendSorted | apertools/gps.py:687 | appending an element with the largest key keeps the order |
| GpsStations.InsertFrom | apertools/gps.py:687 | every inserted element is `x` or came from the list |
| GpsStations.InsertBelow | apertools/gps.py:687 | inserting below the last element keeps it the largest |
| GpsStations.InsertSorted | apertools/gps.py:687 | inserting into a sorted list keeps it sorted |
| GpsStations.SortByIndex | apertools/gps.py:687 | the sort keeps the length |
| GpsStations.SortByIndexSorts | apertools/gps.py:687 | the sort is a permutation ordered by first position |
| GpsStations.LoadStationListChoice | apertools/gps.py:675-687 | the result is a permutation of the chosen names, holds exactly the image's wanted stations (all when none named), ordered by first position |
| GpsStations.InsertLast | apertools/gps.py:687 | an element with the largest key is appended |
| GpsStations.IndexOfDistinct | apertools/gps.py:687 | with distinct names each name's index is its position |
| GpsStations.KeysBelow | apertools/gps.py:687 | with distinct names the first `n` keys are below key `n` |
| GpsStations.InsertNext | apertools/gps.py:687 | with distinct names the next name goes to the end |
| GpsStations.SortDistinctIdentity | apertools/gps.py:687 | with distinct names the sort changes nothing |
| GpsStations.LoadStationListDistinct | apertools/gps.py:675-687 | with distinct chosen names the result is the chosen names in image order |
| GpsStations.DuplicatesGrouped | apertools/gps.py:687 | `A, B, A` sorts to `A, A, B` |

## Left out

- File and HDF5 I/O are not modelled: `np.fromfile`, `tofile`, `np.load`, `json.load`, `h5py.File`, `open` and PIL image reading. The file content is the input sample stream, and the non-raster readers return a tag.
- The float32/complex64 byte encoding, endianness and `byteswap` (sario.py:410-415) are not modelled: samples are opaque values.
- `_force_float32`: a dtype cast, which has no counterpart on opaque samples.
- `utils.get_file_ext`, `utils.take_looks`, `utils.window_stack` and `utils.fullpath` are not part of this model. The extension is an input; `take_looks` is left pending, so a raster comes back with its looks; the window average is a function parameter.
- `sardem.loading.load_elevation` and `load_dem_rsc` are inputs (`Env.rscOf`). So are the UAVSAR annotation parsers (`Env.annParsed`) and `parsers.Uavsar.COMPLEX_POLS` (a parameter).
- `find_files` (glob and sort) and the directory arguments: the sorted matches are an input list.
- `find_rsc_file`'s `abspath`/`os.path.split` of the file name: the candidate list is an input.
- `save`'s `.png` branch (normalisation, plotting): it returns `ImageWritten`, because floating-point image output is out of scope.
- Logging and `verbose` are not modelled.
- Metadata sizes are natural numbers: numpy's `-1` inferred dimensions from metadata are not modelled.
- `load_stacked_img`'s `**kwargs` are not modelled.
- `load_stack`'s `**kwargs` go to `load_file`: the model takes `load_file` with those arguments bound as its `load` parameter, a function from a file name to an array of any rank or an error.
- `pd.to_datetime`, `_series_to_date` and date objects: dates are day numbers, and `_clean_gps_df`'s `YYMMMDD` text parsing is not modelled. Nor is its in-place `df['dt'] = ...` assignment, which gives the caller's frame a `dt` column: the model's input table is a value and is left unchanged.
- `moving_average` is not modelled: the loaded series is taken as already smoothed.
- `set_index("dts")` is not modelled: `dts` stays the key column of the table.
- `load_gps_los_data`, `read_station_llas` and `_load_stations` are inputs (the loader function, which may fail with any error, the catalog rows and the stations in the image).
- `find_geos`, `load_deformation`, `load_mask`, `load_geolist_from_h5`/`load_intlist_from_h5`, plotting and KML are outside the core.
- Exception messages are not modelled: only their kind and, for `KeyError`, the key.
- GpsFrames.LeftMerge: shared value columns are refused (`ColumnClash`) instead of pandas' `_x`/`_y` suffixing.
- GpsFrames.CombineInsarGpsDfs: the `suffixes=("", "_gps")` of the second merge is not modelled; a shared column is `ColumnClash`.
- GpsPrune.MostlyNull: the null fraction is exact rational arithmetic, not float64 division.
- GpsReference.Minus: subtraction is on exact reals, not float64.
- SarioNames.Parse: only ASCII digits are digits; Python's `\d` and `int` also accept other Unicode decimal digits.
- SarioNames.PathSplit: POSIX separators only.
- SarioLoad.LoadFile: its own contract states the validation errors and the early branches. The radar branches are in `LoadFileRadar`, `LoadFileComplex` and `LoadFileReal`, and the dual-band branch in `StackedIsStrided`.
- SarioCodec.LoadComplex: its own contract states only the error cases. The decoded layout is in `LoadComplexLayout` and `ComplexRoundTrip`.
- GpsStations.StationLonLat: its own contract names a line with the name; `StationLonLatFirst` states that it is the first.
- SarioLoad.LoadStackSpec: a raster is a `seq<seq<T>>`, so a first image with no rows has width 0 here, where numpy keeps its shape `(0, w)`; later images are then checked against width 0 instead of `w`. The `dtype` of `out`, and the cast of later images to it, are not modelled either.
- SarioLoad.LoadStack: inherits the zero-row and `dtype` gaps of `LoadStackSpec`.
- SarioCodec.StridedSlice: on a 1-D array it strides the single axis, where numpy raises `IndexError`; `load_file` never slices a 1-D array.

=== FILE: base.dfy ===
/** Shared result types for the raster loaders and the GPS/InSAR table code.
    Every exception the Python code raises becomes one `Error` constructor;
    a function that can raise returns a `Result`. */
module Base {

  datatype Option<T> = None | Some(value: T)

  datatype Error =
    | MetadataConflict      // _get_file_rows_cols: both rsc_data and ann_info given
    | MetadataMissing       // _get_file_rows_cols: neither given
    | NoMetadataFile        // load_file: "Need .rsc file or .ann file to load"
    | ZeroWidth             // _assert_valid_size: float division by cols == 0
    | SizeMismatch          // _assert_valid_size: sample count not a multiple of cols
    | BadReshape            // numpy reshape to an impossible shape
    | BadBroadcast          // numpy shapes that do not broadcast
    | BadDownsample         // load_file: downsample not a positive integer
    | BadLooks              // load_file: a looks entry not a positive integer
    | BadSliceStep          // slice step of zero
    | NonIntegerStep        // slice step that is not an integer
    | UnsupportedFormat     // is_complex ValueError, save NotImplementedError
    | BadShape              // save: stacked file needs a 3-D array
    | StackMismatch         // np.stack: arrays of different shapes
    | MultipleSidecars      // find_rsc_file: more than one *.rsc
    | IndexOutOfRange       // IndexError (empty file list, missing band, no catalog match)
    | MissingFileExt        // load_stack: directory given without file_ext
    | BadDate               // strptime ValueError
    | BadUnpack             // tuple unpacking of a list with length != 2
    | NotAString            // TypeError: None used as a path
    | KeyError(key: string) // missing column or dataset
    | NoObjects             // min/max of no dates at all
    | EmptyConcat           // pd.concat of an empty list
    | ColumnClash           // merge of frames that share a column name
    | LengthMismatch        // DataFrame column of the wrong length
    | BadYear               // datetime(year, 1, 1) with year out of range

  datatype Result<T> = Ok(value: T) | Err(error: Error) {
    predicate IsFailure() {
      Err?
    }

    function PropagateFailure<U>(): Result<U>
      requires Err?
    {
      Err(error)
    }

    function Extract(): T
      requires Ok?
    {
      value
    }
  }
}

=== FILE: calendar.dfy ===
/** The proleptic Gregorian calendar of Python's `datetime`: the years it
    accepts, leap years, month lengths, and day numbers (`date.toordinal()`,
    day 1 being 1 January of year 1). GPS and InSAR dates are day numbers. */
module Calendar {

  const MinYear := 1
  const MaxYear := 9999

  predicate IsLeap(y: int) {
    y % 4 == 0 && (y % 100 != 0 || y % 400 == 0)
  }

  function DaysInMonth(y: int, m: int): (n: int)
    requires 1 <= m <= 12
    ensures 28 <= n <= 31
    ensures n == 29 <==> m == 2 && IsLeap(y)
  {
    if m == 2 then (if IsLeap(y) then 29 else 28)
    else if m == 4 || m == 6 || m == 9 || m == 11 then 30
    else 31
  }

  /** The dates `datetime.date(y, m, d)` accepts without raising. */
  predicate ValidDate(y: int, m: int, d: int) {
    MinYear <= y <= MaxYear && 1 <= m <= 12 && 1 <= d <= DaysInMonth(y, m)
  }

  /** Day number of 1 January of year `y`. */
  function YearStart(y: int): int
    requires y >= 1
  {
    var p := y - 1;
    365 * p + p / 4 - p / 100 + p / 400 + 1
  }

  /** Consecutive New Year's days are a year apart: 366 days after a leap
      year, 365 otherwise. */
  lemma YearLength(y: int)
    requires y >= 1
    ensures YearStart(y + 1) - YearStart(y) == if IsLeap(y) then 366 else 365
  {
    var p := y - 1;
    assert y / 4 - p / 4 == (if y % 4 == 0 then 1 else 0);
    assert y / 100 - p / 100 == (if y % 100 == 0 then 1 else 0);
    assert y / 400 - p / 400 == (if y % 400 == 0 then 1 else 0);
    if y % 400 == 0 {
      assert y % 100 == 0 && y % 4 == 0;
    } else if y % 100 == 0 {
      assert y % 4 == 0;
    }
  }

  /** New Year's days are strictly increasing. */
  lemma {:induction false} YearStartMonotone(a: int, b: int)
    requires 1 <= a < b
    ensures YearStart(a) < YearStart(b)
    decreases b - a
  {
    YearLength(a);
    if a + 1 < b {
      YearStartMonotone(a + 1, b);
    }
  }
}

=== FILE: gps_cache.dfy ===
/** `get_stack_timeseries` of `apertools/gps.py`: the time series of one
    pixel is read from the HDF5 file, using a dataset named after the station
    as a cache. The file is a map from dataset names to arrays; the window
    average over the stack (`apertools.utils.window_stack` at the pixel) is a
    parameter. */
module GpsCache {
  import opened Base

  /** What one call returns and what the file holds afterwards: a cached
      station is returned as stored; otherwise a missing stack raises a
      `KeyError`, and the series is computed from the stack and stored
      under the station's name when there is one. */
  function CacheSpec<D>(dsets: map<string, D>, station: Option<string>, stackName: string, window: D -> D): (r: (Result<D>, map<string, D>))
    ensures station.Some? && station.value in dsets ==> r == (Ok(dsets[station.value]), dsets)
    ensures (station.None? || station.value !in dsets) && stackName !in dsets ==> r == (Err(KeyError(stackName)), dsets)
    ensures (station.None? || station.value !in dsets) && stackName in dsets ==> r.0 == Ok(window(dsets[stackName]))
    ensures station.None? ==> r.1 == dsets
    ensures station.Some? && r.0.Ok? ==> station.value in r.1 && r.1[station.value] == r.0.value
    ensures forall n :: n in dsets ==> n in r.1 && r.1[n] == dsets[n]
    ensures forall n :: n in r.1 ==> n in dsets || station == Some(n)
  {
    if station.Some? && station.value in dsets then (Ok(dsets[station.value]), dsets)
    else if stackName !in dsets then (Err(KeyError(stackName)), dsets)
    else
      var ts := window(dsets[stackName]);
      if station.Some? then (Ok(ts), dsets[station.value := ts]) else (Ok(ts), dsets)
  }

  /** An HDF5 file opened for appending. */
  class H5File<D> {
    var dsets: map<string, D>

    constructor (contents: map<string, D>)
      ensures dsets == contents
    {
      dsets := contents;
    }

    /** `get_stack_timeseries(filename, row, col, stack_dset_name, station,
        window_size)`: `f[station]` with no station (a `TypeError`) or a
        missing one (a `KeyError`) falls through to the computation. */
    method GetStackTimeseries(station: Option<string>, stackName: string, window: D -> D) returns (r: Result<D>)
      modifies this
      ensures (r, dsets) == CacheSpec(old(dsets), station, stackName, window)
    {
      if station.Some? && station.value in dsets {
        return Ok(dsets[station.value]);
      }
      if stackName !in dsets {
        return Err(KeyError(stackName));
      }
      var ts := window(dsets[stackName]);
      if station.Some? {
        dsets := dsets[station.value := ts];
      }
      return Ok(ts);
    }
  }

  /** A second call for the same station returns what the first returned
      and leaves the file as the first left it: calling twice is calling
      once. */
  lemma SecondCallCached<D>(dsets: map<string, D>, station: string, stackName: string, window: D -> D)
    ensures var first := CacheSpec(dsets, Some(station), stackName, window);
            first.0.Ok? ==> CacheSpec(first.1, Some(station), stackName, window) == first
  {
  }

  /** A cached series is returned whatever window and stack are asked for,
      so a cache written with one window size answers for every other. */
  lemma CacheIgnoresWindow<D>(dsets: map<string, D>, station: string, stack1: string, stack2: string, w1: D -> D, w2: D -> D)
    requires station in dsets
    ensures CacheSpec(dsets, Some(station), stack1, w1) == CacheSpec(dsets, Some(station), stack2, w2)
  {
  }

  /** The cache shares its names with the stack: a station named like the
      stack dataset gets the whole stack back. */
  lemma StationNamedAsStack<D>(dsets: map<string, D>, stackName: string, window: D -> D)
    requires stackName in dsets
    ensures CacheSpec(dsets, Some(stackName), stackName, window).0 == Ok(dsets[stackName])
  {
  }
}

=== FILE: gps_frames.dfy ===
/** Date-keyed tables of `apertools/gps.py` and the joins that put GPS and
    InSAR series on one daily axis: `pd.date_range`, `pd.merge(..., on="dts",
    how="left")`, `combine_insar_gps_dfs` and `create_gps_los_df`. Dates are
    day numbers; a null cell is `None`. */
module GpsFrames {
  import opened Base

  /** A table with the key column `dts` and named value columns, in order. */
  datatype Frame<V> = Frame(dts: seq<int>, names: seq<string>, cols: map<string, seq<Option<V>>>)

  predicate Distinct<T(==)>(s: seq<T>) {
    forall i, j :: 0 <= i < j < |s| ==> s[i] != s[j]
  }

  /** Column names are unique, name exactly the stored columns, and every
      column is as long as the key column. */
  predicate WellFormed<V>(f: Frame<V>) {
    && Distinct(f.names)
    && f.cols.Keys == set n | n in f.names
    && forall n :: n in f.cols ==> |f.cols[n]| == |f.dts|
  }

  // ---------------------------------------------------------------------
  // The daily axis

  /** `pd.date_range(start=lo, end=hi)`: every day from `lo` to `hi`. */
  function DateRange(lo: int, hi: int): (r: seq<int>)
    ensures |r| == if lo <= hi then hi - lo + 1 else 0
    ensures forall i :: 0 <= i < |r| ==> r[i] == lo + i
  {
    if lo <= hi then seq(hi - lo + 1, i => lo + i) else []
  }

  /** The axis has no gaps and no repeats, and holds exactly the days of the
      window. */
  lemma DateRangeDays(lo: int, hi: int, d: int)
    ensures Distinct(DateRange(lo, hi))
    ensures d in DateRange(lo, hi) <==> lo <= d <= hi
    ensures forall i :: 0 <= i < |DateRange(lo, hi)| - 1 ==> DateRange(lo, hi)[i + 1] == DateRange(lo, hi)[i] + 1
  {
    if lo <= d <= hi {
      assert DateRange(lo, hi)[d - lo] == d;
    }
  }

  /** `np.min` of a non-empty column. */
  function MinOf(s: seq<int>): (m: int)
    requires |s| > 0
    ensures m in s && forall i :: 0 <= i < |s| ==> m <= s[i]
  {
    if |s| == 1 then s[0]
    else
      var rest := MinOf(s[1..]);
      assert forall i :: 1 <= i < |s| ==> s[i] == s[1..][i - 1];
      if s[0] <= rest then s[0] else rest
  }

  /** `np.max` of a non-empty column. */
  function MaxOf(s: seq<int>): (m: int)
    requires |s| > 0
    ensures m in s && forall i :: 0 <= i < |s| ==> s[i] <= m
  {
    if |s| == 1 then s[0]
    else
      var rest := MaxOf(s[1..]);
      assert forall i :: 1 <= i < |s| ==> s[i] == s[1..][i - 1];
      if s[0] >= rest then s[0] else rest
  }

  // ---------------------------------------------------------------------
  // Left merge on dts

  /** The rows of `rdts` holding day `d`, in order. */
  function Matches(rdts: seq<int>, d: int): (js: seq<nat>)
    ensures forall k :: 0 <= k < |js| ==> js[k] < |rdts| && rdts[js[k]] == d
    ensures |js| == 0 ==> d !in rdts
    ensures forall k, k' :: 0 <= k < k' < |js| ==> js[k] < js[k']
    ensures |js| > 1 ==> js[0] < js[1] < |rdts| && rdts[js[0]] == d && rdts[js[1]] == d
    decreases |rdts|
  {
    if |rdts| == 0 then []
    else
      var m := Matches(rdts[..|rdts| - 1], d);
      if rdts[|rdts| - 1] == d then m + [|rdts| - 1] else m
  }

  /** With distinct dates a day matches at most once. */
  lemma MatchesDistinct(rdts: seq<int>, d: int)
    requires Distinct(rdts)
    ensures |Matches(rdts, d)| <= 1
  {
  }

  /** The output rows of one left row: one per matching right row, or a
      single row with no right partner. */
  function RowPairs(i: nat, js: seq<nat>): (r: seq<(nat, Option<nat>)>)
    ensures |js| == 0 ==> r == [(i, None)]
    ensures |js| > 0 ==> |r| == |js| && forall k :: 0 <= k < |js| ==> r[k] == (i, Some(js[k]))
  {
    if |js| == 0 then [(i, None)] else seq(|js|, k requires 0 <= k < |js| => (i, Some(js[k])))
  }

  /** Pairs (left row, right row or none) of `pd.merge(how="left")`, in
      left-row order. */
  function JoinRows(ldts: seq<int>, rdts: seq<int>): (r: seq<(nat, Option<nat>)>)
    ensures RowsIn(r, ldts, rdts)
    ensures |r| >= |ldts|
    decreases |ldts|
  {
    if |ldts| == 0 then []
    else
      var n := |ldts| - 1;
      var prev := JoinRows(ldts[..n], rdts);
      var js := Matches(rdts, ldts[n]);
      RowsInPrefix(prev, ldts, rdts);
      RowPairsIn(n, js, ldts, rdts);
      RowsInAppend(prev, RowPairs(n, js), ldts, rdts);
      prev + RowPairs(n, js)
  }

  lemma RowsInPrefix(rows: seq<(nat, Option<nat>)>, ldts: seq<int>, rdts: seq<int>)
    requires |ldts| > 0 && RowsIn(rows, ldts[..|ldts| - 1], rdts)
    ensures RowsIn(rows, ldts, rdts)
  {
    forall k | 0 <= k < |rows|
      ensures rows[k].0 < |ldts|
      ensures rows[k].1.Some? ==> rows[k].1.value < |rdts| && rdts[rows[k].1.value] == ldts[rows[k].0]
    {
      assert ldts[..|ldts| - 1][rows[k].0] == ldts[rows[k].0];
    }
  }

  lemma RowPairsIn(n: nat, js: seq<nat>, ldts: seq<int>, rdts: seq<int>)
    requires n < |ldts|
    requires forall k :: 0 <= k < |js| ==> js[k] < |rdts| && rdts[js[k]] == ldts[n]
    ensures RowsIn(RowPairs(n, js), ldts, rdts)
  {
  }

  lemma RowsInAppend(a: seq<(nat, Option<nat>)>, b: seq<(nat, Option<nat>)>, ldts: seq<int>, rdts: seq<int>)
    requires RowsIn(a, ldts, rdts) && RowsIn(b, ldts, rdts)
    ensures RowsIn(a + b, ldts, rdts)
  {
    forall k | 0 <= k < |a + b|
      ensures (a + b)[k].0 < |ldts|
      ensures (a + b)[k].1.Some? ==> (a + b)[k].1.value < |rdts| && rdts[(a + b)[k].1.value] == ldts[(a + b)[k].0]
    {
      if k < |a| { assert (a + b)[k] == a[k]; } else { assert (a + b)[k] == b[k - |a|]; }
    }
  }

  /** Every pair names a left row and, if any, a right row of the same day. */
  predicate RowsIn(rows: seq<(nat, Option<nat>)>, ldts: seq<int>, rdts: seq<int>) {
    forall k :: 0 <= k < |rows| ==>
      && rows[k].0 < |ldts|
      && (rows[k].1.Some? ==> rows[k].1.value < |rdts| && rdts[rows[k].1.value] == ldts[rows[k].0])
  }

  /** The row of `f` holding day `d`, if any. */
  function Find(dts: seq<int>, d: int): (j: Option<nat>)
    ensures j.Some? ==> j.value < |dts| && dts[j.value] == d
    ensures j.None? ==> d !in dts
  {
    if |dts| == 0 then None
    else if dts[0] == d then Some(0)
    else
      match Find(dts[1..], d)
      case None => None
      case Some(j) => Some(j + 1)
  }

  /** With distinct dates the only match is the one `Find` returns. */
  lemma FindIsMatch(rdts: seq<int>, d: int)
    requires Distinct(rdts)
    ensures Find(rdts, d) == if |Matches(rdts, d)| == 0 then None else Some(Matches(rdts, d)[0])
  {
    MatchesDistinct(rdts, d);
    var js := Matches(rdts, d);
    var f := Find(rdts, d);
    if f.Some? {
      assert f.value in js;
    }
  }

  /** The cell of column `n` of `f` for day `d`: its value on that day, or
      null when the day is absent. */
  function Lookup<V>(f: Frame<V>, n: string, d: int): (r: Option<V>)
    requires WellFormed(f) && n in f.cols
    ensures d !in f.dts ==> r.None?
    ensures Distinct(f.dts) ==> forall j :: 0 <= j < |f.dts| && f.dts[j] == d ==> r == f.cols[n][j]
  {
    match Find(f.dts, d)
    case None => None
    case Some(j) => f.cols[n][j]
  }

  /** With distinct dates on the right there is one output row per left row. */
  lemma {:induction false} JoinRowsLength(ldts: seq<int>, rdts: seq<int>)
    requires Distinct(rdts)
    ensures |JoinRows(ldts, rdts)| == |ldts|
    decreases |ldts|
  {
    if |ldts| > 0 {
      var n := |ldts| - 1;
      JoinRowsLength(ldts[..n], rdts);
      MatchesDistinct(rdts, ldts[n]);
    }
  }

  /** With distinct dates on the right, output row `i` is left row `i` with
      its day's right row. */
  lemma {:induction false} JoinRowsAt(ldts: seq<int>, rdts: seq<int>, i: nat)
    requires Distinct(rdts) && i < |ldts|
    ensures |JoinRows(ldts, rdts)| == |ldts| && JoinRows(ldts, rdts)[i] == (i, Find(rdts, ldts[i]))
    decreases |ldts|
  {
    JoinRowsLength(ldts, rdts);
    var n := |ldts| - 1;
    var prev := JoinRows(ldts[..n], rdts);
    var tail := RowPairs(n, Matches(rdts, ldts[n]));
    JoinRowsLength(ldts[..n], rdts);
    assert JoinRows(ldts, rdts) == prev + tail;
    if i < n {
      JoinRowsAt(ldts[..n], rdts, i);
      assert ldts[..n][i] == ldts[i];
    } else {
      MatchesDistinct(rdts, ldts[n]);
      FindIsMatch(rdts, ldts[n]);
    }
  }

  /** With distinct dates on the right every left row appears once, in
      place, paired with its day's right row. */
  lemma JoinRowsUnique(ldts: seq<int>, rdts: seq<int>)
    requires Distinct(rdts)
    ensures |JoinRows(ldts, rdts)| == |ldts|
    ensures forall i :: 0 <= i < |ldts| ==> JoinRows(ldts, rdts)[i] == (i, Find(rdts, ldts[i]))
  {
    JoinRowsLength(ldts, rdts);
    forall i | 0 <= i < |ldts| ensures JoinRows(ldts, rdts)[i] == (i, Find(rdts, ldts[i])) {
      JoinRowsAt(ldts, rdts, i);
    }
  }

  predicate Clash<V>(left: Frame<V>, right: Frame<V>) {
    exists n :: n in right.names && n in left.cols
  }

  /** The merged column `n`: a left column follows the left row of each pair,
      a right column the right row, or null where the pair has none. */
  function MergedCol<V>(left: Frame<V>, right: Frame<V>, rows: seq<(nat, Option<nat>)>, n: string): (c: seq<Option<V>>)
    requires WellFormed(left) && WellFormed(right) && RowsIn(rows, left.dts, right.dts)
    requires n in left.cols || n in right.cols
    ensures |c| == |rows|
    ensures n in left.cols ==> forall k :: 0 <= k < |rows| ==> c[k] == left.cols[n][rows[k].0]
    ensures n !in left.cols ==> forall k :: 0 <= k < |rows| ==>
              c[k] == if rows[k].1.Some? then right.cols[n][rows[k].1.value] else None
  {
    if n in left.cols then seq(|rows|, k requires 0 <= k < |rows| => left.cols[n][rows[k].0])
    else seq(|rows|, k requires 0 <= k < |rows| => if rows[k].1.Some? then right.cols[n][rows[k].1.value] else None)
  }

  lemma DistinctConcat<V>(left: Frame<V>, right: Frame<V>)
    requires WellFormed(left) && WellFormed(right) && !Clash(left, right)
    ensures Distinct(left.names + right.names)
  {
    var ns := left.names + right.names;
    forall i, j | 0 <= i < j < |ns| ensures ns[i] != ns[j] {
      if i < |left.names| && j >= |left.names| {
        assert ns[j] in right.names && ns[i] in left.cols;
      }
    }
  }

  /** `pd.merge(left, right, on="dts", how="left")`. Shared value columns
      are refused rather than suffixed. */
  function LeftMerge<V>(left: Frame<V>, right: Frame<V>): (r: Result<Frame<V>>)
    requires WellFormed(left) && WellFormed(right)
    ensures r.Err? <==> Clash(left, right)
    ensures r.Err? ==> r.error == ColumnClash
    ensures r.Ok? ==> WellFormed(r.value) && r.value.names == left.names + right.names
  {
    if Clash(left, right) then Err(ColumnClash)
    else
      var rows := JoinRows(left.dts, right.dts);
      var dts := seq(|rows|, k requires 0 <= k < |rows| => left.dts[rows[k].0]);
      var cols := map n | n in left.cols.Keys + right.cols.Keys :: MergedCol(left, right, rows, n);
      DistinctConcat(left, right);
      Ok(Frame(dts, left.names + right.names, cols))
  }

  /** With distinct dates on the right, a left merge keeps the left rows in
      order, keeps the left columns, and fills each right column with the
      value for that day or null. */
  lemma LeftMergeUnique<V>(left: Frame<V>, right: Frame<V>)
    requires WellFormed(left) && WellFormed(right) && !Clash(left, right)
    requires Distinct(right.dts)
    ensures var r := LeftMerge(left, right).value;
            && r.dts == left.dts
            && (forall n :: n in left.cols ==> r.cols[n] == left.cols[n])
            && (forall n, i :: n in right.cols && 0 <= i < |left.dts| ==> r.cols[n][i] == Lookup(right, n, left.dts[i]))
  {
    JoinRowsUnique(left.dts, right.dts);
    var r := LeftMerge(left, right).value;
    forall n | n in left.cols ensures r.cols[n] == left.cols[n] {
    }
  }

  /** `LeftMergeUnique` for one right cell. */
  lemma MergeFillsRight<V>(left: Frame<V>, right: Frame<V>, c: string, i: nat)
    requires WellFormed(left) && WellFormed(right) && !Clash(left, right)
    requires Distinct(right.dts) && c in right.cols && i < |left.dts|
    ensures var r := LeftMerge(left, right).value;
            c in r.cols && |r.cols[c]| == |left.dts| && r.cols[c][i] == Lookup(right, c, left.dts[i])
  {
    JoinRowsUnique(left.dts, right.dts);
  }

  /** `LeftMergeUnique` for one left column. */
  lemma MergeKeepsLeft<V>(left: Frame<V>, right: Frame<V>, c: string)
    requires WellFormed(left) && WellFormed(right) && !Clash(left, right)
    requires Distinct(right.dts) && c in left.cols
    ensures var r := LeftMerge(left, right).value;
            r.dts == left.dts && c in r.cols && r.cols[c] == left.cols[c]
  {
    JoinRowsUnique(left.dts, right.dts);
  }

  lemma JoinRowsTwice(d: int)
    ensures JoinRows([d], [d, d]) == [(0, Some(0)), (0, Some(1))]
  {
    assert [d, d][..1] == [d] && [d][..0] == [];
    assert Matches([d], d) == [0];
    assert Matches([d, d], d) == [0, 1];
  }

  /** A day that appears twice on the right yields two output rows: the
      merge only keeps the row count when the right dates are distinct. */
  lemma LeftMergeRepeats<V>(left: Frame<V>, right: Frame<V>, d: int, n: string, a: Option<V>, b: Option<V>)
    requires left == Frame([d], [], map[]) && right == Frame([d, d], [n], map[n := [a, b]])
    ensures WellFormed(left) && WellFormed(right)
    ensures var r := LeftMerge(left, right);
            r.Ok? && r.value.dts == [d, d] && r.value.cols[n] == [a, b]
  {
    assert !Clash(left, right);
    var rows := JoinRows(left.dts, right.dts);
    JoinRowsTwice(d);
    var c := MergedCol(left, right, rows, n);
    assert c == [a, b];
  }

  // ---------------------------------------------------------------------
  // combine_insar_gps_dfs

  /** An empty table on the days `lo..hi`. */
  function Axis<V>(lo: int, hi: int): (f: Frame<V>)
    ensures WellFormed(f)
  {
    Frame(DateRange(lo, hi), [], map[])
  }

  /** `combine_insar_gps_dfs`: the InSAR window as a daily axis, then the
      InSAR table and the GPS table left-merged onto it. */
  function CombineInsarGpsDfs<V>(insar: Frame<V>, gps: Frame<V>): (r: Result<Frame<V>>)
    requires WellFormed(insar) && WellFormed(gps)
    ensures |insar.dts| == 0 ==> r == Err(NoObjects)
    ensures r.Ok? ==> WellFormed(r.value) && r.value.names == insar.names + gps.names
  {
    if |insar.dts| == 0 then Err(NoObjects)
    else
      var axis: Frame<V> := Axis(MinOf(insar.dts), MaxOf(insar.dts));
      var df := LeftMerge(axis, insar).value;
      assert df.names == insar.names by { assert [] + insar.names == insar.names; }
      LeftMerge(df, gps)
  }

  /** With distinct dates in each table and no shared column, the result has
      one row per day from the first to the last InSAR date, in order, and
      every cell is the table's value for that day or null; GPS days outside
      the window are dropped. */
  lemma CombineOnInsarWindow<V>(insar: Frame<V>, gps: Frame<V>)
    requires WellFormed(insar) && WellFormed(gps) && |insar.dts| > 0
    requires Distinct(insar.dts) && Distinct(gps.dts)
    requires forall n :: n in gps.names ==> n !in insar.cols
    ensures var r := CombineInsarGpsDfs(insar, gps);
            && r.Ok?
            && r.value.dts == DateRange(MinOf(insar.dts), MaxOf(insar.dts))
            && (forall n, i :: n in insar.cols && 0 <= i < |r.value.dts| ==> r.value.cols[n][i] == Lookup(insar, n, r.value.dts[i]))
            && (forall n, i :: n in gps.cols && 0 <= i < |r.value.dts| ==> r.value.cols[n][i] == Lookup(gps, n, r.value.dts[i]))
  {
    var axis: Frame<V> := Axis(MinOf(insar.dts), MaxOf(insar.dts));
    assert !Clash(axis, insar);
    LeftMergeUnique(axis, insar);
    var df := LeftMerge(axis, insar).value;
    assert !Clash(df, gps) by {
      forall n | n in gps.names ensures n !in df.cols {
        assert n !in insar.cols;
      }
    }
    LeftMergeUnique(df, gps);
  }

  // ---------------------------------------------------------------------
  // create_gps_los_df

  /** One station's loaded series: its dates and its line-of-sight values. */
  datatype Series<V> = Series(dts: seq<int>, values: seq<Option<V>>)

  /** The per-station table `{"dts": ..., "<station>_gps": ...}`. */
  function StationFrame<V>(station: string, s: Series<V>): (r: Result<Frame<V>>)
    ensures r.Err? <==> |s.values| != |s.dts|
    ensures r.Err? ==> r.error == LengthMismatch
    ensures r.Ok? ==> WellFormed(r.value) && r.value.dts == s.dts && r.value.names == [station + "_gps"]
                      && r.value.cols[station + "_gps"] == s.values
  {
    if |s.values| != |s.dts| then Err(LengthMismatch)
    else Ok(Frame(s.dts, [station + "_gps"], map[station + "_gps" := s.values]))
  }

  /** The tables of the first loop, built in station order; `load` is
      `load_gps_los_data`, whose failure for any station is the loop's. */
  function StationFrames<V>(stations: seq<string>, load: string -> Result<Series<V>>): (r: Result<seq<Frame<V>>>)
    ensures r.Ok? ==> |r.value| == |stations|
    ensures r.Ok? ==> forall k :: 0 <= k < |stations| ==>
              load(stations[k]).Ok? && StationFrame(stations[k], load(stations[k]).value) == Ok(r.value[k])
    decreases |stations|
  {
    if |stations| == 0 then Ok([])
    else
      var n := |stations| - 1;
      var prev :- StationFrames(stations[..n], load);
      var s :- load(stations[n]);
      var f :- StationFrame(stations[n], s);
      Ok(prev + [f])
  }

  /** The first station whose series fails to load ends the loop with the
      loader's error. */
  lemma StationFramesLoadFails<V>(stations: seq<string>, load: string -> Result<Series<V>>, k: nat)
    requires k < |stations| && StationFrames(stations[..k], load).Ok? && load(stations[k]).Err?
    ensures StationFrames(stations, load) == Err(load(stations[k]).error)
  {
    assert stations[..k + 1][..k] == stations[..k];
    assert StationFrames(stations[..k + 1], load) == Err(load(stations[k]).error);
    StationFramesStop(stations, load, k + 1);
  }

  lemma {:induction false} StationFramesStop<V>(stations: seq<string>, load: string -> Result<Series<V>>, n: nat)
    requires n <= |stations| && StationFrames(stations[..n], load).Err?
    ensures StationFrames(stations, load) == StationFrames(stations[..n], load)
    decreases |stations| - n
  {
    if n < |stations| {
      assert stations[..n + 1][..n] == stations[..n];
      StationFramesStop(stations, load, n + 1);
    } else {
      assert stations[..n] == stations;
    }
  }

  predicate AllWellFormed<V>(fs: seq<Frame<V>>) {
    forall k :: 0 <= k < |fs| ==> WellFormed(fs[k])
  }

  /** Every date of every table, table by table (`pd.concat` of the date
      columns). */
  function AllDates<V>(fs: seq<Frame<V>>): (r: seq<int>)
    ensures forall k, i :: 0 <= k < |fs| && 0 <= i < |fs[k].dts| ==> fs[k].dts[i] in r
    ensures forall d :: d in r ==> exists k :: 0 <= k < |fs| && d in fs[k].dts
  {
    if |fs| == 0 then []
    else
      var rest := AllDates(fs[1..]);
      assert forall k :: 1 <= k < |fs| ==> fs[k] == fs[1..][k - 1];
      fs[0].dts + rest
  }

  /** The column names of the tables, table by table. */
  function AllNames<V>(fs: seq<Frame<V>>): (r: seq<string>)
    ensures forall k, c :: 0 <= k < |fs| && c in fs[k].names ==> c in r
    decreases |fs|
  {
    if |fs| == 0 then [] else AllNames(fs[..|fs| - 1]) + fs[|fs| - 1].names
  }

  /** A name among the tables' names belongs to one of the tables. */
  lemma {:induction false} AllNamesFrom<V>(fs: seq<Frame<V>>, c: string)
    requires c in AllNames(fs)
    ensures exists k :: 0 <= k < |fs| && c in fs[k].names
    decreases |fs|
  {
    var n := |fs| - 1;
    if c !in fs[n].names {
      AllNamesFrom(fs[..n], c);
      var k :| 0 <= k < n && c in fs[..n][k].names;
      assert fs[..n][k] == fs[k];
    }
  }

  /** The merge loop: each table left-merged in turn onto the accumulated one. */
  function MergeAll<V>(acc: Frame<V>, fs: seq<Frame<V>>): (r: Result<Frame<V>>)
    requires WellFormed(acc) && AllWellFormed(fs)
    ensures r.Ok? ==> WellFormed(r.value) && r.value.names == acc.names + AllNames(fs)
    decreases |fs|
  {
    if |fs| == 0 then Ok(acc)
    else
      var n := |fs| - 1;
      var prev :- MergeAll(acc, fs[..n]);
      assert acc.names + AllNames(fs) == prev.names + fs[n].names;
      LeftMerge(prev, fs[n])
  }

  lemma {:induction false} MergeAllStop<V>(acc: Frame<V>, fs: seq<Frame<V>>, n: nat)
    requires WellFormed(acc) && AllWellFormed(fs)
    requires n <= |fs| && MergeAll(acc, fs[..n]).Err?
    ensures MergeAll(acc, fs) == MergeAll(acc, fs[..n])
    decreases |fs| - n
  {
    if n < |fs| {
      assert fs[..n + 1][..n] == fs[..n];
      MergeAllStop(acc, fs, n + 1);
    } else {
      assert fs[..n] == fs;
    }
  }

  /** What `create_gps_los_df` returns. */
  function CreateGpsLosSpec<V>(stations: seq<string>, load: string -> Result<Series<V>>): (r: Result<Frame<V>>)
    ensures |stations| == 0 ==> r == Err(EmptyConcat)
    ensures r.Ok? ==> WellFormed(r.value)
  {
    var fs :- StationFrames(stations, load);
    if |fs| == 0 then Err(EmptyConcat)
    else
      var all := AllDates(fs);
      if |all| == 0 then Err(NoObjects)
      else MergeAll(Axis(MinOf(all), MaxOf(all)), fs)
  }

  /** A station whose series fails to load, after stations that all built
      their tables, makes `create_gps_los_df` fail with the loader's error:
      no station is skipped. */
  lemma CreateGpsLosLoadFails<V>(stations: seq<string>, load: string -> Result<Series<V>>, k: nat)
    requires k < |stations| && StationFrames(stations[..k], load).Ok? && load(stations[k]).Err?
    ensures CreateGpsLosSpec(stations, load) == Err(load(stations[k]).error)
  {
    StationFramesLoadFails(stations, load, k);
  }

  /** A station whose values and dates differ in length, after stations that
      all built their tables, makes `create_gps_los_df` fail as well. */
  lemma CreateGpsLosLengthFails<V>(stations: seq<string>, load: string -> Result<Series<V>>, k: nat)
    requires k < |stations| && StationFrames(stations[..k], load).Ok? && load(stations[k]).Ok?
    requires |load(stations[k]).value.values| != |load(stations[k]).value.dts|
    ensures CreateGpsLosSpec(stations, load) == Err(LengthMismatch)
  {
    assert stations[..k + 1][..k] == stations[..k];
    assert StationFrames(stations[..k + 1], load) == Err(LengthMismatch);
    StationFramesStop(stations, load, k + 1);
  }

  /** `create_gps_los_df`: the station tables built in one loop, the axis
      from the earliest to the latest date of any station, and the tables
      merged onto it in a second loop. */
  method CreateGpsLosDf<V>(stations: seq<string>, load: string -> Result<Series<V>>) returns (r: Result<Frame<V>>)
    ensures r == CreateGpsLosSpec(stations, load)
  {
    var built := BuildStationFrames(stations, load);
    if built.Err? {
      return Err(built.error);
    }
    var fs := built.value;
    if |fs| == 0 {
      return Err(EmptyConcat);
    }
    var all := AllDates(fs);
    if |all| == 0 {
      return Err(NoObjects);
    }
    r := MergeFrames(Axis(MinOf(all), MaxOf(all)), fs);
  }

  /** The first loop of `create_gps_los_df`: one table per station, appended
      to `df_list` in order. */
  method BuildStationFrames<V>(stations: seq<string>, load: string -> Result<Series<V>>) returns (r: Result<seq<Frame<V>>>)
    ensures r == StationFrames(stations, load)
  {
    var fs: seq<Frame<V>> := [];
    for k := 0 to |stations|
      invariant StationFrames(stations[..k], load) == Ok(fs)
    {
      var s := load(stations[k]);
      assert stations[..k + 1][..k] == stations[..k];
      if s.Err? {
        StationFramesStop(stations, load, k + 1);
        return Err(s.error);
      }
      var f := StationFrame(stations[k], s.value);
      if f.Err? {
        StationFramesStop(stations, load, k + 1);
        return Err(f.error);
      }
      fs := fs + [f.value];
    }
    assert stations[..|stations|] == stations;
    return Ok(fs);
  }

  /** The second loop of `create_gps_los_df`: `gps_df` reassigned to its
      left merge with each table in turn. */
  method MergeFrames<V>(axis: Frame<V>, fs: seq<Frame<V>>) returns (r: Result<Frame<V>>)
    requires WellFormed(axis) && AllWellFormed(fs)
    ensures r == MergeAll(axis, fs)
  {
    var gps := axis;
    for k := 0 to |fs|
      invariant WellFormed(gps)
      invariant MergeAll(axis, fs[..k]) == Ok(gps)
    {
      assert fs[..k + 1][..k] == fs[..k];
      var m := LeftMerge(gps, fs[k]);
      if m.Err? {
        MergeAllStop(axis, fs, k + 1);
        return Err(m.error);
      }
      gps := m.value;
    }
    assert fs[..|fs|] == fs;
    return Ok(gps);
  }

  /** The tables do not share columns and each has distinct dates. */
  predicate Separate<V>(acc: Frame<V>, fs: seq<Frame<V>>) {
    && (forall k :: 0 <= k < |fs| ==> Distinct(fs[k].dts))
    && (forall k, n :: 0 <= k < |fs| && n in fs[k].names ==> n !in acc.cols)
    && (forall k, k', n :: 0 <= k < k' < |fs| && n in fs[k'].names ==> n !in fs[k].cols)
  }

  lemma SeparatePrefix<V>(acc: Frame<V>, fs: seq<Frame<V>>, n: nat)
    requires AllWellFormed(fs) && Separate(acc, fs) && n <= |fs|
    ensures AllWellFormed(fs[..n]) && Separate(acc, fs[..n])
  {
    assert forall k :: 0 <= k < n ==> fs[..n][k] == fs[k];
  }

  /** Merging separate tables succeeds and keeps the axis rows. */
  lemma {:induction false} MergeAllKeepsDates<V>(acc: Frame<V>, fs: seq<Frame<V>>)
    requires WellFormed(acc) && AllWellFormed(fs) && Separate(acc, fs)
    ensures MergeAll(acc, fs).Ok? && MergeAll(acc, fs).value.dts == acc.dts
    decreases |fs|
  {
    if |fs| > 0 {
      var n := |fs| - 1;
      SeparatePrefix(acc, fs, n);
      MergeAllKeepsDates(acc, fs[..n]);
      var prev := MergeAll(acc, fs[..n]).value;
      NoClashWithPrefix(acc, fs, prev);
      LeftMergeUnique(prev, fs[n]);
      MergeAllStep(acc, fs);
    }
  }

  /** The axis columns come through the merges unchanged. */
  lemma {:induction false} MergeAllKeepsCol<V>(acc: Frame<V>, fs: seq<Frame<V>>, c: string)
    requires WellFormed(acc) && AllWellFormed(fs) && Separate(acc, fs) && c in acc.cols
    ensures MergeAll(acc, fs).Ok? && c in MergeAll(acc, fs).value.cols
    ensures MergeAll(acc, fs).value.cols[c] == acc.cols[c]
    decreases |fs|
  {
    MergeAllKeepsDates(acc, fs);
    if |fs| > 0 {
      var n := |fs| - 1;
      SeparatePrefix(acc, fs, n);
      MergeAllKeepsCol(acc, fs[..n], c);
      var prev := MergeAll(acc, fs[..n]).value;
      NoClashWithPrefix(acc, fs, prev);
      MergeAllStep(acc, fs);
      MergeKeepsLeft(prev, fs[n], c);
    }
  }

  /** The columns of the last table merged hold its values for each day. */
  lemma MergeAllFillsLast<V>(acc: Frame<V>, fs: seq<Frame<V>>, c: string, i: nat)
    requires WellFormed(acc) && AllWellFormed(fs) && Separate(acc, fs)
    requires |fs| > 0 && c in fs[|fs| - 1].cols && i < |acc.dts|
    ensures MergeAll(acc, fs).Ok? && MergeAll(acc, fs).value.dts == acc.dts && c in MergeAll(acc, fs).value.cols
    ensures MergeAll(acc, fs).value.cols[c][i] == Lookup(fs[|fs| - 1], c, acc.dts[i])
  {
    var n := |fs| - 1;
    MergeAllKeepsDates(acc, fs);
    SeparatePrefix(acc, fs, n);
    MergeAllKeepsDates(acc, fs[..n]);
    var prev := MergeAll(acc, fs[..n]).value;
    NoClashWithPrefix(acc, fs, prev);
    MergeAllStep(acc, fs);
    MergeFillsRight(prev, fs[n], c, i);
  }

  /** Each table's columns hold its values for each day of the axis, or
      null, after all the merges. */
  lemma {:induction false} MergeAllFillsCol<V>(acc: Frame<V>, fs: seq<Frame<V>>, k: nat, c: string, i: nat)
    requires WellFormed(acc) && AllWellFormed(fs) && Separate(acc, fs)
    requires k < |fs| && c in fs[k].cols && i < |acc.dts|
    ensures MergeAll(acc, fs).Ok? && MergeAll(acc, fs).value.dts == acc.dts && c in MergeAll(acc, fs).value.cols
    ensures MergeAll(acc, fs).value.cols[c][i] == Lookup(fs[k], c, acc.dts[i])
    decreases |fs|
  {
    var n := |fs| - 1;
    if k == n {
      MergeAllFillsLast(acc, fs, c, i);
    } else {
      SeparatePrefix(acc, fs, n);
      MergeAllKeepsDates(acc, fs[..n]);
      var prev := MergeAll(acc, fs[..n]).value;
      NoClashWithPrefix(acc, fs, prev);
      MergeAllStep(acc, fs);
      assert fs[..n][k] == fs[k];
      MergeAllFillsCol(acc, fs[..n], k, c, i);
      MergeKeepsLeft(prev, fs[n], c);
    }
  }

  /** One step of the merge loop. */
  lemma MergeAllStep<V>(acc: Frame<V>, fs: seq<Frame<V>>)
    requires WellFormed(acc) && AllWellFormed(fs) && |fs| > 0
    requires MergeAll(acc, fs[..|fs| - 1]).Ok?
    ensures MergeAll(acc, fs) == LeftMerge(MergeAll(acc, fs[..|fs| - 1]).value, fs[|fs| - 1])
  {
  }

  lemma NoClashWithPrefix<V>(acc: Frame<V>, fs: seq<Frame<V>>, prev: Frame<V>)
    requires WellFormed(acc) && AllWellFormed(fs) && Separate(acc, fs) && |fs| > 0
    requires WellFormed(prev) && prev.names == acc.names + AllNames(fs[..|fs| - 1])
    ensures !Clash(prev, fs[|fs| - 1])
  {
    var n := |fs| - 1;
    forall c | c in fs[n].names ensures c !in prev.names {
      assert c !in acc.cols;
      if c in AllNames(fs[..n]) {
        AllNamesFrom(fs[..n], c);
        assert false;
      }
    }
  }

  lemma SuffixInjective(a: string, b: string, t: string)
    ensures a + t == b + t ==> a == b
  {
    assert a + t == b + t ==> (a + t)[..|a|] == a && (b + t)[..|b|] == b;
  }

  /** The table of station `k` holds one column named after it. */
  lemma StationTable<V>(stations: seq<string>, load: string -> Result<Series<V>>, k: nat)
    requires StationFrames(stations, load).Ok? && k < |stations|
    ensures var f := StationFrames(stations, load).value[k];
            && f.dts == load(stations[k]).value.dts
            && f.names == [stations[k] + "_gps"]
            && f.cols.Keys == {stations[k] + "_gps"}
  {
    var f := StationFrames(stations, load).value[k];
    assert StationFrame(stations[k], load(stations[k]).value) == Ok(f);
  }

  /** Distinct station names give separate tables. */
  lemma StationsSeparate<V>(stations: seq<string>, load: string -> Result<Series<V>>, axis: Frame<V>)
    requires Distinct(stations) && StationFrames(stations, load).Ok?
    requires axis.cols == map[]
    requires forall k :: 0 <= k < |stations| ==> Distinct(load(stations[k]).value.dts)
    ensures Separate(axis, StationFrames(stations, load).value)
  {
    var fs := StationFrames(stations, load).value;
    forall k | 0 <= k < |fs| ensures Distinct(fs[k].dts) {
      StationTable(stations, load, k);
    }
    forall k, k', c | 0 <= k < k' < |fs| && c in fs[k'].names
      ensures c !in fs[k].cols
    {
      StationPairSeparate(stations, load, k, k', c);
    }
  }

  lemma StationPairSeparate<V>(stations: seq<string>, load: string -> Result<Series<V>>, k: nat, k': nat, c: string)
    requires Distinct(stations) && StationFrames(stations, load).Ok?
    requires k < k' < |stations| && c in StationFrames(stations, load).value[k'].names
    ensures c !in StationFrames(stations, load).value[k].cols
  {
    StationTable(stations, load, k);
    StationTable(stations, load, k');
    assert stations[k] != stations[k'];
    SuffixInjective(stations[k], stations[k'], "_gps");
  }

  /** Distinct stations, each loading, with as many values as dates and
      distinct dates, at least one of them with a date. */
  predicate GoodStations<V>(stations: seq<string>, load: string -> Result<Series<V>>) {
    && |stations| > 0 && Distinct(stations)
    && (forall k :: 0 <= k < |stations| ==> load(stations[k]).Ok?)
    && (forall k :: 0 <= k < |stations| ==> |load(stations[k]).value.values| == |load(stations[k]).value.dts|)
    && (forall k :: 0 <= k < |stations| ==> Distinct(load(stations[k]).value.dts))
    && (exists k :: 0 <= k < |stations| && |load(stations[k]).value.dts| > 0)
  }

  /** For good stations the result is the merge of the station tables onto
      the axis from the earliest to the latest date of any station. */
  lemma CreateGpsLosMerge<V>(stations: seq<string>, load: string -> Result<Series<V>>)
    requires GoodStations(stations, load)
    ensures StationFrames(stations, load).Ok?
    ensures var fs := StationFrames(stations, load).value;
            && |AllDates(fs)| > 0
            && Separate(Axis<V>(MinOf(AllDates(fs)), MaxOf(AllDates(fs))), fs)
            && AllWellFormed(fs)
            && CreateGpsLosSpec(stations, load) == MergeAll(Axis(MinOf(AllDates(fs)), MaxOf(AllDates(fs))), fs)
  {
    StationFramesOk(stations, load);
    var fs := StationFrames(stations, load).value;
    var k0 :| 0 <= k0 < |stations| && |load(stations[k0]).value.dts| > 0;
    assert fs[k0].dts == load(stations[k0]).value.dts;
    assert fs[k0].dts[0] in AllDates(fs);
    var all := AllDates(fs);
    var axis: Frame<V> := Axis(MinOf(all), MaxOf(all));
    StationsSeparate(stations, load, axis);
    assert AllWellFormed(fs) by {
      forall k | 0 <= k < |fs| ensures WellFormed(fs[k]) {
        assert StationFrame(stations[k], load(stations[k]).value) == Ok(fs[k]);
      }
    }
  }

  /** The dates of the station tables are the dates of the stations. */
  lemma AllDatesOfStations<V>(stations: seq<string>, load: string -> Result<Series<V>>)
    requires StationFrames(stations, load).Ok?
    ensures var all := AllDates(StationFrames(stations, load).value);
            && (forall k, i :: 0 <= k < |stations| && 0 <= i < |load(stations[k]).value.dts| ==> load(stations[k]).value.dts[i] in all)
            && (forall d :: d in all ==> exists k :: 0 <= k < |stations| && d in load(stations[k]).value.dts)
  {
    var fs := StationFrames(stations, load).value;
    assert forall k :: 0 <= k < |stations| ==> fs[k].dts == load(stations[k]).value.dts;
  }

  /** `lo` and `hi` are the earliest and the latest date of any station. */
  predicate Spans<V>(stations: seq<string>, load: string -> Result<Series<V>>, lo: int, hi: int) {
    && (exists k :: 0 <= k < |stations| && load(stations[k]).Ok? && lo in load(stations[k]).value.dts)
    && (exists k :: 0 <= k < |stations| && load(stations[k]).Ok? && hi in load(stations[k]).value.dts)
    && (forall k, i :: 0 <= k < |stations| && load(stations[k]).Ok? && 0 <= i < |load(stations[k]).value.dts| ==>
          lo <= load(stations[k]).value.dts[i] <= hi)
  }

  /** The axis runs from the smallest to the largest station date. */
  lemma WindowBounds<V>(stations: seq<string>, load: string -> Result<Series<V>>, lo: int, hi: int)
    requires StationFrames(stations, load).Ok?
    requires var all := AllDates(StationFrames(stations, load).value); |all| > 0 && lo == MinOf(all) && hi == MaxOf(all)
    ensures Spans(stations, load, lo, hi)
  {
    AllDatesOfStations(stations, load);
    var all := AllDates(StationFrames(stations, load).value);
    assert lo in all && hi in all;
    forall k, i | 0 <= k < |stations| && load(stations[k]).Ok? && 0 <= i < |load(stations[k]).value.dts|
      ensures lo <= load(stations[k]).value.dts[i] <= hi
    {
      var d := load(stations[k]).value.dts[i];
      assert d in all;
      var j :| 0 <= j < |all| && all[j] == d;
    }
  }

  /** For distinct stations with distinct dates, `create_gps_los_df` spans
      the earliest to the latest date over all stations, one row per day. */
  lemma CreateGpsLosWindow<V>(stations: seq<string>, load: string -> Result<Series<V>>)
    requires GoodStations(stations, load)
    ensures var r := CreateGpsLosSpec(stations, load);
            && r.Ok?
            && exists lo, hi :: r.value.dts == DateRange(lo, hi) && Spans(stations, load, lo, hi)
  {
    CreateGpsLosMerge(stations, load);
    var fs := StationFrames(stations, load).value;
    var all := AllDates(fs);
    var lo, hi := MinOf(all), MaxOf(all);
    MergeAllKeepsDates(Axis<V>(lo, hi), fs);
    WindowBounds(stations, load, lo, hi);
    assert CreateGpsLosSpec(stations, load).value.dts == DateRange(lo, hi);
  }

  /** For distinct stations with distinct dates, each station's column holds
      its value for the day, or null where it has none. */
  lemma CreateGpsLosCell<V>(stations: seq<string>, load: string -> Result<Series<V>>, k: nat, i: nat)
    requires GoodStations(stations, load) && k < |stations|
    ensures var r := CreateGpsLosSpec(stations, load);
            var c := stations[k] + "_gps";
            && r.Ok? && c in r.value.cols
            && (i < |r.value.dts| ==>
                  r.value.cols[c][i] == Lookup(StationFrame(stations[k], load(stations[k]).value).value, c, r.value.dts[i]))
  {
    CreateGpsLosMerge(stations, load);
    var fs := StationFrames(stations, load).value;
    var all := AllDates(fs);
    var axis: Frame<V> := Axis(MinOf(all), MaxOf(all));
    var c := stations[k] + "_gps";
    assert c in fs[k].cols;
    MergeAllKeepsDates(axis, fs);
    if i < |axis.dts| {
      MergeAllFillsCol(axis, fs, k, c, i);
    } else {
      MergeAllFillsCol(axis, fs, k, c, 0);
    }
  }

  lemma StationFramesOk<V>(stations: seq<string>, load: string -> Result<Series<V>>)
    requires forall k :: 0 <= k < |stations| ==> load(stations[k]).Ok?
    requires forall k :: 0 <= k < |stations| ==> |load(stations[k]).value.values| == |load(stations[k]).value.dts|
    ensures StationFrames(stations, load).Ok?
    decreases |stations|
  {
    if |stations| > 0 {
      var n := |stations| - 1;
      assert forall k :: 0 <= k < n ==> stations[..n][k] == stations[k];
      StationFramesOk(stations[..n], load);
    }
  }
}

=== FILE: gps_prune.dfy ===
/** `_remove_bad_cols` of `apertools/gps.py`: the columns that are null over
    the first or the last ten rows, and the GPS columns that are null too
    often, mark their station as bad, and both of that station's columns
    (`<station>_gps` and `<station>_insar`) are dropped from the table in
    place. */
module GpsPrune {
  import opened Base
  import opened PyStr
  import opened GpsFrames

  // ---------------------------------------------------------------------
  // The bad columns

  predicate AllNull<V>(s: seq<Option<V>>) {
    forall i :: 0 <= i < |s| ==> s[i].None?
  }

  function Min(a: nat, b: nat): nat { if a <= b then a else b }

  /** `df.head(10)` and `df.tail(10)` of one column. */
  function Head<V>(s: seq<Option<V>>): (r: seq<Option<V>>)
    ensures r <= s && |r| <= 10
    ensures |s| >= 10 ==> |r| == 10
    ensures |s| <= 10 ==> r == s
  {
    s[..Min(10, |s|)]
  }

  function Tail<V>(s: seq<Option<V>>): (r: seq<Option<V>>)
    ensures |r| <= |s| && r == s[|s| - |r|..] && |r| <= 10
    ensures |s| >= 10 ==> |r| == 10
    ensures |s| <= 10 ==> r == s
  {
    s[|s| - Min(10, |s|)..]
  }

  function NullCount<V>(s: seq<Option<V>>): (n: nat)
    ensures n <= |s|
  {
    if |s| == 0 then 0 else (if s[0].None? then 1 else 0) + NullCount(s[1..])
  }

  /** `df.isna().sum() / len(df) > nan_threshold`, for a table with rows
      (with no rows the quotient is NaN and the comparison is false). */
  function MostlyNull<V>(s: seq<Option<V>>, threshold: real): (b: bool)
    ensures b ==> |s| > 0
    ensures b && threshold >= 0.0 ==> NullCount(s) > 0
    ensures threshold < 1.0 && |s| > 0 && NullCount(s) == |s| ==> b
  {
    |s| > 0 && (NullCount(s) as real) / (|s| as real) > threshold
  }

  /** The three tests that make a column bad. */
  datatype Test = EmptyStart | EmptyEnd | HighNan(threshold: real)

  predicate Fails<V>(f: Frame<V>, c: string, t: Test)
    requires c in f.cols
  {
    match t
    case EmptyStart => AllNull(Head(f.cols[c]))
    case EmptyEnd => AllNull(Tail(f.cols[c]))
    case HighNan(threshold) => MostlyNull(f.cols[c], threshold) && Contains(c, "gps")
  }

  /** The columns among `names` that fail test `t`, in order:
      `df.columns[df.head(10).isna().all()]` and its two companions (only
      GPS columns count for the null fraction). */
  function Failing<V>(f: Frame<V>, names: seq<string>, t: Test): (r: seq<string>)
    requires forall k :: 0 <= k < |names| ==> names[k] in f.cols
    ensures forall c :: c in r <==> c in names && Fails(f, c, t)
    decreases |names|
  {
    if |names| == 0 then []
    else (if Fails(f, names[0], t) then [names[0]] else []) + Failing(f, names[1..], t)
  }

  /** `bad_cols`: the empty starts, then the empty ends, then the GPS columns
      null more often than the threshold (a table with no rows has every
      column in the first two groups). */
  function BadCols<V>(f: Frame<V>, threshold: real): (bad: seq<string>)
    requires WellFormed(f)
    ensures forall c :: c in bad <==> c in f.cols && (Fails(f, c, EmptyStart) || Fails(f, c, EmptyEnd) || Fails(f, c, HighNan(threshold)))
  {
    Failing(f, f.names, EmptyStart) + Failing(f, f.names, EmptyEnd) + Failing(f, f.names, HighNan(threshold))
  }

  // ---------------------------------------------------------------------
  // Removing names

  /** `names` without `c`. */
  function Without(names: seq<string>, c: string): (r: seq<string>)
    ensures forall x :: x in r <==> x in names && x != c
    ensures Distinct(names) ==> Distinct(r)
    decreases |names|
  {
    if |names| == 0 then []
    else
      var rest := Without(names[1..], c);
      assert Distinct(names) ==> Distinct(names[1..]) by {
        if Distinct(names) {
          forall i, j | 0 <= i < j < |names[1..]| ensures names[1..][i] != names[1..][j] {
            assert names[1..][i] == names[i + 1] && names[1..][j] == names[j + 1];
          }
        }
      }
      assert Distinct(names) ==> names[0] !in names[1..];
      if names[0] == c then rest else [names[0]] + rest
  }

  /** `names` without the columns of the stations in `gone`. */
  function Kept(names: seq<string>, gone: set<string>): (r: seq<string>)
    ensures forall x :: x in r <==> x in names && Bare(x) !in gone
    ensures Distinct(names) ==> Distinct(r)
    decreases |names|
  {
    if |names| == 0 then []
    else
      var rest := Kept(names[1..], gone);
      assert Distinct(names) ==> Distinct(names[1..]) by {
        if Distinct(names) {
          forall i, j | 0 <= i < j < |names[1..]| ensures names[1..][i] != names[1..][j] {
            assert names[1..][i] == names[i + 1] && names[1..][j] == names[j + 1];
          }
        }
      }
      assert Distinct(names) ==> names[0] !in names[1..];
      if Bare(names[0]) in gone then rest else [names[0]] + rest
  }

  lemma {:induction false} KeptAllGone(names: seq<string>, gone: set<string>)
    requires forall x :: x in names ==> Bare(x) in gone
    ensures Kept(names, gone) == []
    decreases |names|
  {
    if |names| > 0 {
      KeptAllGone(names[1..], gone);
    }
  }

  lemma {:induction false} KeptNone(names: seq<string>)
    ensures Kept(names, {}) == names
    decreases |names|
  {
    if |names| > 0 {
      KeptNone(names[1..]);
    }
  }

  /** Removing the two columns of station `s` from the names kept so far is
      keeping the names without `s` as well. */
  lemma {:induction false} KeptWithout(names: seq<string>, gone: set<string>, s: string, g: string, i: string)
    requires forall x :: x in names ==> (Bare(x) == s <==> x == g || x == i)
    ensures Without(Without(Kept(names, gone), g), i) == Kept(names, gone + {s})
    decreases |names|
  {
    if |names| > 0 {
      KeptWithout(names[1..], gone, s, g, i);
    }
  }

  // ---------------------------------------------------------------------
  // The drop loop

  /** `col.replace("_gps", "").replace("_insar", "")`. */
  function Station(c: string): (r: string)
    ensures |r| <= |c|
    ensures !Contains(c, "_gps") && !Contains(c, "_insar") ==> r == c
  {
    ReplaceAll(ReplaceAll(c, "_gps", ""), "_insar", "")
  }

  /** `df.drop(c, axis=1)` for a column that exists. */
  function DropCol<V>(f: Frame<V>, c: string): (r: Frame<V>)
    requires WellFormed(f) && c in f.cols
    ensures WellFormed(r) && r.dts == f.dts
    ensures r.cols.Keys == f.cols.Keys - {c} && forall n :: n in r.cols ==> r.cols[n] == f.cols[n]
  {
    Frame(f.dts, Without(f.names, c), f.cols - {c})
  }

  /** One pass of the loop body: the table afterwards and the exception
      raised, if any. A missing `_insar` partner is reported after the
      `_gps` column has already been dropped. */
  function PruneStep<V>(f: Frame<V>, c: string): (r: (Frame<V>, Option<Error>))
    requires WellFormed(f)
    ensures WellFormed(r.0)
    ensures c !in f.cols ==> r == (f, None)
    ensures c in f.cols && Station(c) + "_gps" !in f.cols ==> r == (f, Some(KeyError(Station(c) + "_gps")))
  {
    if c !in f.cols then (f, None)
    else
      var g := Station(c) + "_gps";
      var i := Station(c) + "_insar";
      if g !in f.cols then (f, Some(KeyError(g)))
      else
        var f1 := DropCol(f, g);
        if i !in f1.cols then (f1, Some(KeyError(i)))
        else (DropCol(f1, i), None)
  }

  /** The loop over the first bad columns; it stops at the first exception. */
  function PruneFold<V>(f: Frame<V>, bad: seq<string>): (r: (Frame<V>, Option<Error>))
    requires WellFormed(f)
    ensures WellFormed(r.0)
    decreases |bad|
  {
    if |bad| == 0 then (f, None)
    else
      var prev := PruneFold(f, bad[..|bad| - 1]);
      if prev.1.Some? then prev else PruneStep(prev.0, bad[|bad| - 1])
  }

  lemma {:induction false} PruneFoldStops<V>(f: Frame<V>, bad: seq<string>, n: nat)
    requires WellFormed(f) && n <= |bad| && PruneFold(f, bad[..n]).1.Some?
    ensures PruneFold(f, bad) == PruneFold(f, bad[..n])
    decreases |bad| - n
  {
    if n < |bad| {
      assert bad[..n + 1][..n] == bad[..n];
      PruneFoldStops(f, bad, n + 1);
    } else {
      assert bad[..n] == bad;
    }
  }

  /** The table `_remove_bad_cols` works on, changed in place. */
  class DataFrame<V> {
    var dts: seq<int>
    var names: seq<string>
    var cols: map<string, seq<Option<V>>>

    function Value(): Frame<V>
      reads this
    {
      Frame(dts, names, cols)
    }

    predicate Valid()
      reads this
    {
      WellFormed(Value())
    }

    constructor (f: Frame<V>)
      requires WellFormed(f)
      ensures Valid() && Value() == f
    {
      dts, names, cols := f.dts, f.names, f.cols;
    }

    /** `df.drop(c, axis=1, inplace=True)`: a missing column raises a
        `KeyError` and leaves the table alone. */
    method Drop(c: string) returns (err: Option<Error>)
      requires Valid()
      modifies this
      ensures Valid()
      ensures err == if c in old(cols) then None else Some(KeyError(c))
      ensures Value() == if c in old(cols) then DropCol(old(Value()), c) else old(Value())
    {
      if c !in cols {
        return Some(KeyError(c));
      }
      names := Without(names, c);
      cols := cols - {c};
      return None;
    }

    /** One pass of the loop body for the bad column `col`. */
    method DropStationOf(col: string) returns (err: Option<Error>)
      requires Valid()
      modifies this
      ensures Valid()
      ensures (Value(), err) == PruneStep(old(Value()), col)
    {
      if col !in cols {
        return None;
      }
      var station := Station(col);
      err := Drop(station + "_gps");
      if err.Some? {
        return;
      }
      err := Drop(station + "_insar");
    }

    /** The loop of `_remove_bad_cols` over the bad columns `bad`. */
    method DropStations(bad: seq<string>) returns (err: Option<Error>)
      requires Valid()
      modifies this
      ensures Valid()
      ensures (Value(), err) == PruneFold(old(Value()), bad)
    {
      ghost var f0 := Value();
      for k := 0 to |bad|
        invariant Valid()
        invariant PruneFold(f0, bad[..k]) == (Value(), None)
      {
        assert bad[..k + 1][..k] == bad[..k];
        err := DropStationOf(bad[k]);
        if err.Some? {
          PruneFoldStops(f0, bad, k + 1);
          return;
        }
      }
      assert bad[..|bad|] == bad;
      return None;
    }

    /** `_remove_bad_cols(df, nan_threshold)`: the bad columns are chosen on
        the table as it comes in, then each still present has its station's
        two columns dropped. */
    method RemoveBadCols(threshold: real) returns (err: Option<Error>)
      requires Valid()
      modifies this
      ensures Valid()
      ensures (Value(), err) == PruneFold(old(Value()), BadCols(old(Value()), threshold))
    {
      var bad := BadCols(Value(), threshold);
      err := DropStations(bad);
    }
  }

  // ---------------------------------------------------------------------
  // Tables with paired station columns

  /** The station part of `<station>_gps` or `<station>_insar`. */
  function Bare(c: string): string {
    if EndsWith(c, "_gps") then c[..|c| - 4]
    else if EndsWith(c, "_insar") then c[..|c| - 6]
    else c
  }

  /** The GPS and InSAR column names of the stations. */
  function ColumnsOf(stations: set<string>): set<string> {
    (set s | s in stations :: s + "_gps") + (set s | s in stations :: s + "_insar")
  }

  /** The columns are exactly the GPS and InSAR columns of `stations`, and
      no station name holds an underscore. */
  predicate Paired<V>(f: Frame<V>, stations: set<string>) {
    && (forall s :: s in stations ==> '_' !in s)
    && f.cols.Keys == ColumnsOf(stations)
  }

  lemma BareGps(s: string)
    requires '_' !in s
    ensures Bare(s + "_gps") == s && Station(s + "_gps") == s
  {
    assert (s + "_gps")[..|s|] == s;
    ReplaceSkips(s, "_gps", "_gps", "");
    ReplaceAtFront("", "_gps", "");
    assert s + "_gps" == s + ("_gps" + "");
    assert s == s + "";
    ReplaceSkips(s, "", "_insar", "");
  }

  /** `_insar` holds no `_gps`. */
  lemma InsarKeepsUnderGps()
    ensures ReplaceAll("_insar", "_gps", "") == "_insar"
  {
    assert !("_gps" <= "_insar") by { assert "_insar"[1] == 'i'; }
    assert "_insar"[1..] == "insar";
    ReplaceSkips("insar", "", "_gps", "");
    assert "insar" + "" == "insar";
  }

  lemma InsarNotGps(s: string)
    ensures !EndsWith(s + "_insar", "_gps")
  {
    var c := s + "_insar";
    assert c[|c| - 4..] == "nsar";
  }

  lemma BareInsar(s: string)
    requires '_' !in s
    ensures Bare(s + "_insar") == s && Station(s + "_insar") == s
  {
    var c := s + "_insar";
    InsarNotGps(s);
    assert c[..|s|] == s;
    ReplaceSkips(s, "_insar", "_gps", "");
    InsarKeepsUnderGps();
    ReplaceSkips(s, "_insar", "_insar", "");
    ReplaceAtFront("", "_insar", "");
    assert "_insar" == "_insar" + "";
    assert s + "" == s;
  }

  /** A column of a paired table names its station, both through `Bare`
      and through the replacements the loop makes. */
  lemma StationOfColumn<V>(f: Frame<V>, stations: set<string>, c: string) returns (s: string)
    requires Paired(f, stations) && c in f.cols
    ensures s in stations && (c == s + "_gps" || c == s + "_insar")
    ensures Bare(c) == s && Station(c) == s
  {
    s :| s in stations && (c == s + "_gps" || c == s + "_insar");
    if c == s + "_gps" {
      BareGps(s);
    } else {
      BareInsar(s);
    }
  }

  /** The table left when the stations of `gone` have been dropped. */
  function Keep<V>(f: Frame<V>, gone: set<string>): (r: Frame<V>)
    requires WellFormed(f)
    ensures WellFormed(r)
  {
    Frame(f.dts, Kept(f.names, gone), map c | c in f.cols && Bare(c) !in gone :: f.cols[c])
  }

  /** The stations the first bad columns mark, counting only columns of the
      incoming table. */
  function Marked<V>(f: Frame<V>, bad: seq<string>): set<string> {
    set b | b in bad && b in f.cols :: Bare(b)
  }

  lemma KeepNothing<V>(f: Frame<V>)
    requires WellFormed(f)
    ensures Keep(f, {}) == f
  {
    KeptNone(f.names);
  }

  /** Dropping both columns of a station that is still there is dropping
      that station. */
  lemma DropStation<V>(f: Frame<V>, stations: set<string>, gone: set<string>, s: string)
    requires WellFormed(f) && Paired(f, stations)
    requires s in stations && s !in gone
    ensures var k := Keep(f, gone);
            && s + "_gps" in k.cols
            && s + "_insar" in DropCol(k, s + "_gps").cols
            && DropCol(DropCol(k, s + "_gps"), s + "_insar") == Keep(f, gone + {s})
  {
    var g, i := s + "_gps", s + "_insar";
    BareGps(s);
    BareInsar(s);
    assert g in f.cols && i in f.cols;
    var k := Keep(f, gone);
    assert g in k.cols;
    var k1 := DropCol(k, g);
    assert |i| != |g|;
    assert i in k1.cols;
    var k2 := DropCol(k1, i);
    var want := Keep(f, gone + {s});
    forall c | c in f.cols ensures (Bare(c) == s <==> c == g || c == i) {
      var t := StationOfColumn(f, stations, c);
    }
    KeptWithout(f.names, gone, s, g, i);
    KeepCols(f.cols, k.cols, k2.cols, want.cols, gone, s, g, i);
  }

  lemma KeepCols<V>(cols: map<string, V>, k: map<string, V>, k2: map<string, V>, want: map<string, V>,
                    gone: set<string>, s: string, g: string, i: string)
    requires forall c :: c in cols ==> (Bare(c) == s <==> c == g || c == i)
    requires k == map c | c in cols && Bare(c) !in gone :: cols[c]
    requires k2.Keys == k.Keys - {g} - {i} && forall c :: c in k2 ==> k2[c] == k[c]
    requires want == map c | c in cols && Bare(c) !in gone + {s} :: cols[c]
    ensures k2 == want
  {
    assert k2.Keys == want.Keys;
  }

  /** The station a column of the incoming table marks, if any. */
  function MarkOf<V>(f: Frame<V>, b: string): set<string> {
    if b in f.cols then {Bare(b)} else {}
  }

  lemma MarkedStep<V>(f: Frame<V>, bad: seq<string>)
    requires |bad| > 0
    ensures Marked(f, bad) == Marked(f, bad[..|bad| - 1]) + MarkOf(f, bad[|bad| - 1])
  {
    var n := |bad| - 1;
    assert bad == bad[..n] + [bad[n]];
    assert forall x :: x in bad <==> x in bad[..n] || x == bad[n];
  }

  /** One pass of the loop on a paired table with some stations gone. */
  lemma PruneStepPaired<V>(f: Frame<V>, stations: set<string>, gone: set<string>, b: string)
    requires WellFormed(f) && Paired(f, stations)
    ensures PruneStep(Keep(f, gone), b) == (Keep(f, gone + MarkOf(f, b)), None)
  {
    var k := Keep(f, gone);
    if b in k.cols {
      var s := StationOfColumn(f, stations, b);
      DropStation(f, stations, gone, s);
    } else if b in f.cols {
      assert gone + MarkOf(f, b) == gone;
    } else {
      assert gone + MarkOf(f, b) == gone;
    }
  }

  /** For a table whose columns are paired station columns, the drop loop
      raises nothing and leaves exactly the stations no bad column marked,
      their columns unchanged and in their original order. */
  lemma {:induction false} PrunePaired<V>(f: Frame<V>, stations: set<string>, bad: seq<string>)
    requires WellFormed(f) && Paired(f, stations)
    ensures PruneFold(f, bad) == (Keep(f, Marked(f, bad)), None)
    decreases |bad|
  {
    if |bad| == 0 {
      KeepNothing(f);
      assert Marked(f, bad) == {};
    } else {
      var n := |bad| - 1;
      PrunePaired(f, stations, bad[..n]);
      PruneStepPaired(f, stations, Marked(f, bad[..n]), bad[n]);
      MarkedStep(f, bad);
    }
  }

  /** So on such a table `_remove_bad_cols` raises nothing and drops exactly
      the stations with a bad column: both columns of a bad station go, and
      every other column stays as it was, in order. */
  lemma RemoveBadColsPaired<V>(f: Frame<V>, stations: set<string>, threshold: real)
    requires WellFormed(f) && Paired(f, stations)
    ensures var r := PruneFold(f, BadCols(f, threshold));
            && r.1 == None && r.0.dts == f.dts
            && r.0.names == Kept(f.names, Marked(f, BadCols(f, threshold)))
            && (forall c :: c in r.0.cols ==> r.0.cols[c] == f.cols[c])
            && (forall s :: s in Marked(f, BadCols(f, threshold)) <==>
                  s in stations && (s + "_gps" in BadCols(f, threshold) || s + "_insar" in BadCols(f, threshold)))
  {
    var bad := BadCols(f, threshold);
    PrunePaired(f, stations, bad);
    forall s | s in stations ensures Bare(s + "_gps") == s && Bare(s + "_insar") == s {
      BareGps(s);
      BareInsar(s);
    }
    forall s | s in Marked(f, bad)
      ensures s in stations && (s + "_gps" in bad || s + "_insar" in bad)
    {
      var b :| b in bad && b in f.cols && Bare(b) == s;
      var t := StationOfColumn(f, stations, b);
    }
  }

  /** A table with no rows loses every column: the first ten rows of each
      column are all null, vacuously. */
  lemma NoRowsDropsAll<V>(f: Frame<V>, stations: set<string>, threshold: real)
    requires WellFormed(f) && Paired(f, stations) && |f.dts| == 0
    ensures PruneFold(f, BadCols(f, threshold)).0.names == []
  {
    var bad := BadCols(f, threshold);
    RemoveBadColsPaired(f, stations, threshold);
    NoRowsAllBad(f, threshold);
    var names := PruneFold(f, bad).0.names;
    assert names == Kept(f.names, Marked(f, bad));
    forall c | c in f.names ensures Bare(c) in Marked(f, bad) {
      assert c in bad;
    }
    KeptAllGone(f.names, Marked(f, bad));
  }

  lemma NoRowsAllBad<V>(f: Frame<V>, threshold: real)
    requires WellFormed(f) && |f.dts| == 0
    ensures forall c :: c in f.cols ==> c in BadCols(f, threshold)
  {
    forall c | c in f.cols ensures c in BadCols(f, threshold) {
      assert Head(f.cols[c]) == [];
    }
  }

  /** The null fraction must exceed the threshold: two nulls in five rows
      (40%) keep a GPS column at the default threshold of 0.4, three drop
      it. */
  lemma ThresholdIsStrict()
    ensures !MostlyNull([None, None, Some(1.0), Some(1.0), Some(1.0)], 0.4)
    ensures MostlyNull([None, None, None, Some(1.0), Some(1.0)], 0.4)
  {
    var a: seq<Option<real>> := [None, None, Some(1.0), Some(1.0), Some(1.0)];
    var b: seq<Option<real>> := [None, None, None, Some(1.0), Some(1.0)];
    assert a[1..][1..][1..][1..][1..] == [];
    assert b[1..][1..][1..][1..][1..] == [];
    assert NullCount(a) == 2;
    assert NullCount(b) == 3;
  }

  /** A station with only a GPS column: once that column is bad, the loop
      drops it and then raises a `KeyError` for the missing InSAR column. */
  lemma MissingPartnerRaises<V>(f: Frame<V>, s: string)
    requires WellFormed(f) && '_' !in s && s + "_gps" in f.cols && s + "_insar" !in f.cols
    ensures PruneStep(f, s + "_gps") == (DropCol(f, s + "_gps"), Some(KeyError(s + "_insar")))
  {
    BareGps(s);
  }
}

=== FILE: gps_reference.dfy ===
/** `subtract_reference` of `apertools/gps.py`: every GPS column of the
    combined table is centred on the reference station's GPS column, and
    every InSAR column on its InSAR column. Cells are `Option<real>`, a null
    on either side giving a null. */
module GpsReference {
  import opened Base
  import opened PyStr
  import opened GpsFrames

  type Column = seq<Option<real>>

  /** The reference column a column is centred on: a name containing `gps`
      uses `<station>_gps`, otherwise one containing `insar` uses
      `<station>_insar`, and any other column is left alone. */
  function RefFor(c: string, station: string): (rc: Option<string>)
    ensures Contains(c, "gps") ==> rc == Some(station + "_gps")
    ensures !Contains(c, "gps") && Contains(c, "insar") ==> rc == Some(station + "_insar")
    ensures !Contains(c, "gps") && !Contains(c, "insar") ==> rc == None
  {
    if Contains(c, "gps") then Some(station + "_gps")
    else if Contains(c, "insar") then Some(station + "_insar")
    else None
  }

  /** Series subtraction, cell by cell; a null on either side stays null. */
  function Minus(a: Column, b: Column): (r: Column)
    requires |a| == |b|
    ensures |r| == |a|
    ensures forall i :: 0 <= i < |a| ==>
              r[i] == if a[i].Some? && b[i].Some? then Some(a[i].value - b[i].value) else None
  {
    seq(|a|, i requires 0 <= i < |a| => if a[i].Some? && b[i].Some? then Some(a[i].value - b[i].value) else None)
  }

  /** The reference column for `c` exists, when `c` needs one. */
  predicate HasRef(df: Frame<real>, station: string, c: string) {
    RefFor(c, station).Some? ==> RefFor(c, station).value in df.cols
  }

  /** What column `c` becomes: the original column minus its reference
      column, or the original column when it has none. */
  function CentredCol(df: Frame<real>, station: string, c: string): (r: Column)
    requires WellFormed(df) && c in df.cols
    ensures |r| == |df.dts|
    ensures forall i :: 0 <= i < |r| && r[i].Some? ==> df.cols[c][i].Some?
  {
    match RefFor(c, station)
    case None => df.cols[c]
    case Some(rc) => if rc in df.cols then Minus(df.cols[c], df.cols[rc]) else df.cols[c]
  }

  /** The column loop over the first columns `names`, assigning into the
      copy; the values on the right always come from the original table. */
  function Centred(df: Frame<real>, station: string, names: seq<string>): (r: Result<map<string, Column>>)
    requires WellFormed(df) && forall k :: 0 <= k < |names| ==> names[k] in df.cols
    ensures r.Ok? ==> r.value.Keys == df.cols.Keys && forall n :: n in r.value ==> |r.value[n]| == |df.dts|
    decreases |names|
  {
    if |names| == 0 then Ok(df.cols)
    else
      var n := |names| - 1;
      var prev :- Centred(df, station, names[..n]);
      var c := names[n];
      match RefFor(c, station)
      case None => Ok(prev)
      case Some(rc) =>
        if rc !in df.cols then Err(KeyError(rc))
        else Ok(prev[c := Minus(df.cols[c], df.cols[rc])])
  }

  /** `subtract_reference(df, station)`. */
  function SubtractSpec(df: Frame<real>, station: string): (r: Result<Frame<real>>)
    requires WellFormed(df)
    ensures r.Ok? ==> WellFormed(r.value) && r.value.dts == df.dts && r.value.names == df.names
  {
    var cols :- Centred(df, station, df.names);
    Ok(Frame(df.dts, df.names, cols))
  }

  /** The column loop, as `subtract_reference` runs it on `df.copy()`. */
  method SubtractReference(df: Frame<real>, station: string) returns (r: Result<Frame<real>>)
    requires WellFormed(df)
    ensures r == SubtractSpec(df, station)
  {
    var out := df.cols;
    for k := 0 to |df.names|
      invariant Centred(df, station, df.names[..k]) == Ok(out)
    {
      CentredNext(df, station, k);
      var c := df.names[k];
      var ref := RefFor(c, station);
      if ref.Some? {
        if ref.value !in df.cols {
          CentredStops(df, station, k + 1);
          return Err(KeyError(ref.value));
        }
        out := out[c := Minus(df.cols[c], df.cols[ref.value])];
      }
    }
    assert df.names[..|df.names|] == df.names;
    return Ok(Frame(df.dts, df.names, out));
  }

  /** One more column of the loop: centred when its reference exists. */
  lemma CentredNext(df: Frame<real>, station: string, k: nat)
    requires WellFormed(df) && k < |df.names| && Centred(df, station, df.names[..k]).Ok?
    ensures var prev := Centred(df, station, df.names[..k]).value;
            var c := df.names[k];
            Centred(df, station, df.names[..k + 1]) ==
              match RefFor(c, station)
              case None => Ok(prev)
              case Some(rc) => if rc !in df.cols then Err(KeyError(rc)) else Ok(prev[c := Minus(df.cols[c], df.cols[rc])])
  {
    assert df.names[..k + 1][..k] == df.names[..k];
  }

  lemma {:induction false} CentredStops(df: Frame<real>, station: string, n: nat)
    requires WellFormed(df) && n <= |df.names|
    requires Centred(df, station, df.names[..n]).Err?
    ensures Centred(df, station, df.names) == Centred(df, station, df.names[..n])
    decreases |df.names| - n
  {
    if n < |df.names| {
      assert df.names[..n + 1][..n] == df.names[..n];
      CentredStops(df, station, n + 1);
    } else {
      assert df.names[..n] == df.names;
    }
  }

  /** The loop over the first `k` columns fails exactly when one of them
      lacks its reference column, and then with a `KeyError` naming one of
      the two reference columns. */
  lemma {:induction false} CentredFails(df: Frame<real>, station: string, k: nat)
    requires WellFormed(df) && k <= |df.names|
    ensures var r := Centred(df, station, df.names[..k]);
            && (r.Ok? <==> forall j :: 0 <= j < k ==> HasRef(df, station, df.names[j]))
            && (r.Err? ==> r.error == KeyError(station + "_gps") || r.error == KeyError(station + "_insar"))
    decreases k
  {
    if k > 0 {
      var n := k - 1;
      assert df.names[..k][..n] == df.names[..n];
      CentredFails(df, station, n);
    }
  }

  /** After the loop over the first `k` columns those columns are centred
      and the others are as they were. */
  lemma {:induction false} CentredCols(df: Frame<real>, station: string, k: nat)
    requires WellFormed(df) && k <= |df.names|
    requires Centred(df, station, df.names[..k]).Ok?
    ensures var m := Centred(df, station, df.names[..k]).value;
            && m.Keys == df.cols.Keys
            && (forall j :: 0 <= j < k ==> m[df.names[j]] == CentredCol(df, station, df.names[j]))
            && (forall j :: k <= j < |df.names| ==> m[df.names[j]] == df.cols[df.names[j]])
    decreases k
  {
    if k > 0 {
      var n := k - 1;
      assert df.names[..k][..n] == df.names[..n];
      CentredCols(df, station, n);
      var prev := Centred(df, station, df.names[..n]).value;
      var m := Centred(df, station, df.names[..k]).value;
      var c := df.names[n];
      assert df.names[..k][n] == c;
      assert m == prev[c := CentredCol(df, station, c)];
      forall j | 0 <= j < |df.names| && j != n
        ensures df.names[j] != c
      {
      }
    }
  }

  /** `subtract_reference` succeeds exactly when every GPS or InSAR column
      has its reference column; it then keeps the dates and the column
      order, centres each such column and leaves the others alone. */
  lemma SubtractReferenceCols(df: Frame<real>, station: string)
    requires WellFormed(df)
    ensures var r := SubtractSpec(df, station);
            && (r.Ok? <==> forall j :: 0 <= j < |df.names| ==> HasRef(df, station, df.names[j]))
            && (r.Err? ==> r.error == KeyError(station + "_gps") || r.error == KeyError(station + "_insar"))
            && (r.Ok? ==>
                  && WellFormed(r.value) && r.value.dts == df.dts && r.value.names == df.names
                  && forall c :: c in df.cols ==> r.value.cols[c] == CentredCol(df, station, c))
  {
    assert df.names[..|df.names|] == df.names;
    CentredFails(df, station, |df.names|);
    var r := SubtractSpec(df, station);
    if r.Ok? {
      CentredCols(df, station, |df.names|);
      forall c | c in df.cols ensures r.value.cols[c] == CentredCol(df, station, c) {
        var j :| 0 <= j < |df.names| && df.names[j] == c;
      }
    }
  }

  /** The reference station's own GPS column becomes zero wherever it is
      not null. */
  lemma ReferenceZeroed(df: Frame<real>, station: string, i: nat)
    requires WellFormed(df) && station + "_gps" in df.cols && i < |df.dts|
    requires SubtractSpec(df, station).Ok?
    ensures var r := SubtractSpec(df, station).value;
            && station + "_gps" in r.cols && i < |r.cols[station + "_gps"]|
            && r.cols[station + "_gps"][i] == if df.cols[station + "_gps"][i].Some? then Some(0.0) else None
  {
    SubtractReferenceCols(df, station);
    var g := station + "_gps";
    assert g == (station + "_") + "gps";
    ContainsSuffix(station + "_", "gps");
    assert RefFor(g, station) == Some(g);
  }

  /** The reference station's own InSAR column becomes zero wherever it is
      not null, provided the station name does not itself hold `gps` (a
      column holding `gps` is centred on the GPS reference instead). */
  lemma ReferenceInsarZeroed(df: Frame<real>, station: string, i: nat)
    requires WellFormed(df) && station + "_insar" in df.cols && i < |df.dts|
    requires !Contains(station + "_insar", "gps")
    requires SubtractSpec(df, station).Ok?
    ensures var r := SubtractSpec(df, station).value;
            && station + "_insar" in r.cols && i < |r.cols[station + "_insar"]|
            && r.cols[station + "_insar"][i] == if df.cols[station + "_insar"][i].Some? then Some(0.0) else None
  {
    SubtractReferenceCols(df, station);
    var g := station + "_insar";
    assert g == (station + "_") + "insar";
    ContainsSuffix(station + "_", "insar");
    assert RefFor(g, station) == Some(g);
  }
}

=== FILE: gps_stations.dfy ===
/** The station helpers of `apertools/gps.py`: trimming a station's daily
    solutions to a span of years and renaming its columns (`_clean_gps_df`),
    looking a station up in the catalog (`station_lonlat`), and choosing the
    stations to compare (`_load_station_list`). Dates are day numbers. */
module GpsStations {
  import opened Base
  import opened PyStr
  import opened Calendar
  import opened GpsFrames

  // ---------------------------------------------------------------------
  // _clean_gps_df

  /** The three position columns of a solution file, in selection order. */
  const EnuColumns: seq<string> := ["__east(m)", "_north(m)", "____up(m)"]

  /** The column mapper `s.replace('_', '').replace('(m)', '')`. */
  function Rename(s: string): (r: string)
    ensures '_' !in r && |r| <= |s|
  {
    var r := ReplaceAll(ReplaceAll(s, "_", ""), "(m)", "");
    assert '_' !in r by {
      if '_' in r {
        ReplaceKeepsChars(ReplaceAll(s, "_", ""), "(m)", "", '_');
      }
    }
    r
  }

  /** The rows whose date is on or after `lo` and, when there is an upper
      bound, on or before it, in order. */
  function RowsInRange(dts: seq<int>, lo: int, hi: Option<int>): (rows: seq<nat>)
    ensures forall k :: 0 <= k < |rows| ==> rows[k] < |dts| && InRange(dts[rows[k]], lo, hi)
    ensures forall k, k' :: 0 <= k < k' < |rows| ==> rows[k] < rows[k']
    ensures forall i :: 0 <= i < |dts| && InRange(dts[i], lo, hi) ==> i in rows
    decreases |dts|
  {
    if |dts| == 0 then []
    else
      var n := |dts| - 1;
      var prev := RowsInRange(dts[..n], lo, hi);
      if InRange(dts[n], lo, hi) then prev + [n] else prev
  }

  predicate InRange(d: int, lo: int, hi: Option<int>) {
    lo <= d && (hi.Some? ==> d <= hi.value)
  }

  function Pick<T>(s: seq<T>, rows: seq<nat>): (r: seq<T>)
    requires forall k :: 0 <= k < |rows| ==> rows[k] < |s|
    ensures |r| == |rows| && forall k :: 0 <= k < |rows| ==> r[k] == s[rows[k]]
  {
    seq(|rows|, k requires 0 <= k < |rows| => s[rows[k]])
  }

  /** The index of the first of the position columns the table lacks, if
      any. */
  function MissingColumn<V>(f: Frame<V>): (m: Option<nat>)
    ensures m.None? <==> forall k :: 0 <= k < |EnuColumns| ==> EnuColumns[k] in f.cols
    ensures m.Some? ==> m.value < |EnuColumns| && EnuColumns[m.value] !in f.cols
  {
    if EnuColumns[0] !in f.cols then Some(0)
    else if EnuColumns[1] !in f.cols then Some(1)
    else if EnuColumns[2] !in f.cols then Some(2)
    else None
  }

  /** The cleaned table: the chosen rows of the dates and of the three
      position columns, under the names `names`. */
  function Cleaned<V>(df: Frame<V>, rows: seq<nat>, names: seq<string>): (r: Frame<V>)
    requires WellFormed(df) && forall k :: 0 <= k < |EnuColumns| ==> EnuColumns[k] in df.cols
    requires forall k :: 0 <= k < |rows| ==> rows[k] < |df.dts|
    requires |names| == 3 && Distinct(names)
    ensures WellFormed(r) && r.names == names
  {
    var r := Frame(Pick(df.dts, rows), names,
                   map[names[0] := Pick(df.cols[EnuColumns[0]], rows),
                       names[1] := Pick(df.cols[EnuColumns[1]], rows),
                       names[2] := Pick(df.cols[EnuColumns[2]], rows)]);
    assert r.cols.Keys == set n | n in names;
    r
  }

  /** `_clean_gps_df(df, start_year, end_year)`: rows before 1 January of
      `start_year` are dropped and, when `end_year` is given and non-zero,
      rows after 1 January of `end_year`; then the dates and the three
      position columns are kept, renamed. A year `datetime` refuses raises
      first; a missing column raises a `KeyError`. */
  function CleanGpsDf<V>(df: Frame<V>, startYear: int, endYear: Option<int>): (r: Result<Frame<V>>)
    requires WellFormed(df)
    ensures !(MinYear <= startYear <= MaxYear) ==> r == Err(BadYear)
    ensures endYear.Some? && endYear.value != 0 && !(MinYear <= endYear.value <= MaxYear) ==> r == Err(BadYear)
    ensures r.Ok? ==> WellFormed(r.value) && r.value.names == ["east", "north", "up"]
    ensures r.Ok? <==> MinYear <= startYear <= MaxYear && (endYear.Some? && endYear.value != 0 ==> MinYear <= endYear.value <= MaxYear)
                       && forall k :: 0 <= k < |EnuColumns| ==> EnuColumns[k] in df.cols
    ensures r.Err? && r.error != BadYear ==> exists k :: 0 <= k < |EnuColumns| && r.error == KeyError(EnuColumns[k]) && EnuColumns[k] !in df.cols
  {
    if !(MinYear <= startYear <= MaxYear) then Err(BadYear)
    else if endYear.Some? && endYear.value != 0 && !(MinYear <= endYear.value <= MaxYear) then Err(BadYear)
    else
      var hi := if endYear.Some? && endYear.value != 0 then Some(YearStart(endYear.value)) else None;
      var missing := MissingColumn(df);
      if missing.Some? then Err(KeyError(EnuColumns[missing.value]))
      else Ok(Cleaned(df, RowsInRange(df.dts, YearStart(startYear), hi), RenamedEnu()))
  }

  /** The new names of the three position columns. */
  function RenamedEnu(): (r: seq<string>)
    ensures r == ["east", "north", "up"]
    ensures |r| == 3 && Distinct(r)
  {
    RenamedColumns();
    [Rename(EnuColumns[0]), Rename(EnuColumns[1]), Rename(EnuColumns[2])]
  }

  /** Removing the underscores in front of a name without underscores. */
  lemma {:induction false} DropUnderscores(u: string, x: string)
    requires forall i :: 0 <= i < |u| ==> u[i] == '_'
    requires '_' !in x
    ensures ReplaceAll(u + x, "_", "") == x
    decreases |u|
  {
    if |u| > 0 {
      assert u + x == "_" + (u[1..] + x);
      ReplaceAtFront(u[1..] + x, "_", "");
      DropUnderscores(u[1..], x);
    } else {
      assert u + x == x + "";
      ReplaceSkips(x, "", "_", "");
    }
  }

  /** Underscores in front and a trailing `(m)` are what the mapper
      removes. */
  lemma RenameOf(u: string, x: string)
    requires forall i :: 0 <= i < |u| ==> u[i] == '_'
    requires '_' !in x && '(' !in x && ')' !in x
    ensures Rename(u + (x + "(m)")) == x
  {
    DropUnderscores(u, x + "(m)");
    ReplaceAtEnd(x, "(m)");
  }

  lemma RenameEast()
    ensures Rename(EnuColumns[0]) == "east"
  {
    var u, x := "__", "east";
    assert EnuColumns[0] == u + (x + "(m)");
    RenameOf(u, x);
  }

  lemma RenameNorth()
    ensures Rename(EnuColumns[1]) == "north"
  {
    var u, x := "_", "north";
    assert EnuColumns[1] == u + (x + "(m)");
    RenameOf(u, x);
  }

  lemma RenameUp()
    ensures Rename(EnuColumns[2]) == "up"
  {
    var u, x := "____", "up";
    assert EnuColumns[2] == u + (x + "(m)");
    RenameOf(u, x);
  }

  /** The mapper turns the three position columns into `east`, `north` and
      `up`. */
  lemma RenamedColumns()
    ensures Rename(EnuColumns[0]) == "east"
    ensures Rename(EnuColumns[1]) == "north"
    ensures Rename(EnuColumns[2]) == "up"
  {
    RenameEast();
    RenameNorth();
    RenameUp();
  }

  /** The cleaned table holds exactly the rows dated from 1 January of the
      start year up to 1 January of the end year (when one is given), in
      their original order, with each position column's values. */
  lemma CleanKeepsRange<V>(df: Frame<V>, startYear: int, endYear: Option<int>)
    requires WellFormed(df)
    requires MinYear <= startYear <= MaxYear
    requires endYear.Some? && endYear.value != 0 ==> MinYear <= endYear.value <= MaxYear
    requires forall k :: 0 <= k < |EnuColumns| ==> EnuColumns[k] in df.cols
    ensures var r := CleanGpsDf(df, startYear, endYear);
            var hi := if endYear.Some? && endYear.value != 0 then Some(YearStart(endYear.value)) else None;
            var rows := RowsInRange(df.dts, YearStart(startYear), hi);
            && r.Ok?
            && r.value.names == ["east", "north", "up"]
            && r.value.dts == Pick(df.dts, rows)
            && r.value.cols["east"] == Pick(df.cols[EnuColumns[0]], rows)
            && r.value.cols["north"] == Pick(df.cols[EnuColumns[1]], rows)
            && r.value.cols["up"] == Pick(df.cols[EnuColumns[2]], rows)
  {
  }

  /** An end year keeps only its first day: the day after 1 January of the
      end year is dropped. */
  lemma EndYearIsNewYearsDay<V>(df: Frame<V>, startYear: int, endYear: int, i: nat)
    requires WellFormed(df) && MinYear <= startYear <= MaxYear && MinYear <= endYear <= MaxYear
    requires i < |df.dts| && df.dts[i] == YearStart(endYear) + 1
    ensures i !in RowsInRange(df.dts, YearStart(startYear), Some(YearStart(endYear)))
  {
  }

  /** An end year of zero is no end year. */
  lemma ZeroEndYearIgnored<V>(df: Frame<V>, startYear: int)
    requires WellFormed(df)
    ensures CleanGpsDf(df, startYear, Some(0)) == CleanGpsDf(df, startYear, None)
  {
  }

  // ---------------------------------------------------------------------
  // station_lonlat

  /** One line of the station catalog. */
  datatype StationRecord = StationRecord(name: string, lat: real, lon: real, alt: real)

  /** The catalog lines with the given name, `df[df['name'] == name]`. */
  function Named(name: string, table: seq<StationRecord>): (r: seq<StationRecord>)
    ensures forall k :: 0 <= k < |r| ==> r[k].name == name
    ensures forall k :: 0 <= k < |r| ==> r[k] in table
    ensures forall k :: 0 <= k < |table| && table[k].name == name ==> table[k] in r
    decreases |table|
  {
    if |table| == 0 then []
    else if table[0].name == name then [table[0]] + Named(name, table[1..])
    else Named(name, table[1..])
  }

  /** `station_lonlat(name)`: the longitude and latitude of the first
      catalog line with that name; an `IndexError` when there is none. */
  function StationLonLat(name: string, table: seq<StationRecord>): (r: Result<(real, real)>)
    ensures r.Err? <==> forall k :: 0 <= k < |table| ==> table[k].name != name
    ensures r.Err? ==> r.error == IndexOutOfRange
    ensures r.Ok? ==> exists k :: 0 <= k < |table| && table[k].name == name && r.value == (table[k].lon, table[k].lat)
  {
    var m := Named(name, table);
    if |m| == 0 then Err(IndexOutOfRange) else Ok((m[0].lon, m[0].lat))
  }

  /** The lookup fails exactly when no line has the name; otherwise it
      answers from the first line that has it. */
  lemma {:induction false} StationLonLatFirst(name: string, table: seq<StationRecord>, k: nat)
    requires k <= |table| && forall j :: 0 <= j < k ==> table[j].name != name
    ensures k == |table| ==> StationLonLat(name, table) == Err(IndexOutOfRange)
    ensures k < |table| && table[k].name == name ==> StationLonLat(name, table) == Ok((table[k].lon, table[k].lat))
    decreases k
  {
    if k > 0 {
      assert table[0].name != name;
      StationLonLatFirst(name, table[1..], k - 1);
      assert Named(name, table) == Named(name, table[1..]);
    } else if |table| > 0 && table[0].name == name {
      assert Named(name, table)[0] == table[0];
    }
  }

  // ---------------------------------------------------------------------
  // _load_station_list

  /** A station inside the image: its name and position. */
  datatype StationTuple = StationTuple(name: string, lon: real, lat: real)

  /** The names of the stations in the image, in image order, restricted to
      `wanted` unless `wanted` is empty. */
  function ChosenNames(existing: seq<StationTuple>, wanted: seq<string>): (r: seq<string>)
    ensures |wanted| == 0 ==> |r| == |existing| && forall k :: 0 <= k < |r| ==> r[k] == existing[k].name
    ensures forall x :: x in r <==> (exists k :: 0 <= k < |existing| && existing[k].name == x) && (|wanted| == 0 || x in wanted)
    decreases |existing|
  {
    if |existing| == 0 then []
    else
      var n := |existing| - 1;
      var prev := ChosenNames(existing[..n], wanted);
      assert forall k :: 0 <= k < n ==> existing[..n][k] == existing[k];
      if |wanted| == 0 || existing[n].name in wanted then prev + [existing[n].name] else prev
  }

  /** `names.index(x)`: the first position of `x`; every name sorted here
      is one of `names`, and an absent one is given the length. */
  function IndexOf(names: seq<string>, x: string): (i: nat)
    ensures x in names ==> i < |names| && names[i] == x && forall j :: 0 <= j < i ==> names[j] != x
    ensures x !in names ==> i == |names|
  {
    if |names| == 0 then 0
    else if names[0] == x then 0
    else 1 + IndexOf(names[1..], x)
  }

  /** `xs` is in order of first position in `names`. */
  predicate SortedByIndex(xs: seq<string>, names: seq<string>) {
    forall k, k' :: 0 <= k < k' < |xs| ==> IndexOf(names, xs[k]) <= IndexOf(names, xs[k'])
  }

  /** Inserting `x` after every element whose key is not larger. */
  function Insert(xs: seq<string>, x: string, names: seq<string>): (r: seq<string>)
    ensures |r| == |xs| + 1
    decreases |xs|
  {
    if |xs| == 0 then [x]
    else
      var n := |xs| - 1;
      if IndexOf(names, xs[n]) <= IndexOf(names, x) then xs + [x]
      else Insert(xs[..n], x, names) + [xs[n]]
  }

  /** Inserting adds `x` and keeps everything else. */
  lemma {:induction false} InsertCount(xs: seq<string>, x: string, names: seq<string>)
    ensures multiset(Insert(xs, x, names)) == multiset(xs) + multiset{x}
    decreases |xs|
  {
    if |xs| > 0 {
      var n := |xs| - 1;
      var init, last := xs[..n], xs[n];
      assert xs == init + [last];
      if IndexOf(names, last) > IndexOf(names, x) {
        InsertCount(init, x, names);
        var ins := Insert(init, x, names);
        calc {
          multiset(ins + [last]);
          multiset(ins) + multiset{last};
          multiset(init) + multiset{x} + multiset{last};
          multiset(init) + multiset{last} + multiset{x};
          multiset(init + [last]) + multiset{x};
        }
      }
    }
  }

  /** Appending an element whose key is at least every other key keeps
      the order. */
  lemma AppendSorted(xs: seq<string>, x: string, names: seq<string>)
    requires SortedByIndex(xs, names)
    requires forall k :: 0 <= k < |xs| ==> IndexOf(names, xs[k]) <= IndexOf(names, x)
    ensures SortedByIndex(xs + [x], names)
  {
    var r := xs + [x];
    assert forall k :: 0 <= k < |xs| ==> r[k] == xs[k];
  }

  /** Every element of the insertion is `x` or one of `xs`. */
  lemma InsertFrom(xs: seq<string>, x: string, names: seq<string>, k: nat)
    requires k < |Insert(xs, x, names)|
    ensures Insert(xs, x, names)[k] == x || exists j :: 0 <= j < |xs| && xs[j] == Insert(xs, x, names)[k]
  {
    var r := Insert(xs, x, names);
    InsertCount(xs, x, names);
    assert r[k] in multiset(r);
  }

  /** Inserting below the last element keeps it the largest. */
  lemma InsertBelow(init: seq<string>, x: string, last: string, names: seq<string>)
    requires SortedByIndex(init + [last], names)
    requires IndexOf(names, last) > IndexOf(names, x)
    ensures forall k :: 0 <= k < |Insert(init, x, names)| ==> IndexOf(names, Insert(init, x, names)[k]) <= IndexOf(names, last)
  {
    var ins := Insert(init, x, names);
    var xs := init + [last];
    forall k | 0 <= k < |ins| ensures IndexOf(names, ins[k]) <= IndexOf(names, last) {
      InsertFrom(init, x, names, k);
      if ins[k] != x {
        var j :| 0 <= j < |init| && init[j] == ins[k];
        assert xs[j] == init[j] && xs[|init|] == last;
      }
    }
  }

  /** Inserting into a sorted list keeps it sorted. */
  lemma {:induction false} InsertSorted(xs: seq<string>, x: string, names: seq<string>)
    requires SortedByIndex(xs, names)
    ensures SortedByIndex(Insert(xs, x, names), names)
    decreases |xs|
  {
    if |xs| > 0 {
      var n := |xs| - 1;
      var init, last := xs[..n], xs[n];
      if IndexOf(names, last) <= IndexOf(names, x) {
        AppendSorted(xs, x, names);
      } else {
        assert xs == init + [last];
        assert SortedByIndex(init, names) by {
          assert forall k :: 0 <= k < n ==> init[k] == xs[k];
        }
        InsertSorted(init, x, names);
        InsertBelow(init, x, last, names);
        AppendSorted(Insert(init, x, names), last, names);
      }
    }
  }

  /** Python's stable `sorted(xs, key=lambda y: names.index(y))`. */
  function SortByIndex(xs: seq<string>, names: seq<string>): (r: seq<string>)
    ensures |r| == |xs|
    decreases |xs|
  {
    if |xs| == 0 then []
    else
      var n := |xs| - 1;
      Insert(SortByIndex(xs[..n], names), xs[n], names)
  }

  /** The sort is a permutation that orders by first position. */
  lemma {:induction false} SortByIndexSorts(xs: seq<string>, names: seq<string>)
    ensures multiset(SortByIndex(xs, names)) == multiset(xs)
    ensures SortedByIndex(SortByIndex(xs, names), names)
    decreases |xs|
  {
    if |xs| > 0 {
      var n := |xs| - 1;
      assert xs == xs[..n] + [xs[n]];
      SortByIndexSorts(xs[..n], names);
      InsertCount(SortByIndex(xs[..n], names), xs[n], names);
      InsertSorted(SortByIndex(xs[..n], names), xs[n], names);
    }
  }

  /** `_load_station_list(..., station_name_list=wanted)` given the stations
      found inside the image. */
  function LoadStationList(existing: seq<StationTuple>, wanted: seq<string>): (r: seq<string>)
    ensures multiset(r) == multiset(ChosenNames(existing, wanted))
    ensures SortedByIndex(r, ChosenNames(existing, wanted))
  {
    var names := ChosenNames(existing, wanted);
    SortByIndexSorts(names, names);
    SortByIndex(names, names)
  }

  /** The stations chosen are the image's stations that are wanted (all of
      them when none are named), each as often as it is found, grouped in
      order of first appearance. */
  lemma LoadStationListChoice(existing: seq<StationTuple>, wanted: seq<string>)
    ensures var names := ChosenNames(existing, wanted);
            var r := LoadStationList(existing, wanted);
            && multiset(r) == multiset(names)
            && (forall x :: x in r <==> (exists k :: 0 <= k < |existing| && existing[k].name == x) && (|wanted| == 0 || x in wanted))
            && SortedByIndex(r, names)
  {
    var names := ChosenNames(existing, wanted);
    var r := LoadStationList(existing, wanted);
    SortByIndexSorts(names, names);
    forall x ensures x in r <==> x in names {
      assert x in r <==> x in multiset(r);
      assert x in names <==> x in multiset(names);
    }
  }

  /** Inserting an element whose key is at least every other key appends it. */
  lemma InsertLast(xs: seq<string>, x: string, names: seq<string>)
    requires forall k :: 0 <= k < |xs| ==> IndexOf(names, xs[k]) <= IndexOf(names, x)
    ensures Insert(xs, x, names) == xs + [x]
  {
  }

  lemma IndexOfDistinct(names: seq<string>, k: nat)
    requires Distinct(names) && k < |names|
    ensures IndexOf(names, names[k]) == k
  {
    var i := IndexOf(names, names[k]);
    assert names[i] == names[k];
  }

  /** With distinct names the keys of the first `n` names are below the
      key of name `n`. */
  lemma KeysBelow(names: seq<string>, n: nat)
    requires Distinct(names) && n < |names|
    ensures forall k :: 0 <= k < n ==> IndexOf(names, names[..n][k]) <= IndexOf(names, names[n])
  {
    IndexOfDistinct(names, n);
    forall k | 0 <= k < n ensures IndexOf(names, names[..n][k]) <= IndexOf(names, names[n]) {
      assert names[..n][k] == names[k];
      IndexOfDistinct(names, k);
    }
  }

  /** With distinct names the next name goes to the end. */
  lemma InsertNext(names: seq<string>, n: nat)
    requires Distinct(names) && n < |names|
    ensures Insert(names[..n], names[n], names) == names[..n + 1]
  {
    KeysBelow(names, n);
    InsertLast(names[..n], names[n], names);
    PrefixSnoc(names, n);
  }

  lemma PrefixSnoc(names: seq<string>, n: nat)
    requires n < |names|
    ensures names[..n] + [names[n]] == names[..n + 1]
  {
  }

  /** With distinct names the sort changes nothing: the list keeps the
      image's order. */
  lemma {:induction false} SortDistinctIdentity(xs: seq<string>, names: seq<string>)
    requires Distinct(names) && |xs| <= |names| && xs == names[..|xs|]
    ensures SortByIndex(xs, names) == xs
    decreases |xs|
  {
    if |xs| > 0 {
      var n := |xs| - 1;
      assert xs[..n] == names[..n];
      SortDistinctIdentity(xs[..n], names);
      InsertNext(names, n);
    }
  }

  lemma LoadStationListDistinct(existing: seq<StationTuple>, wanted: seq<string>)
    requires Distinct(ChosenNames(existing, wanted))
    ensures LoadStationList(existing, wanted) == ChosenNames(existing, wanted)
  {
    var names := ChosenNames(existing, wanted);
    assert names[..|names|] == names;
    SortDistinctIdentity(names, names);
  }

  /** A station found twice has its two entries brought together:
      `A, B, A` becomes `A, A, B`. */
  lemma DuplicatesGrouped(a: string, b: string)
    requires a != b
    ensures SortByIndex([a, b, a], [a, b, a]) == [a, a, b]
  {
    var names := [a, b, a];
    assert IndexOf(names, a) == 0;
    assert names[1..] == [b, a];
    assert IndexOf(names, b) == 1;
    assert [a, b, a][..2] == [a, b];
    assert [a, b][..1] == [a];
    assert [a][..0] == [];
    assert SortByIndex([a], names) == [a];
    assert SortByIndex([a, b], names) == [a, b];
    assert [a, b][..1] == [a];
    assert Insert([a], a, names) == [a, a];
  }
}

=== FILE: pystr.dfy ===
/** The handful of Python `str` operations the loaders and the table code rely
    on, written out with Python's semantics: `sub in s`, `s.replace(old, new)`
    (every non-overlapping occurrence, scanning left to right), `s.strip(chars)`
    (a set of characters, not a suffix), `s.split(sep)` and `sep.join(parts)`. */
module PyStr {

  /** Python's `sub in s`. */
  predicate Contains(s: string, sub: string)
    decreases |s|
  {
    sub <= s || (|s| > 0 && Contains(s[1..], sub))
  }

  /** Python's `s.replace(pat, rep)` for a non-empty `pat`. */
  function ReplaceAll(s: string, pat: string, rep: string): (r: string)
    requires |pat| > 0
    ensures !Contains(s, pat) ==> r == s
    ensures |rep| <= |pat| ==> |r| <= |s|
    ensures |pat| == 1 && |rep| == 0 ==> pat[0] !in r
    decreases |s|
  {
    if |s| == 0 then s
    else if pat <= s then rep + ReplaceAll(s[|pat|..], pat, rep)
    else [s[0]] + ReplaceAll(s[1..], pat, rep)
  }

  /** `replace` brings in no character that is in neither the string nor
      the replacement. */
  lemma {:induction false} ReplaceKeepsChars(s: string, pat: string, rep: string, ch: char)
    requires |pat| > 0 && ch in ReplaceAll(s, pat, rep)
    ensures ch in s || ch in rep
    decreases |s|
  {
    if |s| > 0 {
      if pat <= s {
        if ch !in rep {
          ReplaceKeepsChars(s[|pat|..], pat, rep, ch);
        }
      } else if ch != s[0] {
        ReplaceKeepsChars(s[1..], pat, rep, ch);
      }
    }
  }

  /** Python's `s.lstrip(chars)`. */
  function LStrip(s: string, chars: set<char>): (r: string)
    ensures |r| <= |s| && r == s[|s| - |r|..]
    ensures |r| > 0 ==> r[0] !in chars
    ensures forall i :: 0 <= i < |s| - |r| ==> s[i] in chars
  {
    if |s| > 0 && s[0] in chars then LStrip(s[1..], chars) else s
  }

  /** Python's `s.rstrip(chars)`. */
  function RStrip(s: string, chars: set<char>): (r: string)
    ensures |r| <= |s| && r == s[..|r|]
    ensures |r| > 0 ==> r[|r| - 1] !in chars
    ensures forall i :: |r| <= i < |s| ==> s[i] in chars
  {
    if |s| > 0 && s[|s| - 1] in chars then RStrip(s[..|s| - 1], chars) else s
  }

  /** Python's `s.strip(chars)`: drops leading and trailing characters that
      belong to `chars`. */
  function Strip(s: string, chars: set<char>): (r: string)
    ensures |r| <= |s|
  {
    RStrip(LStrip(s, chars), chars)
  }

  /** What `strip(chars)` leaves neither starts nor ends with one of
      `chars`. */
  lemma StripEnds(s: string, chars: set<char>)
    ensures var r := Strip(s, chars); |r| > 0 ==> r[0] !in chars && r[|r| - 1] !in chars
  {
    var l := LStrip(s, chars);
    var r := RStrip(l, chars);
    if |r| > 0 {
      assert r[0] == l[0];
    }
  }

  /** A string made only of `chars` strips to nothing. */
  lemma StripAll(s: string, chars: set<char>)
    requires forall i :: 0 <= i < |s| ==> s[i] in chars
    ensures Strip(s, chars) == ""
  {
    var l := LStrip(s, chars);
    assert |l| == 0;
  }

  /** A string that starts and ends outside `chars` is left as it is. */
  lemma StripNone(s: string, chars: set<char>)
    requires |s| > 0 && s[0] !in chars && s[|s| - 1] !in chars
    ensures Strip(s, chars) == s
  {
  }

  /** Python's `s.split(sep)` for a one-character separator. */
  function Split(s: string, sep: char): (r: seq<string>)
    ensures |r| >= 1
    ensures forall k :: 0 <= k < |r| ==> sep !in r[k]
  {
    if |s| == 0 then [""]
    else if s[0] == sep then [""] + Split(s[1..], sep)
    else
      var rest := Split(s[1..], sep);
      [[s[0]] + rest[0]] + rest[1..]
  }

  /** Python's `sep.join(parts)` for a one-character separator. */
  function Join(parts: seq<string>, sep: char): (r: string)
    ensures |parts| >= 2 ==> |parts[0]| < |r| && r[|parts[0]|] == sep
  {
    if |parts| == 0 then ""
    else if |parts| == 1 then parts[0]
    else parts[0] + [sep] + Join(parts[1..], sep)
  }

  /** Python's `s.startswith(p)`, `s.endswith(p)`. */
  predicate StartsWith(s: string, p: string) { p <= s }
  predicate EndsWith(s: string, p: string) { |p| <= |s| && s[|s| - |p|..] == p }

  /** `startswith` and `endswith` hold exactly when the string is the prefix
      followed by something, or something followed by the suffix; either way
      the part is found in the string. */
  lemma StartsEndsWithMeaning(s: string, p: string)
    ensures StartsWith(s, p) <==> |p| <= |s| && s == p + s[|p|..]
    ensures EndsWith(s, p) <==> |p| <= |s| && s == s[..|s| - |p|] + p
    ensures StartsWith(s, p) || EndsWith(s, p) ==> Contains(s, p)
  {
    if |p| <= |s| {
      var n := |s| - |p|;
      assert s == s[..|p|] + s[|p|..] && (p + s[|p|..])[..|p|] == p;
      assert s == s[..n] + s[n..] && (s[..n] + p)[n..] == p;
      if StartsWith(s, p) {
        ContainsAt(s, p, 0);
      }
      if EndsWith(s, p) {
        ContainsAt(s, p, n);
      }
    }
  }

  /** `sep.join(parts)` starts with the first part and ends with the last. */
  lemma {:induction false} JoinEnds(parts: seq<string>, sep: char)
    requires |parts| > 0
    ensures StartsWith(Join(parts, sep), parts[0])
    ensures EndsWith(Join(parts, sep), parts[|parts| - 1])
    decreases |parts|
  {
    if |parts| > 1 {
      assert Join(parts, sep) == parts[0] + ([sep] + Join(parts[1..], sep));
      StartsEndsConcat(parts[0], [sep] + Join(parts[1..], sep));
    }
    if |parts| == 1 {
      StartsEndsConcat("", parts[0]);
      assert "" + parts[0] == parts[0];
    } else {
      var tail := parts[1..];
      JoinEnds(tail, sep);
      var j := Join(tail, sep);
      var last := parts[|parts| - 1];
      assert tail[|tail| - 1] == last;
      var pre := parts[0] + [sep] + j[..|j| - |last|];
      assert Join(parts, sep) == pre + last;
      StartsEndsConcat(pre, last);
    }
  }

  /** A string starts with its first part and ends with its last. */
  lemma StartsEndsConcat(a: string, b: string)
    ensures StartsWith(a + b, a) && EndsWith(a + b, b)
  {
    assert (a + b)[..|a|] == a;
    assert (a + b)[..|a + b| - |b|] == a;
  }

  // ---------------------------------------------------------------------
  // Substring search

  lemma {:induction false} ContainsAfter(a: string, x: string, p: string)
    requires Contains(x, p)
    ensures Contains(a + x, p)
    decreases |a|
  {
    if |a| > 0 {
      assert (a + x)[1..] == a[1..] + x;
      ContainsAfter(a[1..], x, p);
    } else {
      assert a + x == x;
    }
  }

  lemma {:induction false} ContainsBefore(x: string, b: string, p: string)
    requires Contains(x, p)
    ensures Contains(x + b, p)
    decreases |x|
  {
    if !(p <= x) {
      assert (x + b)[1..] == x[1..] + b;
      ContainsBefore(x[1..], b, p);
    }
  }

  /** An occurrence at position `k` is found. */
  lemma {:induction false} ContainsAt(s: string, sub: string, k: nat)
    requires k + |sub| <= |s| && s[k..k + |sub|] == sub
    ensures Contains(s, sub)
    decreases k
  {
    if k == 0 {
      assert s[..|sub|] == sub;
    } else {
      assert s[1..][k - 1..k - 1 + |sub|] == s[k..k + |sub|];
      ContainsAt(s[1..], sub, k - 1);
    }
  }

  /** An occurrence that is found lies at some position `k`. */
  lemma {:induction false} ContainsIndex(s: string, sub: string) returns (k: nat)
    requires Contains(s, sub)
    ensures k + |sub| <= |s| && s[k..k + |sub|] == sub
    decreases |s|
  {
    if sub <= s {
      k := 0;
    } else {
      var j := ContainsIndex(s[1..], sub);
      k := j + 1;
      assert s[1..][j..j + |sub|] == s[k..k + |sub|];
    }
  }

  lemma ContainsItself(p: string)
    ensures Contains(p, p)
  {
  }

  /** A pattern found at the end of a string is found in it. */
  lemma ContainsSuffix(a: string, p: string)
    ensures Contains(a + p, p)
  {
    ContainsItself(p);
    ContainsAfter(a, p, p);
  }

  /** An occurrence in `a + b` lies in `a`, in `b`, or straddles the join; when
      the first character of `b` does not occur in `p`, it cannot straddle. */
  lemma {:induction false} NotContainsConcat(a: string, b: string, p: string)
    requires |p| > 0
    requires !Contains(a, p) && !Contains(b, p)
    requires |b| > 0 ==> b[0] !in p
    ensures !Contains(a + b, p)
    decreases |a|
  {
    if |a| == 0 {
      assert a + b == b;
    } else {
      assert (a + b)[1..] == a[1..] + b;
      NotContainsConcat(a[1..], b, p);
      if |p| <= |a| {
        assert (a + b)[..|p|] == a[..|p|];
      } else if |b| > 0 && |p| <= |a + b| {
        assert (a + b)[|a|] == b[0];
        assert p[|a|] != b[0];
      }
    }
  }

  // ---------------------------------------------------------------------
  // Replacement

  /** A string none of whose characters starts the pattern is copied through. */
  lemma {:induction false} ReplaceSkips(a: string, t: string, pat: string, rep: string)
    requires |pat| > 0
    requires pat[0] !in a
    ensures ReplaceAll(a + t, pat, rep) == a + ReplaceAll(t, pat, rep)
    decreases |a|
  {
    if |a| > 0 {
      assert (a + t)[0] == a[0];
      assert !(pat <= a + t);
      assert (a + t)[1..] == a[1..] + t;
      ReplaceSkips(a[1..], t, pat, rep);
      assert [a[0]] + (a[1..] + ReplaceAll(t, pat, rep)) == a + ReplaceAll(t, pat, rep);
    } else {
      assert a + t == t;
    }
  }

  /** An occurrence at the front is replaced and the scan resumes after it. */
  lemma ReplaceAtFront(t: string, pat: string, rep: string)
    requires |pat| > 0
    ensures ReplaceAll(pat + t, pat, rep) == rep + ReplaceAll(t, pat, rep)
  {
    assert pat <= pat + t;
    assert (pat + t)[|pat|..] == t;
  }

  // ---------------------------------------------------------------------
  // Splitting and joining

  /** Removing a trailing `pat` from a string that holds none of `pat`'s
      first character. */
  lemma ReplaceAtEnd(x: string, pat: string)
    requires |pat| > 0 && pat[0] !in x
    ensures ReplaceAll(x + pat, pat, "") == x
  {
    ReplaceSkips(x, pat, pat, "");
    assert pat == pat + "";
    ReplaceAtFront("", pat, "");
    assert x + "" == x;
  }

  lemma {:induction false} SplitNoSep(s: string, sep: char)
    requires sep !in s
    ensures Split(s, sep) == [s]
  {
    if |s| > 0 {
      SplitNoSep(s[1..], sep);
      assert [s[0]] + s[1..] == s;
    }
  }

  /** Splitting distributes over a separator. */
  lemma {:induction false} SplitConcat(x: string, y: string, sep: char)
    ensures Split(x + [sep] + y, sep) == Split(x, sep) + Split(y, sep)
    decreases |x|
  {
    var s := x + [sep] + y;
    if |x| == 0 {
      assert s[1..] == y;
    } else {
      assert s[0] == x[0];
      assert s[1..] == x[1..] + [sep] + y;
      SplitConcat(x[1..], y, sep);
      if x[0] != sep {
        var rest := Split(x[1..], sep);
        assert Split(s[1..], sep) == rest + Split(y, sep);
      }
    }
  }

  /** `sep.join(s.split(sep)) == s`. */
  lemma {:induction false} JoinSplit(s: string, sep: char)
    ensures Join(Split(s, sep), sep) == s
    decreases |s|
  {
    if |s| > 0 {
      JoinSplit(s[1..], sep);
      var rest := Split(s[1..], sep);
      if s[0] == sep {
        assert Split(s, sep) == [""] + rest;
        assert Join([""] + rest, sep) == "" + [sep] + Join(rest, sep);
        assert s == [s[0]] + s[1..];
      } else {
        var parts := Split(s, sep);
        assert parts == [[s[0]] + rest[0]] + rest[1..];
        if |rest| == 1 {
          assert Join(parts, sep) == [s[0]] + rest[0];
        } else {
          assert Join(rest, sep) == rest[0] + [sep] + Join(rest[1..], sep);
          assert parts[1..] == rest[1..];
          assert Join(parts, sep) == [s[0]] + rest[0] + [sep] + Join(rest[1..], sep);
        }
        assert s == [s[0]] + s[1..];
      }
    }
  }

  /** `sep.join(parts).split(sep) == parts` when no part holds the separator. */
  lemma {:induction false} SplitJoin(parts: seq<string>, sep: char)
    requires |parts| > 0
    requires forall k :: 0 <= k < |parts| ==> sep !in parts[k]
    ensures Split(Join(parts, sep), sep) == parts
    decreases |parts|
  {
    if |parts| == 1 {
      SplitNoSep(parts[0], sep);
    } else {
      SplitJoin(parts[1..], sep);
      SplitConcat(parts[0], Join(parts[1..], sep), sep);
      SplitNoSep(parts[0], sep);
      assert [parts[0]] + parts[1..] == parts;
    }
  }

  // ---------------------------------------------------------------------
  // Stripping

  lemma {:induction false} LStripPrefix(u: string, x: string, chars: set<char>)
    requires forall i :: 0 <= i < |u| ==> u[i] in chars
    requires |x| > 0 && x[0] !in chars
    ensures LStrip(u + x, chars) == x
    decreases |u|
  {
    if |u| > 0 {
      assert (u + x)[1..] == u[1..] + x;
      LStripPrefix(u[1..], x, chars);
    } else {
      assert u + x == x;
    }
  }

  lemma {:induction false} RStripSuffix(x: string, t: string, chars: set<char>)
    requires forall i :: 0 <= i < |t| ==> t[i] in chars
    requires |x| > 0 && x[|x| - 1] !in chars
    ensures RStrip(x + t, chars) == x
    decreases |t|
  {
    if |t| > 0 {
      var s := x + t;
      assert s[|s| - 1] == t[|t| - 1];
      assert s[..|s| - 1] == x + t[..|t| - 1];
      RStripSuffix(x, t[..|t| - 1], chars);
    } else {
      assert x + t == x;
    }
  }

  /** `(u + x + t).strip(chars) == x` when `u` and `t` consist of stripped
      characters and `x` starts and ends with kept ones. */
  lemma StripAround(u: string, x: string, t: string, chars: set<char>)
    requires forall i :: 0 <= i < |u| ==> u[i] in chars
    requires forall i :: 0 <= i < |t| ==> t[i] in chars
    requires |x| > 0 && x[0] !in chars && x[|x| - 1] !in chars
    ensures Strip(u + x + t, chars) == x
  {
    assert u + x + t == u + (x + t);
    LStripPrefix(u, x + t, chars);
    RStripSuffix(x, t, chars);
  }
}

=== FILE: sario_codec.dfy ===
/** The raster codec of `apertools/sario.py`: how a flat stream of samples
    read from a file becomes a raster and back. A sample is an opaque value of
    type `T` (the little-endian float32 bytes behind it are not modelled), a
    raster is a row-major `seq<seq<T>>`, and the sample stream is what
    `np.fromfile` returns. */
module SarioCodec {
  import opened Base

  /** One complex pixel, as `real + 1j * imag` builds it. */
  datatype Complex<T> = Complex(re: T, im: T)

  /** A numpy array of rank 1, 2 or 3. */
  datatype Array<T> =
    | Array1(v: seq<T>)
    | Array2(m: seq<seq<T>>)
    | Array3(s: seq<seq<seq<T>>>)
  {
    function Ndim(): nat {
      match this
      case Array1(_) => 1
      case Array2(_) => 2
      case Array3(_) => 3
    }
  }

  /** `m` is a rectangular raster with `cols` columns. */
  predicate IsMatrix<T>(m: seq<seq<T>>, cols: nat) {
    forall r :: 0 <= r < |m| ==> |m[r]| == cols
  }

  /** Numpy arrays are rectangular: every row (of every band) has one length. */
  predicate WellShaped<T>(a: Array<T>) {
    match a
    case Array1(_) => true
    case Array2(m) => |m| == 0 || IsMatrix(m, |m[0]|)
    case Array3(s) =>
      |s| == 0 ||
      ((forall b :: 0 <= b < |s| ==> |s[b]| == |s[0]|) &&
       (|s[0]| == 0 || forall b :: 0 <= b < |s| ==> IsMatrix(s[b], |s[0][0]|)))
  }

  // ---------------------------------------------------------------------
  // Euclidean division facts used by the reshapes

  lemma SmallMultiple(k: int, d: int)
    requires d > 0 && -d < k * d < d
    ensures k == 0
  {
  }

  lemma MulPositive(k: int, d: int)
    requires d > 0 && k * d > 0
    ensures k >= 1 && k * d >= d
  {
  }

  /** Row-major positions of a `rows x cols` raster lie inside it. */
  lemma IndexBound(r: int, c: int, rows: int, cols: int)
    requires 0 <= r < rows && 0 <= c < cols
    ensures 0 <= r * cols + c < rows * cols
  {
    assert (rows - r) * cols == rows * cols - r * cols;
    MulPositive(rows - r, cols);
  }

  /** `x / d == q` and `x % d == x - q * d` whenever `q * d <= x < (q + 1) * d`. */
  lemma DivBetween(x: int, d: int, q: int)
    requires d > 0 && q * d <= x < q * d + d
    ensures x / d == q && x % d == x - q * d
  {
    var q', r' := x / d, x % d;
    assert x == q' * d + r' && 0 <= r' < d;
    assert (q' - q) * d == q' * d - q * d;
    SmallMultiple(q' - q, d);
  }

  lemma MulDivMod(q: int, d: int)
    requires d > 0
    ensures (q * d) / d == q && (q * d) % d == 0
  {
    DivBetween(q * d, d, q);
  }

  /** A positive multiple of `d` loses one `d` and stays a multiple. */
  lemma DivStep(n: int, d: int)
    requires d > 0 && n > 0 && n % d == 0
    ensures n >= d && (n - d) % d == 0 && (n - d) / d == n / d - 1
  {
    var q := n / d;
    assert n == q * d;
    MulPositive(q, d);
    assert n - d == (q - 1) * d;
    MulDivMod(q - 1, d);
  }


  // ---------------------------------------------------------------------
  // Row-major reshape and flattening

  /** The row-major sample stream of a raster (what `tofile` writes). */
  function Flatten<T>(m: seq<seq<T>>): seq<T>
  {
    if |m| == 0 then [] else m[0] + Flatten(m[1..])
  }

  lemma {:induction false} FlattenLength<T>(m: seq<seq<T>>, cols: nat)
    requires IsMatrix(m, cols)
    ensures |Flatten(m)| == |m| * cols
  {
    if |m| > 0 {
      FlattenLength(m[1..], cols);
    }
  }

  /** Rasters of one positive width are determined by their stream. */
  lemma {:induction false} FlattenInjective<T>(a: seq<seq<T>>, b: seq<seq<T>>, cols: nat)
    requires cols > 0 && IsMatrix(a, cols) && IsMatrix(b, cols)
    requires Flatten(a) == Flatten(b)
    ensures a == b
  {
    FlattenLength(a, cols);
    FlattenLength(b, cols);
    assert (|a| - |b|) * cols == |a| * cols - |b| * cols;
    SmallMultiple(|a| - |b|, cols);
    if |a| > 0 {
      assert a[0] == Flatten(a)[..cols];
      assert b[0] == Flatten(b)[..cols];
      assert Flatten(a[1..]) == Flatten(a)[cols..];
      assert Flatten(b[1..]) == Flatten(b)[cols..];
      FlattenInjective(a[1..], b[1..], cols);
      assert a == [a[0]] + a[1..];
      assert b == [b[0]] + b[1..];
    }
  }

  /** `data.reshape([-1, cols])`: the raster of width `cols` whose row-major
      stream is `data`. */
  function Reshape<T>(data: seq<T>, cols: nat): (m: seq<seq<T>>)
    requires cols > 0 && |data| % cols == 0
    ensures IsMatrix(m, cols) && Flatten(m) == data
    ensures |m| == |data| / cols
    decreases |data|
  {
    if |data| == 0 then []
    else
      DivStep(|data|, cols);
      var tail := Reshape(data[cols..], cols);
      var m := [data[..cols]] + tail;
      assert m[1..] == tail;
      assert data[..cols] + data[cols..] == data;
      m
  }

  /** Sample `r * cols + c` of the stream is pixel `(r, c)`. */
  lemma {:induction false} FlattenCell<T>(m: seq<seq<T>>, cols: nat, r: nat, c: nat)
    requires IsMatrix(m, cols) && r < |m| && c < cols
    ensures r * cols + c < |Flatten(m)| && Flatten(m)[r * cols + c] == m[r][c]
    decreases r
  {
    FlattenLength(m, cols);
    IndexBound(r, c, |m|, cols);
    assert Flatten(m) == m[0] + Flatten(m[1..]);
    if r > 0 {
      FlattenCell(m[1..], cols, r - 1, c);
      assert r * cols + c == cols + ((r - 1) * cols + c);
    }
  }


  /** Writing a raster and reshaping the stream to its width gives the raster. */
  lemma ReshapeFlatten<T>(m: seq<seq<T>>, cols: nat)
    requires cols > 0 && IsMatrix(m, cols)
    ensures |Flatten(m)| % cols == 0 && Reshape(Flatten(m), cols) == m
  {
    FlattenLength(m, cols);
    MulDivMod(|m|, cols);
    FlattenInjective(Reshape(Flatten(m), cols), m, cols);
  }

  // ---------------------------------------------------------------------
  // De-interleaving

  /** `s[::2]`. */
  function Evens<T>(s: seq<T>): (r: seq<T>)
    ensures |r| == (|s| + 1) / 2
    ensures forall i :: 0 <= i < |r| ==> r[i] == s[2 * i]
    decreases |s|
  {
    if |s| == 0 then []
    else if |s| == 1 then [s[0]]
    else [s[0]] + Evens(s[2..])
  }

  /** `s[1::2]`. */
  function Odds<T>(s: seq<T>): (r: seq<T>)
    ensures |r| == |s| / 2
    ensures forall i :: 0 <= i < |r| ==> r[i] == s[2 * i + 1]
    decreases |s|
  {
    if |s| < 2 then [] else [s[1]] + Odds(s[2..])
  }

  /** The float stream of a complex64 array: each pixel's real part, then its
      imaginary part. */
  function ComplexStream<T>(cs: seq<Complex<T>>): (r: seq<T>)
    ensures |r| == 2 * |cs|
    ensures forall i :: 0 <= i < |cs| ==> r[2 * i] == cs[i].re && r[2 * i + 1] == cs[i].im
  {
    if |cs| == 0 then [] else [cs[0].re, cs[0].im] + ComplexStream(cs[1..])
  }

  /** Pairs up real and imaginary parts. */
  function ZipRow<T>(re: seq<T>, im: seq<T>): (r: seq<Complex<T>>)
    requires |re| == |im|
    ensures |r| == |re| && forall c :: 0 <= c < |r| ==> r[c] == Complex(re[c], im[c])
  {
    seq(|re|, c requires 0 <= c < |re| => Complex(re[c], im[c]))
  }

  lemma ZipConcat<T>(a: seq<T>, b: seq<T>, a': seq<T>, b': seq<T>)
    requires |a| == |b| && |a'| == |b'|
    ensures ZipRow(a + a', b + b') == ZipRow(a, b) + ZipRow(a', b')
  {
  }

  /** De-interleaving the stream of complex pixels gives their real and their
      imaginary parts. */
  lemma EvensOddsOfStream<T>(cs: seq<Complex<T>>)
    ensures |Evens(ComplexStream(cs))| == |cs| && |Odds(ComplexStream(cs))| == |cs|
    ensures ZipRow(Evens(ComplexStream(cs)), Odds(ComplexStream(cs))) == cs
  {
  }

  /** Pairing the even and odd samples of an even-length stream and writing
      the pairs back out gives the stream. */
  lemma StreamOfHalves<T>(data: seq<T>)
    requires |data| % 2 == 0
    ensures |Evens(data)| == |Odds(data)|
    ensures ComplexStream(ZipRow(Evens(data), Odds(data))) == data
  {
    var z := ZipRow(Evens(data), Odds(data));
    var out := ComplexStream(z);
    forall k | 0 <= k < |data|
      ensures out[k] == data[k]
    {
      var i := k / 2;
      if k % 2 == 0 {
        assert k == 2 * i;
        assert out[2 * i] == z[i].re;
      } else {
        assert k == 2 * i + 1;
        assert out[2 * i + 1] == z[i].im;
      }
    }
  }

  /** The complex stream determines the pixels. */
  lemma ComplexStreamInjective<T>(a: seq<Complex<T>>, b: seq<Complex<T>>)
    requires ComplexStream(a) == ComplexStream(b)
    ensures a == b
  {
    assert |a| == |b|;
    forall i | 0 <= i < |a|
      ensures a[i] == b[i]
    {
      assert ComplexStream(a)[2 * i] == ComplexStream(b)[2 * i];
      assert ComplexStream(a)[2 * i + 1] == ComplexStream(b)[2 * i + 1];
    }
  }

  // ---------------------------------------------------------------------
  // Metadata and the width check

  /** The `{file_length, width}` of a `.rsc` sidecar, as `load_dem_rsc` reads it. */
  datatype RscData = RscData(fileLength: nat, width: nat)

  /** The `{rows, cols}` of a UAVSAR annotation file. */
  datatype AnnInfo = AnnInfo(rows: nat, cols: nat)

  /** `_get_file_rows_cols`: the shape comes from exactly one metadata source. */
  function GetFileRowsCols(ann: Option<AnnInfo>, rsc: Option<RscData>): (r: Result<(nat, nat)>)
    ensures r == Err(MetadataConflict) <==> ann.Some? && rsc.Some?
    ensures r == Err(MetadataMissing) <==> ann.None? && rsc.None?
    ensures rsc.Some? && ann.None? ==> r == Ok((rsc.value.fileLength, rsc.value.width))
    ensures ann.Some? && rsc.None? ==> r == Ok((ann.value.rows, ann.value.cols))
  {
    if (rsc.None? && ann.None?) || (rsc.Some? && ann.Some?) then
      if rsc.None? then Err(MetadataMissing) else Err(MetadataConflict)
    else if rsc.Some? then Ok((rsc.value.fileLength, rsc.value.width))
    else Ok((ann.value.rows, ann.value.cols))
  }

  /** `_assert_valid_size`: the width check looks only at `cols`, never at the
      row count; a zero width is Python's ZeroDivisionError. */
  function AssertValidSize(n: nat, cols: nat): (r: Result<()>)
    ensures r.Ok? <==> cols > 0 && n % cols == 0
    ensures r == Err(ZeroWidth) <==> cols == 0
  {
    if cols == 0 then Err(ZeroWidth)
    else if n % cols != 0 then Err(SizeMismatch)
    else Ok(())
  }

  // ---------------------------------------------------------------------
  // Decoders

  /** `load_real` after `np.fromfile`: the raster of width `cols` whose
      row-major stream is the file. The metadata row count is not consulted. */
  function LoadReal<T>(data: seq<T>, ann: Option<AnnInfo>, rsc: Option<RscData>): (r: Result<seq<seq<T>>>)
    ensures GetFileRowsCols(ann, rsc).Err? ==> r == Err(GetFileRowsCols(ann, rsc).error)
    ensures GetFileRowsCols(ann, rsc).Ok? ==>
              var cols := GetFileRowsCols(ann, rsc).value.1;
              && (cols == 0 ==> r == Err(ZeroWidth))
              && (r.Ok? <==> cols > 0 && |data| % cols == 0)
              && (r.Ok? ==> |r.value| == |data| / cols && IsMatrix(r.value, cols) && Flatten(r.value) == data)
  {
    var shape :- GetFileRowsCols(ann, rsc);
    var _ :- AssertValidSize(|data|, shape.1);
    Ok(Reshape(data, shape.1))
  }

  /** Pixel `(r, c)` of a decoded real raster is sample `r * cols + c`. */
  lemma LoadRealAt<T>(data: seq<T>, ann: Option<AnnInfo>, rsc: Option<RscData>, r: nat, c: nat)
    requires LoadReal(data, ann, rsc).Ok?
    requires r < |LoadReal(data, ann, rsc).value| && c < GetFileRowsCols(ann, rsc).value.1
    ensures var cols := GetFileRowsCols(ann, rsc).value.1;
            r * cols + c < |data| && LoadReal(data, ann, rsc).value[r][c] == data[r * cols + c]
  {
    FlattenCell(LoadReal(data, ann, rsc).value, GetFileRowsCols(ann, rsc).value.1, r, c);
  }

  /** `parse_complex_data`: even samples are real parts, odd samples imaginary
      parts, each half reshaped to `cols` columns (which fails unless each half
      is a multiple of `cols`). */
  function ParseComplexData<T>(data: seq<T>, cols: nat): (r: Result<(seq<seq<T>>, seq<seq<T>>)>)
    ensures r.Ok? <==> cols > 0 && ((|data| + 1) / 2) % cols == 0 && (|data| / 2) % cols == 0
    ensures r.Ok? ==>
              && IsMatrix(r.value.0, cols) && IsMatrix(r.value.1, cols)
              && |r.value.0| == ((|data| + 1) / 2) / cols && |r.value.1| == (|data| / 2) / cols
              && Flatten(r.value.0) == Evens(data)
              && Flatten(r.value.1) == Odds(data)
  {
    if cols == 0 then Err(BadReshape)
    else
      var re, im := Evens(data), Odds(data);
      if |re| % cols != 0 || |im| % cols != 0 then Err(BadReshape)
      else Ok((Reshape(re, cols), Reshape(im, cols)))
  }

  /** Every row of `re` is as wide as every row of `im` (the two halves of one
      parse share their width). */
  predicate Conformable<T>(re: seq<seq<T>>, im: seq<seq<T>>) {
    forall i, j :: 0 <= i < |re| && 0 <= j < |im| ==> |re[i]| == |im[j]|
  }

  /** Row `i` of an operand broadcast along rows: a one-row operand repeats. */
  function RowOf<T>(m: seq<seq<T>>, i: nat): seq<T>
    requires |m| == 1 || i < |m|
  {
    if |m| == 1 then m[0] else m[i]
  }

  /** `combine_real_imag`, i.e. `real + 1j * imag` with numpy broadcasting along
      rows: equal row counts pair up, a one-row operand is repeated, anything
      else raises. */
  function CombineRealImag<T>(re: seq<seq<T>>, im: seq<seq<T>>): (r: Result<seq<seq<Complex<T>>>>)
    requires Conformable(re, im)
    ensures r.Ok? <==> |re| == |im| || |re| == 1 || |im| == 1
    ensures r.Ok? ==>
              && |r.value| == (if |re| == |im| || |im| == 1 then |re| else |im|)
              && forall i :: 0 <= i < |r.value| ==>
                   && |RowOf(re, i)| == |RowOf(im, i)|
                   && r.value[i] == ZipRow(RowOf(re, i), RowOf(im, i))
  {
    if |re| == |im| || |re| == 1 || |im| == 1 then
      var n := if |re| == |im| || |im| == 1 then |re| else |im|;
      Ok(seq(n, i requires 0 <= i < n => ZipRow(RowOf(re, i), RowOf(im, i))))
    else Err(BadBroadcast)
  }

  /** Combining two halves of one shape and writing the pixels row-major pairs
      up the two halves' streams. */
  lemma {:induction false} FlattenCombined<T>(re: seq<seq<T>>, im: seq<seq<T>>, cols: nat)
    requires |re| == |im| && IsMatrix(re, cols) && IsMatrix(im, cols)
    ensures CombineRealImag(re, im).Ok?
    ensures |Flatten(re)| == |Flatten(im)|
    ensures Flatten(CombineRealImag(re, im).value) == ZipRow(Flatten(re), Flatten(im))
    decreases |re|
  {
    FlattenLength(re, cols);
    FlattenLength(im, cols);
    var v := CombineRealImag(re, im).value;
    if |re| > 0 {
      FlattenCombined(re[1..], im[1..], cols);
      var w := CombineRealImag(re[1..], im[1..]).value;
      assert v[0] == ZipRow(re[0], im[0]);
      assert v[1..] == w by {
        forall i | 0 <= i < |w| ensures v[1..][i] == w[i] {
          assert v[i + 1] == ZipRow(re[i + 1], im[i + 1]);
        }
      }
      ZipConcat(re[0], im[0], Flatten(re[1..]), Flatten(im[1..]));
    }
  }

  /** `load_complex` after `np.fromfile`: the width check runs on the
      interleaved stream, then the stream is de-interleaved and combined. */
  function LoadComplex<T>(data: seq<T>, ann: Option<AnnInfo>, rsc: Option<RscData>): (r: Result<seq<seq<Complex<T>>>>)
    ensures GetFileRowsCols(ann, rsc).Err? ==> r == Err(GetFileRowsCols(ann, rsc).error)
    ensures GetFileRowsCols(ann, rsc).Ok? ==>
              var cols := GetFileRowsCols(ann, rsc).value.1;
              && (cols == 0 ==> r == Err(ZeroWidth))
              && (cols > 0 && |data| % cols != 0 ==> r == Err(SizeMismatch))
  {
    var shape :- GetFileRowsCols(ann, rsc);
    var _ :- AssertValidSize(|data|, shape.1);
    var parts :- ParseComplexData(data, shape.1);
    CombineRealImag(parts.0, parts.1)
  }

  /** A stream of `2 * rows * cols` samples decodes to the `rows x cols`
      complex raster whose complex64 stream is the file. */
  lemma LoadComplexLayout<T>(data: seq<T>, ann: Option<AnnInfo>, rsc: Option<RscData>, rows: nat)
    requires GetFileRowsCols(ann, rsc).Ok?
    requires GetFileRowsCols(ann, rsc).value.1 > 0
    requires |data| == 2 * (rows * GetFileRowsCols(ann, rsc).value.1)
    ensures var cols := GetFileRowsCols(ann, rsc).value.1;
            var r := LoadComplex(data, ann, rsc);
            && r.Ok? && |r.value| == rows && IsMatrix(r.value, cols)
            && ComplexStream(Flatten(r.value)) == data
  {
    var cols := GetFileRowsCols(ann, rsc).value.1;
    MulDivMod(2 * rows, cols);
    assert |data| == (2 * rows) * cols;
    MulDivMod(rows, cols);
    assert (|data| + 1) / 2 == rows * cols && |data| / 2 == rows * cols;
    var parts := ParseComplexData(data, cols);
    var re, im := parts.value.0, parts.value.1;
    assert |re| == rows && |im| == rows;
    assert LoadComplex(data, ann, rsc) == CombineRealImag(re, im);
    FlattenCombined(re, im, cols);
    StreamOfHalves(data);
  }

  lemma EvenAt<T>(data: seq<T>, i: nat)
    requires i < |Evens(data)|
    ensures 2 * i < |data| && Evens(data)[i] == data[2 * i]
  {
  }

  lemma OddAt<T>(data: seq<T>, i: nat)
    requires i < |Odds(data)|
    ensures 2 * i + 1 < |data| && Odds(data)[i] == data[2 * i + 1]
  {
  }

  /** Pixel `(r, c)` of a raster is sample `r * cols + c` of its stream. */
  lemma StreamCell<T>(m: seq<seq<T>>, s: seq<T>, cols: nat, r: nat, c: nat)
    requires IsMatrix(m, cols) && Flatten(m) == s && r < |m| && c < cols
    ensures 0 <= r * cols + c < |s| && s[r * cols + c] == m[r][c]
  {
    IndexBound(r, c, |m|, cols);
    FlattenCell(m, cols, r, c);
  }

  lemma EvenCell<T>(data: seq<T>, re: seq<seq<T>>, cols: nat, r: nat, c: nat)
    requires IsMatrix(re, cols) && Flatten(re) == Evens(data) && r < |re| && c < cols
    ensures 2 * (r * cols + c) < |data| && re[r][c] == data[2 * (r * cols + c)]
  {
    var e := Evens(data);
    StreamCell(re, e, cols, r, c);
    var i := r * cols + c;
    EvenAt(data, i);
  }

  lemma OddCell<T>(data: seq<T>, im: seq<seq<T>>, cols: nat, r: nat, c: nat)
    requires IsMatrix(im, cols) && Flatten(im) == Odds(data) && r < |im| && c < cols
    ensures 2 * (r * cols + c) + 1 < |data| && im[r][c] == data[2 * (r * cols + c) + 1]
  {
    var o := Odds(data);
    StreamCell(im, o, cols, r, c);
    var i := r * cols + c;
    OddAt(data, i);
  }

  /** Pixel `(r, c)` of the real half is sample `2 * (r * cols + c)`, of the
      imaginary half sample `2 * (r * cols + c) + 1`. */
  lemma ParseComplexAt<T>(data: seq<T>, cols: nat, r: nat, c: nat)
    requires ParseComplexData(data, cols).Ok? && c < cols
    ensures var p := ParseComplexData(data, cols).value;
            && (r < |p.0| ==> 2 * (r * cols + c) < |data| && p.0[r][c] == data[2 * (r * cols + c)])
            && (r < |p.1| ==> 2 * (r * cols + c) + 1 < |data| && p.1[r][c] == data[2 * (r * cols + c) + 1])
  {
    var p := ParseComplexData(data, cols).value;
    if r < |p.0| {
      EvenCell(data, p.0, cols, r, c);
    }
    if r < |p.1| {
      OddCell(data, p.1, cols, r, c);
    }
  }

  /** Two halves of a stream that are both multiples of `cols >= 2` are equal,
      so the stream is a multiple of `2 * cols`. */
  lemma HalvesDivisible(n: nat, cols: nat)
    requires cols >= 2
    ensures ((n + 1) / 2) % cols == 0 && (n / 2) % cols == 0 ==> n % (2 * cols) == 0
  {
    var e, o := (n + 1) / 2, n / 2;
    if e % cols == 0 && o % cols == 0 {
      var qe, qo := e / cols, o / cols;
      assert e == qe * cols && o == qo * cols;
      assert (qe - qo) * cols == e - o;
      SmallMultiple(qe - qo, cols);
      assert n == qo * (2 * cols);
      MulDivMod(qo, 2 * cols);
    }
  }

  /** With at least two columns, a stream that is not a whole number of
      interleaved rows is refused (for one column numpy's broadcasting can still
      pair a one-row half with the other). */
  lemma LoadComplexRejectsPartialRows<T>(data: seq<T>, ann: Option<AnnInfo>, rsc: Option<RscData>)
    requires GetFileRowsCols(ann, rsc).Ok?
    requires GetFileRowsCols(ann, rsc).value.1 >= 2
    requires |data| % (2 * GetFileRowsCols(ann, rsc).value.1) != 0
    ensures LoadComplex(data, ann, rsc).Err?
  {
    HalvesDivisible(|data|, GetFileRowsCols(ann, rsc).value.1);
  }

  /** Complex round trip: the stream a complex raster is written as decodes,
      with the raster's width, to the raster. */
  lemma ComplexRoundTrip<T>(m: seq<seq<Complex<T>>>, ann: Option<AnnInfo>, rsc: Option<RscData>)
    requires GetFileRowsCols(ann, rsc).Ok?
    requires GetFileRowsCols(ann, rsc).value.1 > 0
    requires IsMatrix(m, GetFileRowsCols(ann, rsc).value.1)
    ensures LoadComplex(ComplexStream(Flatten(m)), ann, rsc) == Ok(m)
  {
    var cols := GetFileRowsCols(ann, rsc).value.1;
    var data := ComplexStream(Flatten(m));
    FlattenLength(m, cols);
    LoadComplexLayout(data, ann, rsc, |m|);
    var v := LoadComplex(data, ann, rsc).value;
    ComplexStreamInjective(Flatten(v), Flatten(m));
    FlattenInjective(v, m, cols);
  }

  /** Real round trip: the stream a real raster is written as decodes, with
      the raster's width, to the raster. */
  lemma RealRoundTrip<T>(m: seq<seq<T>>, ann: Option<AnnInfo>, rsc: Option<RscData>)
    requires GetFileRowsCols(ann, rsc).Ok?
    requires GetFileRowsCols(ann, rsc).value.1 > 0
    requires IsMatrix(m, GetFileRowsCols(ann, rsc).value.1)
    ensures LoadReal(Flatten(m), ann, rsc) == Ok(m)
  {
    ReshapeFlatten(m, GetFileRowsCols(ann, rsc).value.1);
  }

  // ---------------------------------------------------------------------
  // Stacked dual-band files

  /** `np.hstack((a, b))` of two rasters with the same row count. */
  function Hstack<T>(a: seq<seq<T>>, b: seq<seq<T>>): (r: seq<seq<T>>)
    requires |a| == |b|
    ensures |r| == |a| && forall i :: 0 <= i < |a| ==> r[i] == a[i] + b[i]
  {
    seq(|a|, i requires 0 <= i < |a| => a[i] + b[i])
  }

  /** Side-by-side bands of known widths can be told apart again. */
  lemma HstackInjective<T>(a: seq<seq<T>>, b: seq<seq<T>>, a': seq<seq<T>>, b': seq<seq<T>>, cols: nat)
    requires |a| == |b| == |a'| == |b'|
    requires IsMatrix(a, cols) && IsMatrix(a', cols)
    requires Hstack(a, b) == Hstack(a', b')
    ensures a == a' && b == b'
  {
    forall i | 0 <= i < |a|
      ensures a[i] == a'[i] && b[i] == b'[i]
    {
      var row := Hstack(a, b)[i];
      assert row == a[i] + b[i] && row == a'[i] + b'[i];
      assert a[i] == row[..cols] && a'[i] == row[..cols];
      assert b[i] == row[cols..] && b'[i] == row[cols..];
    }
  }

  /** Columns `[lo, hi)` of every row. */
  function Columns<T>(m: seq<seq<T>>, lo: nat, hi: nat): (r: seq<seq<T>>)
    requires lo <= hi && forall i :: 0 <= i < |m| ==> hi <= |m[i]|
    ensures |r| == |m| && IsMatrix(r, hi - lo)
    ensures forall i :: 0 <= i < |m| ==> r[i] == m[i][lo..hi]
  {
    seq(|m|, i requires 0 <= i < |m| => m[i][lo..hi])
  }

  /** A file of `rows` stacked rows passes the width check. */
  lemma StackedWidth(rows: nat, cols: nat)
    ensures cols > 0 ==> (rows * (2 * cols)) % cols == 0
  {
    if cols > 0 {
      assert rows * (2 * cols) == (2 * rows) * cols;
      MulDivMod(2 * rows, cols);
    }
  }

  /** `load_stacked_img` after `np.fromfile`: the stream is reshaped to
      `rows x (2 * cols)`; the first `cols` samples of each row are band 0
      (amplitude), the next `cols` band 1. Only band 1 is returned unless
      `returnAmp`, which returns both bands stacked. */
  function LoadStackedImg<T>(data: seq<T>, rsc: Option<RscData>, ann: Option<AnnInfo>, returnAmp: bool): (r: Result<Array<T>>)
    ensures GetFileRowsCols(ann, rsc).Err? ==> r == Err(GetFileRowsCols(ann, rsc).error)
    ensures GetFileRowsCols(ann, rsc).Ok? ==>
              var (rows, cols) := GetFileRowsCols(ann, rsc).value;
              && (cols == 0 ==> r == Err(ZeroWidth))
              && (r.Ok? <==> cols > 0 && |data| == rows * (2 * cols))
              && (r.Ok? ==> (returnAmp <==> r.value.Array3?))
              && (r.Ok? && returnAmp ==>
                    && |r.value.s| == 2
                    && |r.value.s[0]| == rows && IsMatrix(r.value.s[0], cols)
                    && |r.value.s[1]| == rows && IsMatrix(r.value.s[1], cols)
                    && Flatten(Hstack(r.value.s[0], r.value.s[1])) == data)
              && (r.Ok? && !returnAmp ==> r.value.Array2? && |r.value.m| == rows && IsMatrix(r.value.m, cols))
  {
    var shape :- GetFileRowsCols(ann, rsc);
    var (rows, cols) := shape;
    StackedWidth(rows, cols);
    var _ :- AssertValidSize(|data|, cols);
    if |data| != rows * (2 * cols) then Err(BadReshape)
    else
      MulDivMod(rows, 2 * cols);
      var full := Reshape(data, 2 * cols);
      var first, second := Columns(full, 0, cols), Columns(full, cols, 2 * cols);
      assert Hstack(first, second) == full by {
        forall i | 0 <= i < rows ensures full[i][0..cols] + full[i][cols..2 * cols] == full[i] { }
      }
      if returnAmp then Ok(Array3([first, second])) else Ok(Array2(second))
  }

  /** Pixel `(r, c)` of band 0 is sample `r * 2 * cols + c`, of band 1 sample
      `r * 2 * cols + cols + c`. */
  lemma LoadStackedAt<T>(data: seq<T>, rsc: Option<RscData>, ann: Option<AnnInfo>, r: nat, c: nat)
    requires LoadStackedImg(data, rsc, ann, true).Ok?
    requires r < GetFileRowsCols(ann, rsc).value.0 && c < GetFileRowsCols(ann, rsc).value.1
    ensures var cols := GetFileRowsCols(ann, rsc).value.1;
            var s := LoadStackedImg(data, rsc, ann, true).value.s;
            && r * (2 * cols) + cols + c < |data|
            && s[0][r][c] == data[r * (2 * cols) + c]
            && s[1][r][c] == data[r * (2 * cols) + cols + c]
  {
    var cols := GetFileRowsCols(ann, rsc).value.1;
    var s := LoadStackedImg(data, rsc, ann, true).value.s;
    var h := Hstack(s[0], s[1]);
    assert IsMatrix(h, 2 * cols);
    FlattenCell(h, 2 * cols, r, c);
    FlattenCell(h, 2 * cols, r, cols + c);
    assert h[r][c] == s[0][r][c] && h[r][cols + c] == s[1][r][c];
  }

  /** Without `return_amp` the result is exactly band 1 of the full load. */
  lemma StackedPhaseOnly<T>(data: seq<T>, rsc: Option<RscData>, ann: Option<AnnInfo>)
    ensures LoadStackedImg(data, rsc, ann, false).Ok? <==> LoadStackedImg(data, rsc, ann, true).Ok?
    ensures LoadStackedImg(data, rsc, ann, false).Ok? ==>
              LoadStackedImg(data, rsc, ann, false).value == Array2(LoadStackedImg(data, rsc, ann, true).value.s[1])
  {
  }

  /** `np.hstack((array[0], array[1]))` written out row-major. Bands past the
      second are ignored; fewer than two bands is an IndexError. */
  function EncodeStacked<T>(s: seq<seq<seq<T>>>): (r: Result<seq<T>>)
    requires WellShaped(Array3(s))
    ensures r.Ok? <==> |s| >= 2
    ensures r.Ok? ==> |s[0]| == |s[1]| && r.value == Flatten(Hstack(s[0], s[1]))
  {
    if |s| < 2 then Err(IndexOutOfRange)
    else Ok(Flatten(Hstack(s[0], s[1])))
  }

  /** Stacked round trip: saving two bands and loading the file back with the
      matching shape and `return_amp=True` returns both bands unchanged. */
  lemma StackedRoundTrip<T>(amp: seq<seq<T>>, phase: seq<seq<T>>, ann: Option<AnnInfo>, rsc: Option<RscData>)
    requires GetFileRowsCols(ann, rsc).Ok?
    requires var (rows, cols) := GetFileRowsCols(ann, rsc).value;
             cols > 0 && |amp| == rows && |phase| == rows && IsMatrix(amp, cols) && IsMatrix(phase, cols)
    ensures WellShaped(Array3([amp, phase]))
    ensures EncodeStacked([amp, phase]).Ok?
    ensures LoadStackedImg(EncodeStacked([amp, phase]).value, rsc, ann, true) == Ok(Array3([amp, phase]))
  {
    var (rows, cols) := GetFileRowsCols(ann, rsc).value;
    var joined := Hstack(amp, phase);
    assert IsMatrix(joined, 2 * cols);
    var data := Flatten(joined);
    FlattenLength(joined, 2 * cols);
    assert |data| == rows * (2 * cols);
    var bands := LoadStackedImg(data, rsc, ann, true).value.s;
    assert IsMatrix(Hstack(bands[0], bands[1]), 2 * cols);
    FlattenInjective(Hstack(bands[0], bands[1]), joined, 2 * cols);
    HstackInjective(bands[0], bands[1], amp, phase, cols);
    assert bands == [amp, phase];
  }

  /** A 2 x 3 dual-band file splits into its amplitude rows and its phase
      rows. */
  lemma StackedExample()
    ensures LoadStackedImg([10.0, 11.0, 12.0, 0.1, 0.2, 0.3, 20.0, 21.0, 22.0, 0.4, 0.5, 0.6],
                           Some(RscData(2, 3)), None, true)
            == Ok(Array3([[[10.0, 11.0, 12.0], [20.0, 21.0, 22.0]],
                          [[0.1, 0.2, 0.3], [0.4, 0.5, 0.6]]]))
  {
    var amp: seq<seq<real>> := [[10.0, 11.0, 12.0], [20.0, 21.0, 22.0]];
    var phase: seq<seq<real>> := [[0.1, 0.2, 0.3], [0.4, 0.5, 0.6]];
    StackedRoundTrip(amp, phase, None, Some(RscData(2, 3)));
    var joined: seq<seq<real>> := Hstack(amp, phase);
    assert joined[0] == [10.0, 11.0, 12.0, 0.1, 0.2, 0.3];
    assert joined[1] == [20.0, 21.0, 22.0, 0.4, 0.5, 0.6];
    assert |joined[1..][1..]| == 0;
    assert Flatten(joined[1..]) == joined[1];
    assert Flatten(joined) == joined[0] + joined[1];
    assert EncodeStacked([amp, phase]).value
        == [10.0, 11.0, 12.0, 0.1, 0.2, 0.3, 20.0, 21.0, 22.0, 0.4, 0.5, 0.6];
  }

  // ---------------------------------------------------------------------
  // Strided slicing `[..., ::d, ::d]`

  /** `r` holds the elements of `s` whose index is a multiple of `d`, in order. */
  ghost predicate Strided<X>(r: seq<X>, s: seq<X>, d: nat) {
    forall i :: 0 <= i < |r| ==> i * d < |s| && r[i] == s[i * d]
  }

  /** The number of multiples of `d` below `n`, counted one block at a time. */
  lemma StrideCount(n: int, d: int)
    requires n > 0 && d > 0
    ensures n <= d ==> (n + d - 1) / d == 1
    ensures n > d ==> (n + d - 1) / d == (n - d + d - 1) / d + 1
  {
    if n <= d {
      DivBetween(n + d - 1, d, 1);
    } else {
      var q := (n - 1) / d;
      assert q * d <= n - 1 < q * d + d;
      assert (q + 1) * d == q * d + d;
      DivBetween(n + d - 1, d, q + 1);
    }
  }

  lemma StridedAt<X>(s: seq<X>, d: nat, rest: seq<X>, i: nat)
    requires d > 0 && |s| >= d && |s| > 0
    requires Strided(rest, s[d..], d)
    requires 0 < i <= |rest|
    ensures i * d < |s| && ([s[0]] + rest)[i] == s[i * d]
  {
    assert ([s[0]] + rest)[i] == rest[i - 1];
    assert (i - 1) * d < |s[d..]| && rest[i - 1] == s[d..][(i - 1) * d];
    assert i * d == d + (i - 1) * d;
  }

  lemma StridedCons<X>(s: seq<X>, d: nat, rest: seq<X>)
    requires d > 0 && |s| >= d && |s| > 0
    requires Strided(rest, s[d..], d)
    ensures Strided([s[0]] + rest, s, d)
  {
    forall i | 0 < i < |rest| + 1
      ensures i * d < |s| && ([s[0]] + rest)[i] == s[i * d]
    {
      StridedAt(s, d, rest, i);
    }
  }

  /** `s[::d]`. */
  function Every<X>(s: seq<X>, d: nat): (r: seq<X>)
    requires d > 0
    ensures |r| == (|s| + d - 1) / d
    ensures Strided(r, s, d)
    decreases |s|
  {
    if |s| == 0 then []
    else if |s| <= d then
      StrideCount(|s|, d);
      [s[0]]
    else
      var rest := Every(s[d..], d);
      StrideCount(|s|, d);
      StridedCons(s, d, rest);
      [s[0]] + rest
  }

  /** A multiple of `d` below `len` is among the first `ceil(len / d)`
      multiples. */
  lemma QuotientBelow(k: nat, d: nat, len: nat)
    requires d > 0 && k < len && k % d == 0
    ensures k == (k / d) * d && k / d < (len + d - 1) / d
  {
    var q, n := k / d, (len + d - 1) / d;
    assert k == q * d + k % d;
    assert len + d - 1 == n * d + (len + d - 1) % d;
    assert n * d > len - 1;
    assert (n - q) * d == n * d - q * d;
    MulPositive(n - q, d);
  }

  /** An index below `|s|` that is a multiple of `d` is kept, at position `k / d`. */
  lemma EveryKeeps<X>(s: seq<X>, d: nat, k: nat)
    requires d > 0 && k < |s| && k % d == 0
    ensures k / d < |Every(s, d)| && Every(s, d)[k / d] == s[k]
  {
    QuotientBelow(k, d, |s|);
    var r := Every(s, d);
    var q := k / d;
    assert q * d < |s| && r[q] == s[q * d];
  }

  /** `m[::d, ::d]`. */
  function Subsample<T>(m: seq<seq<T>>, d: nat): (r: seq<seq<T>>)
    requires d > 0
    ensures |r| == (|m| + d - 1) / d
    ensures forall i :: 0 <= i < |r| ==> r[i] == Every(Every(m, d)[i], d)
  {
    var rows := Every(m, d);
    seq(|rows|, i requires 0 <= i < |rows| => Every(rows[i], d))
  }

  /** `a[..., ::d, ::d]`: the last two axes are strided. `load_file` only
      slices the 2-D or 3-D result of `load_stacked_img`; on a 1-D array
      numpy raises `IndexError` (too many indices), which the `Array1` case
      does not model: it strides the single axis instead. */
  function StridedSlice<T>(a: Array<T>, d: nat): (r: Array<T>)
    requires d > 0
    ensures r.Ndim() == a.Ndim()
    ensures a.Array1? ==> r.v == Every(a.v, d)
    ensures a.Array2? ==> r.m == Subsample(a.m, d)
    ensures a.Array3? ==> |r.s| == |a.s| && forall b :: 0 <= b < |a.s| ==> r.s[b] == Subsample(a.s[b], d)
  {
    match a
    case Array1(v) => Array1(Every(v, d))
    case Array2(m) => Array2(Subsample(m, d))
    case Array3(s) => Array3(seq(|s|, b requires 0 <= b < |s| => Subsample(s[b], d)))
  }
}

=== FILE: sario_formats.dfy ===
/** The extension tables of `apertools/sario.py` and the rules built on them:
    whether a file holds complex samples, the compound extension of a `.grd`
    file, and how many `.rsc` sidecars a directory may hold. */
module SarioFormats {
  import opened Base
  import opened PyStr

  const SentinelExts: seq<string> := [".geo", ".cc", ".int", ".amp", ".unw", ".unwflat"]
  const UavsarExts: seq<string> :=
    [".int", ".mlc", ".slc", ".amp", ".cor", ".grd", ".unw", ".int.grd", ".unw.grd", ".cor.grd"]
  const ImageExts: seq<string> := [".png", ".tif", ".tiff", ".jpg"]
  const ComplexExts: seq<string> := [".int", ".slc", ".geo", ".cc", ".unw", ".unwflat", ".mlc", ".int.grd"]
  const RealExts: seq<string> := [".amp", ".cor", ".mlc", ".grd", ".cor.grd"]
  const ElevationExts: seq<string> := [".dem", ".hgt"]
  /** Dual-band files, read by `load_stacked_img`. */
  const StackedFiles: seq<string> := [".cc", ".unw", ".unwflat", ".unw.grd", ".cc.grd"]
  /** Extensions whose sample type depends on the polarisation in the name. */
  const UavsarPolDependent: seq<string> := [".grd", ".mlc"]
  /** The substrings that make `_get_full_grd_ext` build a compound extension. */
  const GrdTokens: seq<string> := [".int", ".unw", ".cor", "cc"]

  /** Python's `any(tok in s for tok in toks)`. */
  predicate AnyIn(s: string, toks: seq<string>) {
    exists i :: 0 <= i < |toks| && Contains(s, toks[i])
  }

  // ---------------------------------------------------------------------
  // is_complex

  /** `is_complex(filename, ext)`: an extension in neither table is refused;
      for the polarisation-dependent ones the file is complex iff its name
      holds one of `complexPols` (UAVSAR's complex polarisations, passed in
      because the UAVSAR parser is not part of this model); otherwise the
      file is complex iff the extension is in the complex table. */
  function IsComplex(filename: string, ext: string, complexPols: seq<string>): (r: Result<bool>)
    ensures r.Err? <==> ext !in ComplexExts && ext !in RealExts
    ensures r.Err? ==> r.error == UnsupportedFormat
    ensures r.Ok? && ext in UavsarPolDependent ==> (r.value <==> AnyIn(filename, complexPols))
    ensures r.Ok? && ext !in UavsarPolDependent ==> (r.value <==> ext in ComplexExts)
  {
    if ext !in ComplexExts && ext !in RealExts then Err(UnsupportedFormat)
    else if ext in UavsarPolDependent then Ok(AnyIn(filename, complexPols))
    else Ok(ext in ComplexExts)
  }

  /** `.mlc` is the only extension listed as both complex and real, which is
      why its polarisation decides. */
  lemma TablesOverlapOnlyInMlc(ext: string)
    ensures ext in ComplexExts && ext in RealExts <==> ext == ".mlc"
  {
  }

  /** Every Sentinel or UAVSAR extension that is not a dual-band one is
      classified without error (the stacked `.unw.grd` is in neither table,
      and `load_file` never asks about it). */
  lemma RadarExtsClassified(filename: string, ext: string, complexPols: seq<string>)
    requires ext in SentinelExts || ext in UavsarExts
    requires ext !in StackedFiles
    ensures IsComplex(filename, ext, complexPols).Ok?
  {
  }

  /** A `.grd` file is real unless its name carries a complex polarisation. */
  lemma GrdFollowsPolarisation(filename: string, complexPols: seq<string>)
    ensures IsComplex(filename, ".grd", complexPols) == Ok(AnyIn(filename, complexPols))
  {
  }

  // ---------------------------------------------------------------------
  // _get_full_grd_ext

  /** `parts[-2:]`. */
  function LastTwo(parts: seq<string>): (r: seq<string>)
    ensures |parts| >= 2 ==> r == parts[|parts| - 2..]
    ensures |parts| < 2 ==> r == parts
  {
    if |parts| >= 2 then parts[|parts| - 2..] else parts
  }

  /** `_get_full_grd_ext`: when the name contains one of `.int`, `.unw`,
      `.cor` or the bare `cc`, the extension is a dot followed by the last two
      dot-separated pieces of the name; otherwise it stays `.grd`. */
  function FullGrdExt(filename: string): (ext: string)
    ensures !AnyIn(filename, GrdTokens) ==> ext == ".grd"
    ensures |ext| > 0 && ext[0] == '.'
  {
    if AnyIn(filename, GrdTokens) then "." + Join(LastTwo(Split(filename, '.')), '.')
    else ".grd"
  }

  /** Splitting `base.a.b` on dots ends with the pieces `a` and `b`. */
  lemma SplitLastTwo(base: string, a: string, b: string)
    requires '.' !in a && '.' !in b
    ensures LastTwo(Split(base + "." + a + "." + b, '.')) == [a, b]
  {
    assert base + "." + a + "." + b == (base + ['.'] + a) + ['.'] + b;
    SplitConcat(base + ['.'] + a, b, '.');
    SplitConcat(base, a, '.');
    SplitNoSep(a, '.');
    SplitNoSep(b, '.');
    var parts := Split(base, '.') + [a] + [b];
    assert parts[|parts| - 2..] == [a, b];
  }

  /** For a name `base.a.b` that triggers the rule, the extension is `.a.b`,
      whatever dots `base` holds. */
  lemma FullGrdExtCompound(base: string, a: string, b: string)
    requires '.' !in a && '.' !in b
    requires AnyIn(base + "." + a + "." + b, GrdTokens)
    ensures FullGrdExt(base + "." + a + "." + b) == "." + a + "." + b
  {
    SplitLastTwo(base, a, b);
    assert Join([a, b], '.') == a + "." + b;
  }

  /** An interferogram `<base>.int.grd` gets the extension `.int.grd`,
      whatever dots `base` holds. */
  lemma FullGrdExtIntGrd(base: string)
    ensures FullGrdExt(base + ".int.grd") == ".int.grd"
  {
    var t, a, b := ".int", "int", "grd";
    var name := base + ".int.grd";
    assert name == (base + t) + ".grd";
    ContainsSuffix(base, t);
    ContainsBefore(base + t, ".grd", t);
    assert GrdTokens[0] == t;
    assert AnyIn(name, GrdTokens);
    assert name == base + "." + a + "." + b;
    FullGrdExtCompound(base, a, b);
    assert "." + a + "." + b == ".int.grd";
  }

  /** Splitting `a.b` on dots gives `a` and `b`. */
  lemma SplitPair(a: string, b: string)
    requires '.' !in a && '.' !in b
    ensures Split(a + "." + b, '.') == [a, b]
  {
    assert a + "." + b == a + ['.'] + b;
    SplitConcat(a, b, '.');
    SplitNoSep(a, '.');
    SplitNoSep(b, '.');
  }

  /** A name holding `cc` triggers the compound-extension rule. */
  lemma CcTriggers(name: string)
    requires Contains(name, "cc")
    ensures AnyIn(name, GrdTokens)
  {
    assert GrdTokens[3] == "cc";
  }

  /** For a name `a.b` that triggers the rule, the extension is `.a.b`. */
  lemma FullGrdExtPair(a: string, b: string)
    requires '.' !in a && '.' !in b
    requires AnyIn(a + "." + b, GrdTokens)
    ensures FullGrdExt(a + "." + b) == "." + a + "." + b
  {
    SplitPair(a, b);
    assert Join([a, b], '.') == a + "." + b;
  }

  /** The bare `cc` token matches inside any word: `acc.grd` gets the
      extension `.acc.grd`, which no table lists, and so does every
      dot-free word holding `cc`. */
  lemma FullGrdExtBareCc(w: string)
    requires '.' !in w && Contains(w, "cc")
    ensures FullGrdExt(w + ".grd") == "." + w + ".grd"
  {
    ContainsBefore(w, ".grd", "cc");
    CcTriggers(w + ".grd");
    assert w + ".grd" == w + "." + "grd";
    FullGrdExtPair(w, "grd");
  }

  lemma AccGrdUnlisted()
    ensures Contains("acc", "cc")
    ensures ".acc.grd" !in ComplexExts && ".acc.grd" !in RealExts && ".acc.grd" !in StackedFiles
  {
    ContainsAt("acc", "cc", 1);
  }

  // ---------------------------------------------------------------------
  // find_rsc_file

  /** The count rule of `find_rsc_file` over the sorted `*.rsc` names found
      next to the file: none is no sidecar, one is the sidecar, more is an
      error. */
  function FindRscFile(possible: seq<string>): (r: Result<Option<string>>)
    ensures r == Ok(None) <==> |possible| == 0
    ensures r.Ok? && r.value.Some? <==> |possible| == 1
    ensures r.Ok? && r.value.Some? ==> r.value.value in possible
    ensures r == Err(MultipleSidecars) <==> |possible| > 1
  {
    if |possible| < 1 then Ok(None)
    else if |possible| > 1 then Err(MultipleSidecars)
    else Ok(Some(possible[0]))
  }
}

=== FILE: sario_load.dfy ===
/** `load_file`, `save` and `load_stack` of `apertools/sario.py`: argument
    validation, the order in which extensions are dispatched, and how the
    codec is reached. Reading and writing files, `sardem`'s `.rsc` reader and
    the UAVSAR annotation parsers are inputs (`Env`); `take_looks` is left
    pending, so a decoded raster comes back with the looks it would be
    averaged by. */
module SarioLoad {
  import opened Base
  import opened PyStr
  import opened SarioCodec
  import opened SarioFormats

  // ---------------------------------------------------------------------
  // downsample / looks

  /** A Python number passed as `downsample` or as a `looks` entry. */
  datatype Num = Int(i: int) | Float(x: real)

  /** Python truthiness of a number. */
  predicate Truthy(n: Num) {
    match n
    case Int(i) => i != 0
    case Float(x) => x != 0.0
  }

  /** `not (n < 1 or not isinstance(n, int))`. */
  predicate PositiveInt(n: Num) {
    n.Int? && n.i >= 1
  }

  predicate AllPositiveInts(ns: seq<Num>) {
    forall k :: 0 <= k < |ns| ==> PositiveInt(ns[k])
  }

  function AsInts(ns: seq<Num>): (r: seq<int>)
    requires AllPositiveInts(ns)
    ensures |r| == |ns| && forall k :: 0 <= k < |r| ==> r[k] == ns[k].i && r[k] >= 1
  {
    seq(|ns|, k requires 0 <= k < |ns| => ns[k].i)
  }

  /** The validation at the top of `load_file`: a truthy `downsample` must be
      a positive int and becomes `(d, d)`; otherwise non-empty `looks` must be
      all positive ints; otherwise the looks are `(1, 1)`. */
  function ResolveLooks(downsample: Option<Num>, looks: Option<seq<Num>>): (r: Result<seq<int>>)
    ensures downsample.Some? && Truthy(downsample.value) ==>
              (r.Ok? <==> PositiveInt(downsample.value)) &&
              (r.Err? ==> r.error == BadDownsample) &&
              (r.Ok? ==> r.value == [downsample.value.i, downsample.value.i])
    ensures !(downsample.Some? && Truthy(downsample.value)) && looks.Some? && |looks.value| > 0 ==>
              (r.Ok? <==> AllPositiveInts(looks.value)) &&
              (r.Err? ==> r.error == BadLooks) &&
              (r.Ok? ==> |r.value| == |looks.value| &&
                         forall k :: 0 <= k < |r.value| ==> r.value[k] == looks.value[k].i)
    ensures !(downsample.Some? && Truthy(downsample.value)) && !(looks.Some? && |looks.value| > 0) ==>
              r == Ok([1, 1])
    ensures r.Ok? ==> forall k :: 0 <= k < |r.value| ==> r.value[k] >= 1
  {
    if downsample.Some? && Truthy(downsample.value) then
      if !PositiveInt(downsample.value) then Err(BadDownsample)
      else Ok([downsample.value.i, downsample.value.i])
    else if looks.Some? && |looks.value| > 0 then
      if !AllPositiveInts(looks.value) then Err(BadLooks)
      else Ok(AsInts(looks.value))
    else Ok([1, 1])
  }

  /** The step of `stacked[..., ::downsample, ::downsample]` once validation
      has passed: `None` is a step of 1, a zero int is numpy's "slice step
      cannot be zero", a zero float is "slice indices must be integers". */
  function SliceStep(downsample: Option<Num>): (r: Result<nat>)
    requires downsample.None? || !Truthy(downsample.value) || PositiveInt(downsample.value)
    ensures r.Ok? ==> r.value >= 1
    ensures downsample.None? ==> r == Ok(1)
    ensures downsample.Some? && PositiveInt(downsample.value) ==> r == Ok(downsample.value.i)
    ensures downsample == Some(Int(0)) ==> r == Err(BadSliceStep)
    ensures downsample.Some? && downsample.value.Float? ==> r == Err(NonIntegerStep)
  {
    match downsample
    case None => Ok(1)
    case Some(Float(_)) => Err(NonIntegerStep)
    case Some(Int(i)) => if i == 0 then Err(BadSliceStep) else Ok(i)
  }

  // ---------------------------------------------------------------------
  // load_file

  /** What `load_file` sees of the outside world. */
  datatype Env<T> = Env(
    ext: string,                      // utils.get_file_ext(filename)
    data: seq<T>,                     // np.fromfile(filename, '<f4')
    rscOf: string -> Option<RscData>, // sardem's load_dem_rsc; None for an empty result
    rscCandidates: seq<string>,       // the sorted *.rsc files next to filename
    annParsed: Option<AnnInfo>,       // Uavsar, then UavsarInt, parse_ann_file; None if both fail
    complexPols: seq<string>,         // parsers.Uavsar.COMPLEX_POLS
    returnAmp: bool)                  // the return_amp keyword

  /** What `load_file` returns. Rasters carry the looks `take_looks` would
      average them by; the other readers are outside the model. */
  datatype Loaded<T> =
    | NumpyFile(looks: seq<int>)
    | GeoJson
    | ElevationFile(looks: seq<int>)
    | RscFile(rsc: Option<RscData>)
    | ImageFile
    | Stacked(a: Array<T>)
    | ComplexRaster(m: seq<seq<Complex<T>>>, looks: seq<int>)
    | RealRaster(r: seq<seq<T>>, looks: seq<int>)

  /** Python truthiness of an optional path. */
  predicate PathGiven(p: Option<string>) {
    p.Some? && |p.value| > 0
  }

  /** Lines 131-141: the `.rsc` file in force and the metadata read from it.
      A Sentinel extension without an explicit `rsc_file` looks for the single
      sidecar next to the file. */
  function ResolveRsc<T>(filename: string, rscFile: Option<string>, env: Env<T>): (r: Result<(Option<string>, Option<RscData>)>)
    ensures r.Err? <==> env.ext in SentinelExts && !PathGiven(rscFile) && |env.rscCandidates| > 1
    ensures r.Ok? && PathGiven(rscFile) ==> r.value == (rscFile, env.rscOf(rscFile.value))
    ensures r.Ok? && !PathGiven(rscFile) && env.ext in SentinelExts && |env.rscCandidates| == 1 && |env.rscCandidates[0]| > 0 ==>
              r.value == (Some(env.rscCandidates[0]), env.rscOf(env.rscCandidates[0]))
    ensures r.Ok? && !PathGiven(rscFile) && (env.ext !in SentinelExts || |env.rscCandidates| == 0) ==>
              r.value.1.None?
  {
    var rscData := if PathGiven(rscFile) then env.rscOf(rscFile.value) else None;
    if env.ext in SentinelExts then
      var found :- if PathGiven(rscFile) then Ok(rscFile) else FindRscFile(env.rscCandidates);
      if PathGiven(found) then Ok((found, env.rscOf(found.value))) else Ok((found, rscData))
    else Ok((rscFile, rscData))
  }

  /** `load_file(filename, downsample, looks, rsc_file, ann_info)`. */
  function LoadFile<T>(filename: string, downsample: Option<Num>, looks: Option<seq<Num>>,
                       rscFile: Option<string>, annInfo: Option<AnnInfo>, env: Env<T>): (r: Result<Loaded<T>>)
    ensures ResolveLooks(downsample, looks).Err? ==> r == Err(ResolveLooks(downsample, looks).error)
    ensures ResolveLooks(downsample, looks).Ok? && env.ext == ".npy" ==> r == Ok(NumpyFile(ResolveLooks(downsample, looks).value))
    ensures ResolveLooks(downsample, looks).Ok? && env.ext in ElevationExts ==> r == Ok(ElevationFile(ResolveLooks(downsample, looks).value))
    ensures ResolveLooks(downsample, looks).Ok? && env.ext in ImageExts ==> r == Ok(ImageFile)
    ensures r.Ok? && r.value.Stacked? ==> r.value.a.Ndim() == if env.returnAmp then 3 else 2
  {
    var lk :- ResolveLooks(downsample, looks);
    if env.ext == ".npy" then Ok(NumpyFile(lk))
    else if env.ext == ".geojson" then Ok(GeoJson)
    else if env.ext in ElevationExts then Ok(ElevationFile(lk))
    else if env.ext == ".rsc" then Ok(RscFile(env.rscOf(filename)))
    else if env.ext in ImageExts then Ok(ImageFile)
    else
      var rsc :- ResolveRsc(filename, rscFile, env);
      var (rscPath, rscData) := rsc;
      var ext := if env.ext == ".grd" then FullGrdExt(filename) else env.ext;
      var ann := if annInfo.None? && rscData.None? && ext in UavsarExts then env.annParsed else annInfo;
      if ann.None? && !PathGiven(rscPath) then Err(NoMetadataFile)
      else if ext in StackedFiles then
        var stacked :- LoadStackedImg(env.data, rscData, ann, env.returnAmp);
        var step :- SliceStep(downsample);
        Ok(Stacked(StridedSlice(stacked, step)))
      else
        var complex :- if rscData.Some? then Ok(true) else IsComplex(filename, ext, env.complexPols);
        if complex then
          var m :- LoadComplex(env.data, ann, rscData);
          Ok(ComplexRaster(m, lk))
        else
          var m :- LoadReal(env.data, ann, rscData);
          Ok(RealRaster(m, lk))
  }

  /** A dual-band extension reaches the stacked branch unchanged. */
  lemma StackedExt(e: string)
    requires e in StackedFiles
    ensures e != ".npy" && e != ".geojson" && e != ".rsc" && e != ".grd"
    ensures e !in ElevationExts && e !in ImageExts
  {
  }

  /** The stacked branch slices with `downsample` and never looks at `looks`:
      two calls that differ only in valid `looks` give the same result. */
  lemma StackedIgnoresLooks<T>(filename: string, downsample: Option<Num>, looks1: Option<seq<Num>>, looks2: Option<seq<Num>>,
                               rscFile: Option<string>, annInfo: Option<AnnInfo>, env: Env<T>)
    requires env.ext in StackedFiles
    requires ResolveLooks(downsample, looks1).Ok? && ResolveLooks(downsample, looks2).Ok?
    ensures LoadFile(filename, downsample, looks1, rscFile, annInfo, env) == LoadFile(filename, downsample, looks2, rscFile, annInfo, env)
  {
    StackedExt(env.ext);
  }

  /** A stacked load keeps exactly the rows and columns whose index is a
      multiple of `downsample` (every one when it is `None`). */
  lemma StackedIsStrided<T>(filename: string, downsample: Option<Num>, looks: Option<seq<Num>>,
                            rscFile: Option<string>, annInfo: Option<AnnInfo>, env: Env<T>)
    requires env.ext in StackedFiles
    requires LoadFile(filename, downsample, looks, rscFile, annInfo, env).Ok?
    ensures var rsc := ResolveRsc(filename, rscFile, env).value;
            var ann := if annInfo.None? && rsc.1.None? && env.ext in UavsarExts then env.annParsed else annInfo;
            var full := LoadStackedImg(env.data, rsc.1, ann, env.returnAmp);
            && full.Ok?
            && (downsample.None? || PositiveInt(downsample.value))
            && LoadFile(filename, downsample, looks, rscFile, annInfo, env)
               == Ok(Stacked(StridedSlice(full.value, if downsample.None? then 1 else downsample.value.i)))
  {
    StackedExt(env.ext);
  }

  /** `downsample=0` is falsy, so validation lets it through to the looks
      branch; a stacked file then fails at the slice, after loading. */
  lemma ZeroDownsampleOnStacked<T>(filename: string, rscFile: Option<string>, annInfo: Option<AnnInfo>, env: Env<T>)
    requires env.ext in StackedFiles
    requires ResolveRsc(filename, rscFile, env).Ok?
    requires var rsc := ResolveRsc(filename, rscFile, env).value;
             var ann := if annInfo.None? && rsc.1.None? && env.ext in UavsarExts then env.annParsed else annInfo;
             (ann.Some? || PathGiven(rsc.0)) && LoadStackedImg(env.data, rsc.1, ann, env.returnAmp).Ok?
    ensures ResolveLooks(Some(Int(0)), None) == Ok([1, 1])
    ensures LoadFile(filename, Some(Int(0)), None, rscFile, annInfo, env) == Err(BadSliceStep)
  {
    StackedExt(env.ext);
  }

  /** Line 159 checks the `rsc_file` path, not the data read from it: a given
      path whose reader yields nothing passes that check and fails later in
      `_get_file_rows_cols` instead. */
  lemma RscPathCheckedNotData<T>(filename: string, path: string, env: Env<T>)
    requires env.ext == ".int" && |path| > 0
    requires env.rscOf(path).None? && env.annParsed.None?
    ensures LoadFile(filename, None, None, Some(path), None, env) == Err(MetadataMissing)
  {
    assert ".int" in SentinelExts && ".int" in UavsarExts && ".int" in ComplexExts;
    assert ".int" !in StackedFiles && ".int" !in ImageExts && ".int" !in ElevationExts;
  }

  /** Without any metadata source a radar file is refused before it is read. */
  lemma NoMetadataRefused<T>(filename: string, downsample: Option<Num>, looks: Option<seq<Num>>, env: Env<T>)
    requires ResolveLooks(downsample, looks).Ok?
    requires env.ext in SentinelExts && |env.rscCandidates| == 0 && env.annParsed.None?
    ensures LoadFile(filename, downsample, looks, None, None, env) == Err(NoMetadataFile)
  {
    assert forall e :: e in SentinelExts ==> e != ".npy" && e != ".geojson" && e != ".rsc" && e !in ElevationExts && e !in ImageExts && e != ".grd";
  }

  /** A Sentinel file with a readable sidecar is always decoded as complex,
      even `.amp`, which the tables list as real. */
  lemma SentinelSidecarMeansComplex<T>(filename: string, env: Env<T>)
    requires env.ext == ".amp"
    requires |env.rscCandidates| == 1 && |env.rscCandidates[0]| > 0
    requires env.rscOf(env.rscCandidates[0]).Some?
    ensures var r := LoadFile(filename, None, None, None, None, env);
            r.Ok? ==> r.value.ComplexRaster?
    ensures IsComplex(filename, ".amp", env.complexPols) == Ok(false)
  {
    assert ".amp" in SentinelExts && ".amp" !in StackedFiles && ".amp" !in ImageExts && ".amp" !in ElevationExts;
  }

  /** The extension reaches the radar branch: none of the early readers
      take it and it is not dual-band. */
  predicate RadarExt<T>(filename: string, env: Env<T>) {
    && env.ext != ".npy" && env.ext != ".geojson" && env.ext != ".rsc"
    && env.ext !in ElevationExts && env.ext !in ImageExts
    && (if env.ext == ".grd" then FullGrdExt(filename) else env.ext) !in StackedFiles
  }

  /** The annotation in force (lines 147-157): the one given, or the parsed
      UAVSAR annotation when neither it nor a sidecar is there. */
  function AnnInForce<T>(filename: string, annInfo: Option<AnnInfo>, rscData: Option<RscData>, env: Env<T>): Option<AnnInfo> {
    var ext := if env.ext == ".grd" then FullGrdExt(filename) else env.ext;
    if annInfo.None? && rscData.None? && ext in UavsarExts then env.annParsed else annInfo
  }

  /** A radar file fails with the sidecar search, and without any metadata
      it is refused before decoding. */
  lemma LoadFileRadar<T>(filename: string, downsample: Option<Num>, looks: Option<seq<Num>>,
                         rscFile: Option<string>, annInfo: Option<AnnInfo>, env: Env<T>)
    requires ResolveLooks(downsample, looks).Ok? && RadarExt(filename, env)
    ensures var r := LoadFile(filename, downsample, looks, rscFile, annInfo, env);
            var rsc := ResolveRsc(filename, rscFile, env);
            && (rsc.Err? ==> r == Err(rsc.error))
            && (rsc.Ok? && AnnInForce(filename, annInfo, rsc.value.1, env).None? && !PathGiven(rsc.value.0) ==>
                  r == Err(NoMetadataFile))
  {
  }

  /** With metadata, a sidecar or a complex extension send a radar file to
      `load_complex`: its raster comes back with the resolved looks, or its
      error propagates. */
  lemma LoadFileComplex<T>(filename: string, downsample: Option<Num>, looks: Option<seq<Num>>,
                           rscFile: Option<string>, annInfo: Option<AnnInfo>, env: Env<T>)
    requires ResolveLooks(downsample, looks).Ok? && RadarExt(filename, env)
    requires ResolveRsc(filename, rscFile, env).Ok?
    requires var (rscPath, rscData) := ResolveRsc(filename, rscFile, env).value;
             var ext := if env.ext == ".grd" then FullGrdExt(filename) else env.ext;
             && (AnnInForce(filename, annInfo, rscData, env).Some? || PathGiven(rscPath))
             && (rscData.Some? || IsComplex(filename, ext, env.complexPols) == Ok(true))
    ensures var rscData := ResolveRsc(filename, rscFile, env).value.1;
            var cx := LoadComplex(env.data, AnnInForce(filename, annInfo, rscData, env), rscData);
            LoadFile(filename, downsample, looks, rscFile, annInfo, env)
              == if cx.Ok? then Ok(ComplexRaster(cx.value, ResolveLooks(downsample, looks).value)) else Err(cx.error)
  {
  }

  /** With metadata but no sidecar data, a real extension sends a radar file
      to `load_real` (raster with the resolved looks, or its error), and an
      unknown one raises `is_complex`'s error. */
  lemma LoadFileReal<T>(filename: string, downsample: Option<Num>, looks: Option<seq<Num>>,
                        rscFile: Option<string>, annInfo: Option<AnnInfo>, env: Env<T>)
    requires ResolveLooks(downsample, looks).Ok? && RadarExt(filename, env)
    requires ResolveRsc(filename, rscFile, env).Ok?
    requires var (rscPath, rscData) := ResolveRsc(filename, rscFile, env).value;
             && (AnnInForce(filename, annInfo, rscData, env).Some? || PathGiven(rscPath))
             && rscData.None?
    ensures var ext := if env.ext == ".grd" then FullGrdExt(filename) else env.ext;
            var kind := IsComplex(filename, ext, env.complexPols);
            var re := LoadReal(env.data, AnnInForce(filename, annInfo, None, env), None);
            var r := LoadFile(filename, downsample, looks, rscFile, annInfo, env);
            && (kind == Ok(false) ==>
                  r == if re.Ok? then Ok(RealRaster(re.value, ResolveLooks(downsample, looks).value)) else Err(re.error))
            && (kind.Err? ==> r == Err(kind.error))
  {
  }

  // ---------------------------------------------------------------------
  // save

  /** What `save` writes: a raw sample buffer, or an image (not modelled). */
  datatype Written<T> = Raw(buf: seq<T>) | ImageWritten

  /** The samples of an array in row-major order (what `tofile` writes). */
  function Cells<T>(a: Array<T>): seq<T>
  {
    match a
    case Array1(v) => v
    case Array2(m) => Flatten(m)
    case Array3(s) => Flatten(seq(|s|, b requires 0 <= b < |s| => Flatten(s[b])))
  }

  /** `save(filename, array)`: `.png` is plotted; flat formats write the array
      row-major; dual-band formats need a 3-D array and write its first two
      bands side by side; anything else is refused. */
  function Save<T>(filename: string, ext: string, arr: Array<T>): (r: Result<Written<T>>)
    requires WellShaped(arr)
    ensures var full := if ext == ".grd" then FullGrdExt(filename) else ext;
            && (full in StackedFiles && arr.Ndim() != 3 ==> r == Err(BadShape))
            && (full in StackedFiles && arr.Array3? ==> (r.Ok? <==> |arr.s| >= 2))
            && ((full != ".png" && full !in ComplexExts && full !in RealExts && full !in ElevationExts && full !in StackedFiles)
                  ==> r == Err(UnsupportedFormat))
            && (r.Ok? && full != ".png" ==> r.value.Raw?)
  {
    var full := if ext == ".grd" then FullGrdExt(filename) else ext;
    if full == ".png" then Ok(ImageWritten)
    else if (full in ComplexExts || full in RealExts || full in ElevationExts) && full !in StackedFiles then
      Ok(Raw(Cells(arr)))
    else if full in StackedFiles then
      if arr.Ndim() != 3 then Err(BadShape)
      else
        var buf :- EncodeStacked(arr.s);
        Ok(Raw(buf))
    else Err(UnsupportedFormat)
  }

  /** `save_hgt`: both bands stacked and saved; `np.stack` refuses bands of
      different shapes before anything is written. */
  function SaveHgt<T>(filename: string, ext: string, amp: seq<seq<T>>, height: seq<seq<T>>): (r: Result<Written<T>>)
    ensures !WellShaped(Array3([amp, height])) <==> r == Err(StackMismatch)
    ensures WellShaped(Array3([amp, height])) && (if ext == ".grd" then FullGrdExt(filename) else ext) in StackedFiles ==>
              |amp| == |height| && r == Ok(Raw(Flatten(Hstack(amp, height))))
  {
    if !WellShaped(Array3([amp, height])) then Err(StackMismatch)
    else
      assert [amp, height][1] == height;
      Save(filename, ext, Array3([amp, height]))
  }

  /** Saving a real raster to a flat format and loading the buffer with its
      width returns the raster. */
  lemma SaveLoadReal<T>(filename: string, ext: string, m: seq<seq<T>>, ann: Option<AnnInfo>, rsc: Option<RscData>)
    requires ext in RealExts && ext !in StackedFiles && ext != ".grd"
    requires GetFileRowsCols(ann, rsc).Ok? && GetFileRowsCols(ann, rsc).value.1 > 0
    requires IsMatrix(m, GetFileRowsCols(ann, rsc).value.1)
    ensures WellShaped(Array2(m))
    ensures Save(filename, ext, Array2(m)).Ok? && Save(filename, ext, Array2(m)).value.Raw?
    ensures LoadReal(Save(filename, ext, Array2(m)).value.buf, ann, rsc) == Ok(m)
  {
    RealRoundTrip(m, ann, rsc);
  }

  /** Saving two bands to a dual-band format and loading the buffer with the
      matching shape and `return_amp=True` returns both bands. */
  lemma SaveLoadStacked<T>(filename: string, ext: string, amp: seq<seq<T>>, phase: seq<seq<T>>,
                           ann: Option<AnnInfo>, rsc: Option<RscData>)
    requires ext in StackedFiles && ext != ".grd"
    requires GetFileRowsCols(ann, rsc).Ok?
    requires var (rows, cols) := GetFileRowsCols(ann, rsc).value;
             cols > 0 && |amp| == rows && |phase| == rows && IsMatrix(amp, cols) && IsMatrix(phase, cols)
    ensures WellShaped(Array3([amp, phase]))
    ensures Save(filename, ext, Array3([amp, phase])).Ok? && Save(filename, ext, Array3([amp, phase])).value.Raw?
    ensures LoadStackedImg(Save(filename, ext, Array3([amp, phase])).value.buf, rsc, ann, true)
            == Ok(Array3([amp, phase]))
  {
    StackedRoundTrip(amp, phase, ann, rsc);
  }

  /** A height file written by `save_hgt` loads back, with the matching
      shape and `return_amp=True`, as its amplitude and height bands. */
  lemma SaveHgtLoads<T>(filename: string, ext: string, amp: seq<seq<T>>, height: seq<seq<T>>,
                        ann: Option<AnnInfo>, rsc: Option<RscData>)
    requires ext in StackedFiles && ext != ".grd"
    requires GetFileRowsCols(ann, rsc).Ok?
    requires var (rows, cols) := GetFileRowsCols(ann, rsc).value;
             cols > 0 && |amp| == rows && |height| == rows && IsMatrix(amp, cols) && IsMatrix(height, cols)
    ensures WellShaped(Array3([amp, height]))
    ensures SaveHgt(filename, ext, amp, height).Ok? && SaveHgt(filename, ext, amp, height).value.Raw?
    ensures LoadStackedImg(SaveHgt(filename, ext, amp, height).value.buf, rsc, ann, true) == Ok(Array3([amp, height]))
  {
    SaveLoadStacked(filename, ext, amp, height, ann, rsc);
  }

  // ---------------------------------------------------------------------
  // load_stack

  /** `img.shape` of a 2-D raster (an empty raster has no rows to tell its
      width from). */
  function Shape<T>(img: seq<seq<T>>): (r: (nat, nat))
    ensures r.0 == |img|
    ensures forall c :: |img| > 0 && IsMatrix(img, c) ==> r.1 == c
  {
    (|img|, if |img| == 0 then 0 else |img[0]|)
  }

  /** A row widened to `cols` by numpy broadcasting. */
  function BroadcastRow<T>(row: seq<T>, cols: nat): (r: seq<T>)
    requires |row| == cols || |row| == 1
    ensures |r| == cols
    ensures forall c :: 0 <= c < cols ==> r[c] == row[if |row| == 1 then 0 else c]
  {
    if |row| == cols then row else seq(cols, c => row[0])
  }

  /** `out[idx] = img` into a `rows x cols` slot: a dimension must match or
      be 1, which is then repeated. */
  function BroadcastTo<T>(img: seq<seq<T>>, rows: nat, cols: nat): (r: Result<seq<seq<T>>>)
    ensures r.Ok? <==> (|img| == rows || |img| == 1) &&
                       forall i :: 0 <= i < |img| ==> |img[i]| == cols || |img[i]| == 1
    ensures r.Ok? ==> |r.value| == rows && IsMatrix(r.value, cols)
    ensures r.Ok? && |img| == rows && IsMatrix(img, cols) ==> r.value == img
  {
    if !(|img| == rows || |img| == 1) then Err(BadBroadcast)
    else if exists i :: 0 <= i < |img| && !(|img[i]| == cols || |img[i]| == 1) then Err(BadBroadcast)
    else
      var out := seq(rows, i requires 0 <= i < rows => BroadcastRow(img[if |img| == 1 then 0 else i], cols));
      forall i | 0 <= i < rows
        ensures |out[i]| == cols
        ensures |img| == rows && IsMatrix(img, cols) ==> out[i] == img[i]
      {
        var j := if |img| == 1 then 0 else i;
        assert out[i] == BroadcastRow(img[j], cols);
      }
      Ok(out)
  }

  /** `out[idx] = img` for a loaded array of any rank: a 1-D image is a row
      broadcast down the slot, a 2-D one broadcasts as above, and a 3-D one
      fits only with a single leading band, which numpy drops. */
  function AssignSlot<T>(img: Array<T>, rows: nat, cols: nat): (r: Result<seq<seq<T>>>)
    ensures img.Array1? ==> (r.Ok? <==> |img.v| == cols || |img.v| == 1)
    ensures img.Array1? && r.Ok? ==> |r.value| == rows && forall i :: 0 <= i < rows ==> r.value[i] == BroadcastRow(img.v, cols)
    ensures img.Array2? ==> r == BroadcastTo(img.m, rows, cols)
    ensures img.Array3? ==> (r.Ok? ==> |img.s| == 1) && (|img.s| == 1 ==> r == BroadcastTo(img.s[0], rows, cols))
    ensures r.Ok? ==> |r.value| == rows && IsMatrix(r.value, cols)
  {
    match img
    case Array1(v) =>
      if !(|v| == cols || |v| == 1) then Err(BadBroadcast)
      else Ok(seq(rows, i => BroadcastRow(v, cols)))
    case Array2(m) => BroadcastTo(m, rows, cols)
    case Array3(bands) => if |bands| != 1 then Err(BadBroadcast) else BroadcastTo(bands[0], rows, cols)
  }

  /** The slots of `out` for `files`, filled in order; the first file that
      fails to load or to fit stops the fill. */
  function FillStack<T>(files: seq<string>, load: string -> Result<Array<T>>, rows: nat, cols: nat): (r: Result<seq<seq<seq<T>>>>)
    ensures r.Ok? ==> |r.value| == |files|
    ensures r.Ok? ==> forall k :: 0 <= k < |files| ==>
              && load(files[k]).Ok?
              && AssignSlot(load(files[k]).value, rows, cols) == Ok(r.value[k])
    decreases |files|
  {
    if |files| == 0 then Ok([])
    else
      var prev :- FillStack(files[..|files| - 1], load, rows, cols);
      var img :- load(files[|files| - 1]);
      var slot :- AssignSlot(img, rows, cols);
      Ok(prev + [slot])
  }

  /** Every file loading and fitting is exactly when the fill succeeds. */
  lemma {:induction false} FillStackSucceeds<T>(files: seq<string>, load: string -> Result<Array<T>>, rows: nat, cols: nat)
    requires forall k :: 0 <= k < |files| ==> load(files[k]).Ok? && AssignSlot(load(files[k]).value, rows, cols).Ok?
    ensures FillStack(files, load, rows, cols).Ok?
    decreases |files|
  {
    if |files| > 0 {
      var init := files[..|files| - 1];
      assert forall k :: 0 <= k < |init| ==> init[k] == files[k];
      FillStackSucceeds(init, load, rows, cols);
    }
  }

  /** The files `load_stack` reads: the given list, or the sorted matches of
      `*<file_ext>` in the directory (`found`). */
  function StackFiles(fileList: Option<seq<string>>, fileExt: Option<string>, found: seq<string>): (r: Result<seq<string>>)
    ensures r.Err? <==> fileList.None? && fileExt.None?
    ensures fileList.Some? ==> r == Ok(fileList.value)
  {
    if fileList.Some? then Ok(fileList.value)
    else if fileExt.None? then Err(MissingFileExt)
    else Ok(found)
  }

  /** What `load_stack` returns: the first file fixes the shape, which
      `nrows, ncols = test.shape` unpacks, so only a 2-D first image is
      accepted; then every file (the first one again) is loaded into its
      slot. */
  function LoadStackSpec<T>(fileList: Option<seq<string>>, fileExt: Option<string>, found: seq<string>,
                            load: string -> Result<Array<T>>): (r: Result<seq<seq<seq<T>>>>)
    ensures r.Ok? ==> StackFiles(fileList, fileExt, found).Ok?
    ensures StackFiles(fileList, fileExt, found) == Ok([]) ==> r == Err(IndexOutOfRange)
    ensures StackFiles(fileList, fileExt, found).Ok? && |StackFiles(fileList, fileExt, found).value| > 0 ==>
              var test := load(StackFiles(fileList, fileExt, found).value[0]);
              && (test.Err? ==> r == Err(test.error))
              && (test.Ok? && !test.value.Array2? ==> r == Err(BadUnpack))
    ensures r.Ok? ==>
              var files := StackFiles(fileList, fileExt, found).value;
              && |files| > 0 && load(files[0]).Ok? && load(files[0]).value.Array2?
              && |r.value| == |files|
              && var (rows, cols) := Shape(load(files[0]).value.m);
                 forall k :: 0 <= k < |files| ==> |r.value[k]| == rows && IsMatrix(r.value[k], cols)
  {
    var files :- StackFiles(fileList, fileExt, found);
    if |files| == 0 then Err(IndexOutOfRange)
    else
      var test :- load(files[0]);
      if !test.Array2? then Err(BadUnpack)
      else
        var (rows, cols) := Shape(test.m);
        FillStack(files, load, rows, cols)
  }

  /** When every file loads to the same rectangular shape, the stack holds
      exactly the loaded rasters, in list order. */
  lemma LoadStackExact<T>(fileList: Option<seq<string>>, fileExt: Option<string>, found: seq<string>,
                          load: string -> Result<Array<T>>, rows: nat, cols: nat)
    requires StackFiles(fileList, fileExt, found).Ok?
    requires var files := StackFiles(fileList, fileExt, found).value;
             && |files| > 0 && (rows > 0 || cols == 0)
             && forall k :: 0 <= k < |files| ==>
                  load(files[k]).Ok? && load(files[k]).value.Array2?
                  && |load(files[k]).value.m| == rows && IsMatrix(load(files[k]).value.m, cols)
    ensures var files := StackFiles(fileList, fileExt, found).value;
            var r := LoadStackSpec(fileList, fileExt, found, load);
            && r.Ok? && |r.value| == |files|
            && forall k :: 0 <= k < |files| ==> r.value[k] == load(files[k]).value.m
  {
    var files := StackFiles(fileList, fileExt, found).value;
    assert Shape(load(files[0]).value.m) == (rows, cols);
    FillStackSucceeds(files, load, rows, cols);
  }

  /** A later 1-D image is broadcast down its slot: every row of the slot is
      that image widened to the first image's width. */
  lemma LoadStackRowImage<T>(fileList: Option<seq<string>>, fileExt: Option<string>, found: seq<string>,
                             load: string -> Result<Array<T>>, k: nat)
    requires LoadStackSpec(fileList, fileExt, found, load).Ok?
    requires k < |StackFiles(fileList, fileExt, found).value|
    requires load(StackFiles(fileList, fileExt, found).value[k]).value.Array1?
    ensures var files := StackFiles(fileList, fileExt, found).value;
            var (rows, cols) := Shape(load(files[0]).value.m);
            var v := load(files[k]).value.v;
            var slot := LoadStackSpec(fileList, fileExt, found, load).value[k];
            && (|v| == cols || |v| == 1)
            && |slot| == rows && forall i :: 0 <= i < rows ==> slot[i] == BroadcastRow(v, cols)
  {
    var files := StackFiles(fileList, fileExt, found).value;
    var (rows, cols) := Shape(load(files[0]).value.m);
    assert LoadStackSpec(fileList, fileExt, found, load) == FillStack(files, load, rows, cols);
  }

  /** `load_stack`: the first file fixes the shape of every slot. */
  method LoadStack<T>(fileList: Option<seq<string>>, fileExt: Option<string>, found: seq<string>,
                      load: string -> Result<Array<T>>) returns (r: Result<seq<seq<seq<T>>>>)
    ensures r == LoadStackSpec(fileList, fileExt, found, load)
  {
    var listed := StackFiles(fileList, fileExt, found);
    if listed.Err? {
      return Err(listed.error);
    }
    var files := listed.value;
    if |files| == 0 {
      return Err(IndexOutOfRange);
    }
    var test := load(files[0]);
    if test.Err? {
      return Err(test.error);
    }
    if !test.value.Array2? {
      return Err(BadUnpack);
    }
    var shape := Shape(test.value.m);
    assert LoadStackSpec(fileList, fileExt, found, load) == FillStack(files, load, shape.0, shape.1);
    r := FillSlots(files, load, shape.0, shape.1);
  }

  /** The loop of `load_stack`: preallocates one slot per file and fills the
      slots in order, stopping at the first file that fails. */
  method FillSlots<T>(files: seq<string>, load: string -> Result<Array<T>>, rows: nat, cols: nat)
    returns (r: Result<seq<seq<seq<T>>>>)
    ensures r == FillStack(files, load, rows, cols)
  {
    var out := new seq<seq<T>>[|files|](_ => []);
    var idx := 0;
    while idx < |files|
      invariant 0 <= idx <= |files|
      invariant FillStack(files[..idx], load, rows, cols) == Ok(out[..idx])
    {
      var img := load(files[idx]);
      assert files[..idx + 1][..idx] == files[..idx];
      if img.Err? {
        FillStackStops(files, load, rows, cols, idx + 1);
        return Err(img.error);
      }
      var slot := AssignSlot(img.value, rows, cols);
      if slot.Err? {
        FillStackStops(files, load, rows, cols, idx + 1);
        return Err(slot.error);
      }
      out[idx] := slot.value;
      assert out[..idx + 1] == out[..idx] + [slot.value];
      idx := idx + 1;
    }
    assert files[..idx] == files;
    assert out[..idx] == out[..];
    return Ok(out[..]);
  }

  /** A failure in the first `n` files is the failure of the whole fill. */
  lemma {:induction false} FillStackStops<T>(files: seq<string>, load: string -> Result<Array<T>>, rows: nat, cols: nat, n: nat)
    requires n <= |files|
    requires FillStack(files[..n], load, rows, cols).Err?
    ensures FillStack(files, load, rows, cols) == FillStack(files[..n], load, rows, cols)
    decreases |files| - n
  {
    if n < |files| {
      assert files[..n + 1][..n] == files[..n];
      FillStackStops(files, load, rows, cols, n + 1);
    } else {
      assert files[..n] == files;
    }
  }
}

=== FILE: sario_names.dfy ===
/** Names and dates in `apertools/sario.py`: `_parse` (Python's
    `strptime(s, "%Y%m%d")`), `_strip_geoname`, `parse_geolist_strings`,
    `parse_intlist_strings`, the name splitting of `find_igrams`, and
    `get_full_path` with POSIX `os.path.split` / `os.path.join`. */
module SarioNames {
  import opened Base
  import opened PyStr
  import opened Calendar

  datatype Date = Date(year: int, month: int, day: int)

  predicate IsDate(d: Date) {
    ValidDate(d.year, d.month, d.day)
  }

  // ---------------------------------------------------------------------
  // strptime "%Y%m%d"

  predicate IsDigit(c: char) { '0' <= c <= '9' }

  function DigitVal(c: char): int { c as int - '0' as int }

  /** One alternative of a directive that matched: its value and where the
      match ends. */
  datatype Piece = Piece(value: int, end: nat)

  /** The alternatives of `%m` (`1[0-2]|0[1-9]|[1-9]`) that match at `i`,
      in the order the regular expression tries them. */
  function MonthAt(s: string, i: nat): (ps: seq<Piece>)
    ensures forall k :: 0 <= k < |ps| ==> i < ps[k].end <= |s| && ps[k].end <= i + 2 && 1 <= ps[k].value <= 12
  {
    (if i + 1 < |s| && s[i] == '1' && '0' <= s[i + 1] <= '2' then [Piece(10 + DigitVal(s[i + 1]), i + 2)] else []) +
    (if i + 1 < |s| && s[i] == '0' && '1' <= s[i + 1] <= '9' then [Piece(DigitVal(s[i + 1]), i + 2)] else []) +
    (if i < |s| && '1' <= s[i] <= '9' then [Piece(DigitVal(s[i]), i + 1)] else [])
  }

  /** The alternatives of `%d` (`3[01]|[12]\d|0[1-9]|[1-9]| [1-9]`) that
      match at `i`, in order. */
  function DayAt(s: string, i: nat): (ps: seq<Piece>)
    ensures forall k :: 0 <= k < |ps| ==> i < ps[k].end <= |s| && ps[k].end <= i + 2 && 1 <= ps[k].value <= 31
  {
    (if i + 1 < |s| && s[i] == '3' && '0' <= s[i + 1] <= '1' then [Piece(30 + DigitVal(s[i + 1]), i + 2)] else []) +
    (if i + 1 < |s| && '1' <= s[i] <= '2' && IsDigit(s[i + 1]) then [Piece(10 * DigitVal(s[i]) + DigitVal(s[i + 1]), i + 2)] else []) +
    (if i + 1 < |s| && s[i] == '0' && '1' <= s[i + 1] <= '9' then [Piece(DigitVal(s[i + 1]), i + 2)] else []) +
    (if i < |s| && '1' <= s[i] <= '9' then [Piece(DigitVal(s[i]), i + 1)] else []) +
    (if i + 1 < |s| && s[i] == ' ' && '1' <= s[i + 1] <= '9' then [Piece(DigitVal(s[i + 1]), i + 2)] else [])
  }

  /** The match the regular expression settles on: the first month
      alternative after which some day alternative matches, with the first
      such day alternative. The pattern is not anchored at the end. */
  function FirstMatch(s: string, ms: seq<Piece>): (r: Option<(Piece, Piece)>)
    requires forall k :: 0 <= k < |ms| ==> ms[k].end <= |s|
    ensures r.Some? ==> exists k :: 0 <= k < |ms| && r.value.0 == ms[k] && |DayAt(s, ms[k].end)| > 0 && r.value.1 == DayAt(s, ms[k].end)[0]
    ensures r.None? ==> forall k :: 0 <= k < |ms| ==> |DayAt(s, ms[k].end)| == 0
  {
    if |ms| == 0 then None
    else if |DayAt(s, ms[0].end)| > 0 then Some((ms[0], DayAt(s, ms[0].end)[0]))
    else
      var r := FirstMatch(s, ms[1..]);
      assert forall k :: 1 <= k < |ms| ==> ms[k] == ms[1..][k - 1];
      r
  }

  function YearOf(s: string): int
    requires |s| >= 4
  {
    1000 * DigitVal(s[0]) + 100 * DigitVal(s[1]) + 10 * DigitVal(s[2]) + DigitVal(s[3])
  }

  /** `_parse(datestr)`: `datetime.strptime(datestr, "%Y%m%d").date()`. The
      year is exactly four digits; a match that stops before the end of the
      string is "unconverted data remains"; an impossible date is refused by
      `datetime`. */
  function Parse(s: string): (r: Result<Date>)
    ensures r.Err? ==> r.error == BadDate
    ensures r.Ok? ==> IsDate(r.value) && 6 <= |s| <= 8 && r.value.year == YearOf(s)
    ensures r.Ok? ==> forall k :: 0 <= k < 4 ==> IsDigit(s[k])
  {
    if |s| < 4 || !(IsDigit(s[0]) && IsDigit(s[1]) && IsDigit(s[2]) && IsDigit(s[3])) then Err(BadDate)
    else
      match FirstMatch(s, MonthAt(s, 4))
      case None => Err(BadDate)
      case Some((m, d)) =>
        if d.end != |s| then Err(BadDate)
        else if !ValidDate(YearOf(s), m.value, d.value) then Err(BadDate)
        else Ok(Date(YearOf(s), m.value, d.value))
  }

  // ---------------------------------------------------------------------
  // strftime "%Y%m%d", the partner of Parse

  function Digit(n: int): (c: char)
    requires 0 <= n <= 9
    ensures IsDigit(c) && DigitVal(c) == n
  {
    ('0' as int + n) as char
  }

  /** `date.strftime("%Y%m%d")` for a year of four digits. */
  function FormatDate(d: Date): (s: string)
    requires IsDate(d)
    ensures |s| == 8 && forall k :: 0 <= k < 8 ==> IsDigit(s[k])
  {
    [Digit(d.year / 1000), Digit(d.year / 100 % 10), Digit(d.year / 10 % 10), Digit(d.year % 10),
     Digit(d.month / 10), Digit(d.month % 10), Digit(d.day / 10), Digit(d.day % 10)]
  }

  /** The day field of a formatted date is matched whole by its first
      matching alternative. */
  lemma DayOfFormat(s: string, day: int)
    requires |s| == 8 && 1 <= day <= 31
    requires s[6] == Digit(day / 10) && s[7] == Digit(day % 10)
    ensures |DayAt(s, 6)| > 0 && DayAt(s, 6)[0] == Piece(day, 8)
  {
  }

  /** The month field of a formatted date: the first alternative that
      matches takes both digits. */
  lemma MonthOfFormat(s: string, month: int)
    requires |s| == 8 && 1 <= month <= 12
    requires s[4] == Digit(month / 10) && s[5] == Digit(month % 10)
    ensures |MonthAt(s, 4)| > 0 && MonthAt(s, 4)[0] == Piece(month, 6)
  {
  }

  lemma YearOfFormat(s: string, y: int)
    requires |s| >= 4 && 0 <= y <= 9999
    requires s[0] == Digit(y / 1000) && s[1] == Digit(y / 100 % 10)
    requires s[2] == Digit(y / 10 % 10) && s[3] == Digit(y % 10)
    ensures YearOf(s) == y
  {
    assert y == 10 * (y / 10) + y % 10;
    assert y / 10 == 10 * (y / 100) + y / 10 % 10;
    assert y / 100 == 10 * (y / 1000) + y / 100 % 10;
  }

  /** Parsing a formatted date gives the date back. */
  lemma ParseFormat(d: Date)
    requires IsDate(d)
    ensures Parse(FormatDate(d)) == Ok(d)
  {
    var s := FormatDate(d);
    YearOfFormat(s, d.year);
    DayOfFormat(s, d.day);
    MonthOfFormat(s, d.month);
    assert FirstMatch(s, MonthAt(s, 4)) == Some((Piece(d.month, 6), Piece(d.day, 8)));
  }

  /** `%m` prefers `11` and `%d` then takes the last `1`. */
  lemma ParseSevenDigits()
    ensures Parse("2018111") == Ok(Date(2018, 11, 1))
  {
    var s := "2018111";
    assert MonthAt(s, 4)[0] == Piece(11, 6);
    assert DayAt(s, 6)[0] == Piece(1, 7);
  }

  /** A six-character date `YYYY11`: no digit is left for `%d` after the
      month `11`, so the regular expression backtracks to the month `1`
      and the day `1`. */
  lemma BacktrackToMonthOne(s: string)
    requires |s| == 6 && forall k :: 0 <= k < 4 ==> IsDigit(s[k])
    requires s[4] == '1' && s[5] == '1'
    requires ValidDate(YearOf(s), 1, 1)
    ensures Parse(s) == Ok(Date(YearOf(s), 1, 1))
  {
    var ms := MonthAt(s, 4);
    assert ms == [Piece(11, 6), Piece(1, 5)];
    assert |DayAt(s, 6)| == 0;
    assert DayAt(s, 5)[0] == Piece(1, 6);
    assert FirstMatch(s, ms) == Some((Piece(1, 5), Piece(1, 6)));
  }

  /** `201811` parses as 1 January 2018. */
  lemma ParseBacktracks()
    ensures Parse("201811") == Ok(Date(2018, 1, 1))
  {
    var s := "201811";
    assert YearOf(s) == 2018;
    BacktrackToMonthOne(s);
  }

  /** A thirteenth month matches as month `1`, day `30`, and then leaves a
      character over. */
  lemma ParseMonthThirteen()
    ensures Parse("20181301").Err?
  {
    var s := "20181301";
    var ms := MonthAt(s, 4);
    assert ms == [Piece(1, 5)];
    assert DayAt(s, 5)[0] == Piece(30, 7);
  }

  // ---------------------------------------------------------------------
  // Lists of date strings

  /** Python's `[f(x) for x in xs]` where `f` may raise: the first failure
      is the result. */
  function MapAll<A, B>(f: A -> Result<B>, xs: seq<A>): (r: Result<seq<B>>)
    ensures r.Ok? <==> forall k :: 0 <= k < |xs| ==> f(xs[k]).Ok?
    ensures r.Ok? ==> |r.value| == |xs| && forall k :: 0 <= k < |xs| ==> f(xs[k]) == Ok(r.value[k])
    ensures r.Err? ==> exists k :: 0 <= k < |xs| && f(xs[k]).Err? && r.error == f(xs[k]).error &&
                                   forall j :: 0 <= j < k ==> f(xs[j]).Ok?
  {
    if |xs| == 0 then Ok([])
    else
      var rest := MapAll(f, xs[1..]);
      assert forall k :: 1 <= k < |xs| ==> xs[k] == xs[1..][k - 1];
      var first :- f(xs[0]);
      var tail :- rest;
      Ok([first] + tail)
  }

  /** `parse_geolist_strings`: every string parsed, the first failure raised. */
  function ParseGeolistStrings(gs: seq<string>): (r: Result<seq<Date>>)
    ensures r.Ok? <==> forall k :: 0 <= k < |gs| ==> Parse(gs[k]).Ok?
    ensures r.Ok? ==> |r.value| == |gs| && forall k :: 0 <= k < |gs| ==> Parse(gs[k]) == Ok(r.value[k])
    ensures r.Err? ==> r.error == BadDate
  {
    MapAll(Parse, gs)
  }

  predicate IsPair(p: seq<string>) { |p| == 2 }

  /** One `early, late` unpacking and the two parses, in that order. */
  function ParsePair(p: seq<string>): (r: Result<(Date, Date)>)
    ensures !IsPair(p) ==> r == Err(BadUnpack)
    ensures r.Ok? <==> IsPair(p) && Parse(p[0]).Ok? && Parse(p[1]).Ok?
    ensures r.Ok? ==> Parse(p[0]) == Ok(r.value.0) && Parse(p[1]) == Ok(r.value.1)
  {
    if !IsPair(p) then Err(BadUnpack)
    else
      var early :- Parse(p[0]);
      var late :- Parse(p[1]);
      Ok((early, late))
  }

  /** `parse_intlist_strings`: each entry is unpacked into `(early, late)`
      (anything but two items raises) and both halves parsed, entry by entry. */
  function ParseIntlistStrings(pairs: seq<seq<string>>): (r: Result<seq<(Date, Date)>>)
    ensures r.Ok? <==> forall k :: 0 <= k < |pairs| ==> ParsePair(pairs[k]).Ok?
    ensures r.Ok? ==> |r.value| == |pairs| &&
                      forall k :: 0 <= k < |pairs| ==>
                        Parse(pairs[k][0]) == Ok(r.value[k].0) && Parse(pairs[k][1]) == Ok(r.value[k].1)
    ensures r.Err? && |pairs| > 0 && !IsPair(pairs[0]) ==> r.error == BadUnpack
  {
    var r := MapAll(ParsePair, pairs);
    assert r.Ok? ==> forall k :: 0 <= k < |pairs| ==> ParsePair(pairs[k]) == Ok(r.value[k]);
    r
  }

  // ---------------------------------------------------------------------
  // _strip_geoname

  /** `_strip_geoname`: every `S1A_`, then every `S1B_`, then every `.geo`
      removed, wherever they occur. */
  function StripGeoname(name: string): (r: string)
    ensures |r| <= |name|
    ensures !Contains(name, "S1A_") && !Contains(name, "S1B_") && !Contains(name, ".geo") ==> r == name
  {
    ReplaceAll(ReplaceAll(ReplaceAll(name, "S1A_", ""), "S1B_", ""), ".geo", "")
  }

  /** A digit string holds neither `S` nor `.`. */
  lemma DigitsFree(s: string)
    requires forall k :: 0 <= k < |s| ==> IsDigit(s[k])
    ensures 'S' !in s && '.' !in s && '_' !in s && '/' !in s
  {
  }

  /** `S1A_YYYYmmdd.geo` and `S1B_YYYYmmdd.geo` strip to the date string, and
      so parse to the acquisition date. */
  lemma StripGeonameDate(d: Date, sat: string)
    requires IsDate(d)
    requires sat == "S1A_" || sat == "S1B_"
    ensures StripGeoname(sat + FormatDate(d) + ".geo") == FormatDate(d)
    ensures Parse(StripGeoname(sat + FormatDate(d) + ".geo")) == Ok(d)
  {
    var ds := FormatDate(d);
    DigitsFree(ds);
    var t := ds + ".geo";
    assert sat + ds + ".geo" == sat + t;
    assert 'S' !in t by { assert t[|ds|..] == ".geo"; }
    if sat == "S1A_" {
      StripSatA(t);
    } else {
      StripSatB(t);
    }
    ReplaceAtEnd(ds, ".geo");
    ParseFormat(d);
  }

  /** A name without `S` holds neither satellite prefix. */
  lemma NoSatellite(t: string)
    requires 'S' !in t
    ensures ReplaceAll(t, "S1A_", "") == t && ReplaceAll(t, "S1B_", "") == t
  {
    ReplaceSkips(t, "", "S1A_", "");
    ReplaceSkips(t, "", "S1B_", "");
    assert t + "" == t;
  }

  lemma StripSatA(t: string)
    requires 'S' !in t
    ensures ReplaceAll(ReplaceAll("S1A_" + t, "S1A_", ""), "S1B_", "") == t
  {
    StripFirst("S1A_", "S1B_", t);
  }

  /** Removing `p` then `q` from `p + t`, when neither starts with a
      character of `t`. */
  lemma StripFirst(p: string, q: string, t: string)
    requires |p| > 0 && |q| > 0 && p[0] !in t && q[0] !in t
    ensures ReplaceAll(ReplaceAll(p + t, p, ""), q, "") == t
  {
    ReplaceAtFront(t, p, "");
    ReplaceSkips(t, "", p, "");
    ReplaceSkips(t, "", q, "");
    assert t + "" == t;
    assert "" + t == t;
  }

  lemma StripSatB(t: string)
    requires 'S' !in t
    ensures ReplaceAll(ReplaceAll("S1B_" + t, "S1A_", ""), "S1B_", "") == t
  {
    var s := "S1B_" + t;
    var rest := "1B_" + t;
    assert s == ['S'] + rest;
    assert !("S1A_" <= s) by { assert s[2] == 'B'; }
    assert s[1..] == rest;
    ReplaceSkips(rest, "", "S1A_", "");
    assert rest + "" == rest;
    ReplaceAtFront(t, "S1B_", "");
    NoSatellite(t);
  }

  // ---------------------------------------------------------------------
  // find_igrams

  /** The characters `str.strip('.int')` removes from either end. */
  const IntChars: set<char> := {'.', 'i', 'n', 't'}

  /** The `find_igrams` step for one file: the base name, stripped of the
      characters `.`, `i`, `n`, `t` at both ends, split on `_`. */
  function IgramNameParts(path: string): (r: seq<string>)
    ensures |r| >= 1 && forall k :: 0 <= k < |r| ==> '_' !in r[k]
    ensures Join(r, '_') == Strip(PathSplit(path).1, IntChars)
  {
    JoinSplit(Strip(PathSplit(path).1, IntChars), '_');
    Split(Strip(PathSplit(path).1, IntChars), '_')
  }

  /** `find_igrams(..., parse=True)` over the listed files. */
  function IgramDatePairs(paths: seq<string>): (r: Result<seq<(Date, Date)>>)
    ensures r.Ok? ==> |r.value| == |paths|
    ensures r.Ok? <==> forall k :: 0 <= k < |paths| ==> ParsePair(IgramNameParts(paths[k])).Ok?
  {
    var parts := seq(|paths|, k requires 0 <= k < |paths| => IgramNameParts(paths[k]));
    assert forall k :: 0 <= k < |paths| ==> parts[k] == IgramNameParts(paths[k]);
    ParseIntlistStrings(parts)
  }

  /** `(x + t).strip('.int') == x` when `t` holds only stripped characters
      and `x` starts and ends with kept ones. */
  lemma StripIntTail(x: string, t: string)
    requires |x| > 0 && x[0] !in IntChars && x[|x| - 1] !in IntChars
    requires forall i :: 0 <= i < |t| ==> t[i] in IntChars
    ensures Strip(x + t, IntChars) == x
  {
    StripAround("", x, t, IntChars);
    assert "" + x + t == x + t;
  }

  lemma SplitUnderscore(e: string, l: string)
    requires '_' !in e && '_' !in l
    ensures Split(e + "_" + l, '_') == [e, l]
  {
    assert e + "_" + l == e + ['_'] + l;
    SplitConcat(e, l, '_');
    SplitNoSep(e, '_');
    SplitNoSep(l, '_');
  }

  /** The base name `e_l<t>` of a file in `dir` splits into `e` and `l` when
      those are digit strings and `t` holds only stripped characters. */
  lemma IgramNamePartsOf(dir: string, e: string, l: string, t: string)
    requires |e| > 0 && |l| > 0
    requires forall k :: 0 <= k < |e| ==> IsDigit(e[k])
    requires forall k :: 0 <= k < |l| ==> IsDigit(l[k])
    requires forall i :: 0 <= i < |t| ==> t[i] in IntChars
    ensures IgramNameParts(dir + "/" + (e + "_" + l + t)) == [e, l]
  {
    DigitsFree(e);
    DigitsFree(l);
    var x := e + "_" + l;
    var name := x + t;
    NameHasNoSlash(x, t);
    var path := dir + "/" + name;
    PathSplitLast(dir, name);
    assert PathSplit(path).1 == name;
    assert x[0] == e[0] && x[|x| - 1] == l[|l| - 1];
    StripIntTail(x, t);
    assert Strip(PathSplit(path).1, IntChars) == x;
    SplitUnderscore(e, l);
    assert IgramNameParts(path) == Split(x, '_');
  }

  lemma NameHasNoSlash(x: string, t: string)
    requires '/' !in x
    requires forall i :: 0 <= i < |t| ==> t[i] in IntChars
    ensures '/' !in x + t
  {
    forall i | 0 <= i < |t| ensures t[i] != '/' { assert t[i] in IntChars; }
  }

  /** An interferogram `dir/YYYYmmdd_YYYYmmdd<t>` gives its two dates when
      the tail `t` consists only of the characters `.`, `i`, `n`, `t`: not
      just `.int`, but `.tni` or `.i.n` as well. */
  lemma IgramNameDates(dir: string, early: Date, late: Date, t: string)
    requires IsDate(early) && IsDate(late)
    requires forall i :: 0 <= i < |t| ==> t[i] in IntChars
    ensures IgramDatePairs([dir + "/" + (FormatDate(early) + "_" + FormatDate(late) + t)]) == Ok([(early, late)])
  {
    var e := FormatDate(early);
    var l := FormatDate(late);
    IgramNamePartsOf(dir, e, l, t);
    ParseFormat(early);
    ParseFormat(late);
    OneIgram(dir + "/" + (e + "_" + l + t), e, l, early, late);
  }

  lemma OneIgram(path: string, e: string, l: string, early: Date, late: Date)
    requires IgramNameParts(path) == [e, l]
    requires Parse(e) == Ok(early) && Parse(l) == Ok(late)
    ensures IgramDatePairs([path]) == Ok([(early, late)])
  {
    var pairs := seq(1, k requires 0 <= k < 1 => IgramNameParts([path][k]));
    assert pairs == [[e, l]];
    assert ParsePair([e, l]) == Ok((early, late));
    MapAllSingle(ParsePair, [e, l]);
  }

  lemma MapAllSingle<A, B>(f: A -> Result<B>, x: A)
    requires f(x).Ok?
    ensures MapAll(f, [x]) == Ok([f(x).value])
  {
    assert [x][1..] == [];
    assert MapAll(f, []) == Ok([]);
    assert [f(x).value] + [] == [f(x).value];
  }

  // ---------------------------------------------------------------------
  // get_full_path, POSIX paths

  /** Where the last component of `p` starts: one past its last `/`. */
  function TailStart(p: string): (i: nat)
    ensures i <= |p|
    ensures '/' !in p[i..]
    ensures i > 0 ==> p[i - 1] == '/'
  {
    if |p| == 0 then 0
    else if p[|p| - 1] == '/' then |p|
    else
      var i := TailStart(p[..|p| - 1]);
      assert p[i..] == p[..|p| - 1][i..] + [p[|p| - 1]];
      i
  }

  predicate AllSlashes(s: string) {
    forall k :: 0 <= k < |s| ==> s[k] == '/'
  }

  /** `os.path.split(p)`: everything after the last `/` is the tail; the head
      keeps its trailing slashes only when it is nothing but slashes. */
  function PathSplit(p: string): (r: (string, string))
    ensures '/' !in r.1 && EndsWith(p, r.1)
    ensures StartsWith(p, r.0)
  {
    var i := TailStart(p);
    var head := p[..i];
    var tail := p[i..];
    var h := if |head| > 0 && !AllSlashes(head) then RStrip(head, {'/'}) else head;
    assert p[|p| - |tail|..] == tail;
    (h, tail)
  }

  /** `os.path.join(a, b)`. */
  function PathJoin(a: string, b: string): (r: string)
    ensures EndsWith(r, b)
  {
    if StartsWith(b, "/") then b
    else if |a| == 0 || EndsWith(a, "/") then a + b
    else a + "/" + b
  }

  /** A path ending in a slash-free name splits off that name, and a
      directory without trailing slash is recovered as the head. */
  lemma PathSplitLast(d: string, f: string)
    requires '/' !in f
    ensures PathSplit(d + "/" + f).1 == f
    ensures |d| > 0 && d[|d| - 1] != '/' ==> PathSplit(d + "/" + f).0 == d
  {
    var p := d + "/" + f;
    TailAfterSlash(d + "/", f);
    var head := p[..|d| + 1];
    assert head == d + "/";
    if |d| > 0 && d[|d| - 1] != '/' {
      assert !AllSlashes(head) by { assert head[|d| - 1] != '/'; }
      RStripSuffix(d, "/", {'/'});
    }
  }

  lemma {:induction false} TailAfterSlash(h: string, f: string)
    requires |h| > 0 && h[|h| - 1] == '/' && '/' !in f
    ensures TailStart(h + f) == |h|
    decreases |f|
  {
    if |f| == 0 {
      assert h + f == h;
    } else {
      var p := h + f;
      assert p[|p| - 1] == f[|f| - 1];
      assert p[..|p| - 1] == h + f[..|f| - 1];
      TailAfterSlash(h, f[..|f| - 1]);
    }
  }

  /** `get_full_path(directory, filename, full_path)`: a truthy `full_path`
      is split into directory and file name; otherwise the two are joined,
      which needs both to be strings. */
  function GetFullPath(directory: Option<string>, filename: Option<string>, fullPath: Option<string>): (r: Result<(string, string, string)>)
    ensures fullPath.Some? && |fullPath.value| > 0 ==>
              r == Ok((PathSplit(fullPath.value).0, PathSplit(fullPath.value).1, fullPath.value))
    ensures !(fullPath.Some? && |fullPath.value| > 0) ==>
              (r.Ok? <==> directory.Some? && filename.Some?) &&
              (r.Err? ==> r.error == NotAString) &&
              (r.Ok? ==> r.value == (directory.value, filename.value, PathJoin(directory.value, filename.value)))
  {
    if fullPath.Some? && |fullPath.value| > 0 then
      var (d, f) := PathSplit(fullPath.value);
      Ok((d, f, fullPath.value))
    else if directory.None? || filename.None? then Err(NotAString)
    else Ok((directory.value, filename.value, PathJoin(directory.value, filename.value)))
  }

  /** Joining a directory and a file name and passing the result back as
      `full_path` recovers both. */
  lemma GetFullPathRoundTrip(d: string, f: string)
    requires |d| > 0 && d[|d| - 1] != '/' && |f| > 0 && '/' !in f
    ensures var r := GetFullPath(Some(d), Some(f), None);
            r.Ok? && GetFullPath(None, None, Some(r.value.2)) == r
  {
    assert !StartsWith(f, "/") by { assert f[0] != '/'; }
    assert !EndsWith(d, "/") by { assert d[|d| - 1..] != "/"; }
    assert PathJoin(d, f) == d + "/" + f;
    PathSplitLast(d, f);
  }
}
